=== FILE: README.md ===
# admin-recruit front end, modelled in Dafny

This project models the client-side logic of the admin-recruit dashboard, a
Next.js/React administration front end for recruitment requests, approval
steps, special-leave lists, production lines, role permissions and
notifications. Each React component becomes a Dafny module of pure functions
over immutable records. A state hook's value is a record field, an event
handler is a function from the old state to the new state, and a rendered
decision (a label, a disabled flag, a placeholder) is a function or predicate
of the state. Network answers, clocks and date formatting are parameters.

Modules:

- Wrappers: `Option` and `Outcome`. `Outcome` says whether an awaited call resolved or threw.
- Seqs: generic `Filter`, `Map` and first-occurrence `DedupBy`, with their reference properties.
- Text: `trim`, blank tests, ASCII upper-casing, removal of whitespace, decimal rendering and the last path segment.
- QueryString: the `URLSearchParams` serialization and parsing used for query strings.
- Utils: `truncate`.
- RolePermissions: the role editor. Covers the permission catalogue, the encoder that builds the saved action list, the decoder that loads one, and the checkbox handlers.
- Navbar: the notification bell. Covers infinite-query paging, de-duplication by `_id`, the unread tab, icons and the theme switch.
- ApprovalTypes, CodeApprove, SpecificCodeDialog and ExcludeCodeDialog: the approval-step editor and its two per-step dialogs.
- AllRequest and RequestQuery: the all-requests screen and the URL and query key of its fetch.
- Adoption: the adoption list page.
- ResignTypes, LeaveSpecial and EmployeeDialog: the special-leave page and its employee dialog.
- LineTypes, LineList and LineDialog: the production-line list and its add/edit dialog.
- FileManagement: the file screen.
- LoginForm and UserForm: the two zod-validated forms.

## Model

| member | source | states |
|---|---|---|
| Utils.Truncate | src/lib/utils.ts:22-27 | the result is a prefix of the input: the whole string when it fits, exactly `length` characters otherwise, and for a negative length the input minus its last `-length` characters (`slice` counts from the end) |
| Utils.TruncateIdempotent | src/lib/utils.ts:22-27 | for a non-negative length, truncating twice equals truncating once |
| Utils.TruncateNegativeNotIdempotent | src/lib/utils.ts:22-27 | with a negative length a second truncation shortens again: `truncate(truncate("abc",-1),-1)` is "a" and not "ab" |
| Text.Trim | src/components/lines-mfg/line-dialog.tsx:43 | `trim()` returns the slice between the leading and trailing whitespace runs; the slice neither starts nor ends with whitespace |
| Text.BlankIffAllSpace | src/components/lines-mfg/line-dialog.tsx:43 | `s.trim() === ''` holds exactly when every character is whitespace |
| Text.ToUpper | src/components/all-request/all-request.tsx:232 | upper-casing keeps the length, leaves no lower-case letter, keeps every other character and keeps whitespace where it was |
| Text.StripSpaces | src/components/all-request/all-request.tsx:232 | removing whitespace leaves a subsequence of the input with no whitespace that keeps every non-whitespace character, each exactly as often as in the input |
| Text.NatToStringRoundTrip | src/app/dashboard/adoption/page.tsx:79-80 | reading back the decimal rendering of a natural number gives the number |
| Text.LastSegment | src/components/file-management/file-management.tsx:118 | `split('/').pop()` is the longest suffix without a slash, and is preceded by a slash when it is not the whole string |
| Text.LastSegmentAfterSlash | src/components/file-management/file-management.tsx:118 | the last segment of `prefix + "/" + name` is `name` when `name` has no slash |
| QueryString.SplitJoin | src/app/dashboard/adoption/page.tsx:95 | splitting a joined list on a separator that no part contains gives the parts back |
| QueryString.DecodeEscape | src/app/dashboard/adoption/page.tsx:95 | percent-decoding an escaped value gives the value back |
| QueryString.ParseSerialize | src/app/dashboard/adoption/page.tsx:78-95 | parsing the serialized pairs gives the pairs back when no key and no value holds `%`, `&`, `#`, `+`, and no key holds `=` |
| QueryString.ParseSerializeEscaped | src/app/dashboard/adoption/page.tsx:78-95 | with escaped values, any values read back, provided the keys are plain |
| Seqs.DedupByFirstOccurrences | src/components/layout/navbar.tsx:87-100 | first-occurrence de-duplication keeps one element per key, the same key set, each key's first element, in order of first appearance |
| Seqs.FilterPartition | src/components/lines-mfg/LineMfg.tsx:58-59 | the counts of two complementary filters add up to the length |
| RolePermissions.EncodeMembership | src/components/roles/add-role.tsx:177-186 | an entry is saved iff it is the (ActionName, Route) pair of some catalogue slot whose `${permission.id}-${action.id}` key is ticked |
| RolePermissions.EncodeIsFilteredSlots | src/components/roles/add-role.tsx:177-186 | the saved list is the catalogue's slots, in catalogue order, filtered by ticked keys and mapped to entries |
| RolePermissions.EncodeIgnoresUnknownKeys | src/components/roles/add-role.tsx:177-186 | ticked keys that name no catalogue slot do not change what is saved |
| RolePermissions.DecodeSpec | src/components/roles/add-role.tsx:115-147 | the loaded selection ticks exactly the keys of the slots whose exact entry is in the saved list, and ticks each with `true` |
| RolePermissions.EntryPassesPrefix | src/components/roles/add-role.tsx:122-124 | the `startsWith(route)` pre-filter never drops an entry that matches a slot exactly |
| RolePermissions.CatalogueWellFormed | src/components/roles/add-role.tsx:25-92 | the six screens have distinct routes and no screen repeats an action key |
| RolePermissions.RouteInjective | src/components/roles/add-role.tsx:182 | `${route}/${key}` determines both the route and the key |
| RolePermissions.SlotEntryInjective | src/components/roles/add-role.tsx:180-183 | in a well-formed catalogue, two slots with the same saved entry are the same slot |
| RolePermissions.DecodeEncode | src/components/roles/add-role.tsx:115-186 | loading what was saved ticks exactly the catalogue keys that were ticked |
| RolePermissions.EncodeDecodeSlots | src/components/roles/add-role.tsx:115-186 | saving what was loaded keeps exactly the loaded entries that belong to a slot |
| RolePermissions.CatalogueKeysUnique | src/components/roles/add-role.tsx:25-92 | no two catalogue slots share a selection key |
| RolePermissions.Toggle | src/components/roles/add-role.tsx:149-155 | the clicked key becomes the negation of its old state, a missing key counting as unticked; every other key is unchanged |
| RolePermissions.ToggleTwice | src/components/roles/add-role.tsx:149-155 | two clicks restore every checkbox, and the map itself when the key was present |
| RolePermissions.FindPermission | src/components/roles/add-role.tsx:159-160 | finds a screen with the id iff one exists |
| RolePermissions.SelectAll | src/components/roles/add-role.tsx:157-165 | an unknown id changes nothing; otherwise every action of that screen gets `checked` and every key outside the group is unchanged |
| RolePermissions.SelectAllLeavesOtherScreens | src/components/roles/add-role.tsx:157-165 | the select-all of one screen leaves every checkbox of the other screens alone |
| RolePermissions.SelectAllGroupChecked | src/components/roles/add-role.tsx:157-260 | after select-all, the group checkbox shows `checked` |
| RolePermissions.CatalogueSelectAllReady | src/components/roles/add-role.tsx:25-92 | the catalogue's screen ids are distinct, its keys are unique and each screen has four actions |
| RolePermissions.Submit | src/components/roles/add-role.tsx:167-211 | a blank name stops the save; otherwise the request carries the name and the encoded actions, and is an update exactly when a non-empty role id is given |
| RolePermissions.SaveAfterLoad | src/components/roles/add-role.tsx:115-211 | editing a role and saving it unchanged sends back exactly the catalogue part of the list it was loaded from |
| Navbar.NextPageParam | src/components/layout/navbar.tsx:77-82 | a next page is requested only when the last page says one exists, and it is the page the server named |
| Navbar.FlattenContents | src/components/layout/navbar.tsx:91-92 | the flattened pages hold exactly the notifications of the loaded pages |
| Navbar.Merge | src/components/layout/navbar.tsx:87-100 | no pages gives no notifications; otherwise one notification per `_id`, every loaded id present, each the first with its id, in order of first appearance |
| Navbar.MergeLoop | src/components/layout/navbar.tsx:87-100 | the forEach/Map loop as written computes `Merge` |
| Navbar.UnreadTab | src/components/layout/navbar.tsx:245 | the unread tab lists the unread notifications, all of them, in list order, each as often as in the list |
| Navbar.UnreadCountComplement | src/components/layout/navbar.tsx:102 | unread plus read notifications make up the list |
| Navbar.UnreadCountZero | src/components/layout/navbar.tsx:102 | the badge count is zero iff every notification is read |
| Navbar.ClickAction | src/components/layout/navbar.tsx:153-156 | a click marks the notification read, by its id, only when it is unread |
| Navbar.ToggleTheme | src/components/layout/navbar.tsx:256 | the switch gives `light` exactly from `dark`, and always gives one of the two |
| Navbar.ToggleThemeTwice | src/components/layout/navbar.tsx:256 | switching twice restores a light or dark theme; from any other theme it lands on `light` |
| Navbar.IconFor | src/components/layout/navbar.tsx:342 | a known type shows its table icon, an unknown type the default icon |
| Navbar.KnownIconsDistinct | src/types/notification.ts:44-51 | the five request events have five different icons, none of them the default |
| CodeApprove.Reset | src/components/code-approve/CodeApprove.tsx:38-43 | the form goes to no group, `active`, position 0 and add mode; the dialog stays as it was |
| CodeApprove.OpenAdd | src/components/code-approve/CodeApprove.tsx:45-48 | the add button opens the dialog with no group, status `active`, position 0 and no step held |
| CodeApprove.OpenAddAfterEdit | src/components/code-approve/CodeApprove.tsx:45-95 | the add button after an edit forgets the edited step: the group picker is back and a save is an add, not an update |
| CodeApprove.Edit | src/components/code-approve/CodeApprove.tsx:50-56 | editing opens the dialog on the step with its status and position, keeping the group |
| CodeApprove.SaveCallOf | src/components/code-approve/CodeApprove.tsx:58-70 | save updates the selected step or adds a step to the chosen group, with the form's status and position |
| CodeApprove.Cancel | src/components/code-approve/CodeApprove.tsx:148-151 | cancel closes the dialog and leaves no step held, no group, status `active` and position 0 |
| CodeApprove.AfterSave | src/components/code-approve/CodeApprove.tsx:58-70 | a save that resolved closes and resets the dialog; a thrown save leaves the form as it was |
| CodeApprove.SaveResolvedIsCancel | src/components/code-approve/CodeApprove.tsx:58-151 | a successful save leaves the same state as cancel |
| CodeApprove.EditThenSave | src/components/code-approve/CodeApprove.tsx:50-70 | saving right after edit updates that step with its own status and position |
| CodeApprove.PickGroup | src/components/code-approve/CodeApprove.tsx:100-103 | picking a group sets only the group id; status, position, held step and dialog are kept |
| CodeApprove.GroupPickerShown | src/components/code-approve/CodeApprove.tsx:59-95 | the group picker shows exactly when a save would add a step, and exactly under the add title |
| CodeApprove.AddThenSave | src/components/code-approve/CodeApprove.tsx:45-70 | open, pick a group, save adds an `active` step at position 0 of that group |
| CodeApprove.DialogTitle | src/components/code-approve/CodeApprove.tsx:86 | the title says edit exactly in edit mode |
| CodeApprove.StatusBadge | src/components/code-approve/CodeApprove.tsx:192 | the badge reads active exactly for status `active` |
| CodeApprove.SortSteps | src/components/code-approve/CodeApprove.tsx:184 | sorting is a permutation of the steps |
| CodeApprove.SortStepsSorted | src/components/code-approve/CodeApprove.tsx:184 | sorted steps are ordered by `indexSTT` |
| CodeApprove.SortStepsStable | src/components/code-approve/CodeApprove.tsx:184 | steps with equal `indexSTT` keep their relative order (the sort is stable) |
| CodeApprove.SortStepsSortedInput | src/components/code-approve/CodeApprove.tsx:184 | already sorted steps come back unchanged |
| CodeApprove.TableRows | src/components/code-approve/CodeApprove.tsx:177-184 | the body's step rows are the loaded steps, each as often as loaded; an absent list gives none |
| CodeApprove.Placeholder | src/components/code-approve/CodeApprove.tsx:177-184 | the placeholder shows exactly when the list is loaded and has no row; otherwise a loaded list shows at least one row |
| SpecificCodeDialog.Reset | src/components/code-approve/SpecificCodeDialog.tsx:39-44 | the form goes back to three empty fields in add mode |
| SpecificCodeDialog.Edit | src/components/code-approve/SpecificCodeDialog.tsx:46-51 | editing copies the row's code, name and email and remembers its index |
| SpecificCodeDialog.SaveCallOf | src/components/code-approve/SpecificCodeDialog.tsx:53-64 | save sends the three fields, as an update at the remembered index in edit mode and as an add otherwise |
| SpecificCodeDialog.AfterSave | src/components/code-approve/SpecificCodeDialog.tsx:53-64 | a resolved save resets the form; a thrown one keeps it |
| SpecificCodeDialog.Cancel | src/components/code-approve/SpecificCodeDialog.tsx:106 | cancel empties code, name and email and leaves edit mode |
| SpecificCodeDialog.CancelDropsEditedRow | src/components/code-approve/SpecificCodeDialog.tsx:46-106 | after editing a row, cancel makes the next save an add of a blank specific instead of an update of that row |
| SpecificCodeDialog.SaveLabel | src/components/code-approve/SpecificCodeDialog.tsx:110 | the button reads update exactly in edit mode |
| SpecificCodeDialog.Rows | src/components/code-approve/SpecificCodeDialog.tsx:127-151 | no step shows the placeholder; otherwise one row per specific, in order, each with its own index |
| SpecificCodeDialog.EditRowThenSave | src/components/code-approve/SpecificCodeDialog.tsx:46-144 | editing a row and saving updates that row's index with its own fields |
| SpecificCodeDialog.BlankSaveIsSent | src/components/code-approve/SpecificCodeDialog.tsx:53-64 | the handler does not check for empty fields, so a blank add is sent |
| SpecificCodeDialog.ThrownSaveKeepsTarget | src/components/code-approve/SpecificCodeDialog.tsx:53-64 | after a failed save, saving again retries the same call |
| ExcludeCodeDialog.Reset | src/components/code-approve/ExcludeCodeDialog.tsx:37-40 | the form goes back to an empty code in add mode |
| ExcludeCodeDialog.Edit | src/components/code-approve/ExcludeCodeDialog.tsx:42-45 | editing copies the row's code and remembers its index |
| ExcludeCodeDialog.SaveCallOf | src/components/code-approve/ExcludeCodeDialog.tsx:47-58 | save sends the code, as an update at the remembered index in edit mode and as an add otherwise |
| ExcludeCodeDialog.AfterSave | src/components/code-approve/ExcludeCodeDialog.tsx:47-58 | a resolved save resets the form; a thrown one keeps it |
| ExcludeCodeDialog.Cancel | src/components/code-approve/ExcludeCodeDialog.tsx:82 | cancel empties the code and leaves edit mode |
| ExcludeCodeDialog.CancelDropsEditedRow | src/components/code-approve/ExcludeCodeDialog.tsx:42-82 | after editing a row, cancel makes the next save an add of a blank exclude instead of an update of that row |
| ExcludeCodeDialog.Rows | src/components/code-approve/ExcludeCodeDialog.tsx:101-123 | no step shows the placeholder; otherwise one row per exclude, in order, each with its own index |
| ExcludeCodeDialog.EditRowThenSave | src/components/code-approve/ExcludeCodeDialog.tsx:42-58 | editing a row and saving updates that row's index with its own code |
| ExcludeCodeDialog.SaveAfterSuccessAdds | src/components/code-approve/ExcludeCodeDialog.tsx:47-58 | after a successful save the next save is an add |
| AllRequest.FilterByDate | src/components/all-request/all-request.tsx:202-218 | the table keeps, in order, exactly the rows whose creation date matches the picked range, each as often as in the data; without data it is empty |
| AllRequest.FilterByDateCases | src/components/all-request/all-request.tsx:202-218 | no start date keeps every row; a full range keeps the rows inside it; a start alone keeps every row created on or after it |
| AllRequest.ProcessCode | src/components/all-request/all-request.tsx:232 | a process code has no whitespace and no lower-case letter, and keeps every non-blank character of the upper-cased title, each exactly as often as there |
| AllRequest.ProcessCodeUppercasesNonBlanks | src/components/all-request/all-request.tsx:232 | the code is the upper-cased title with its whitespace removed |
| AllRequest.ProcessCodeIdempotent | src/components/all-request/all-request.tsx:232 | deriving a code from a code gives it back |
| AllRequest.AddProcess | src/components/all-request/all-request.tsx:230-242 | a blank title changes nothing; otherwise the process is appended and the input is cleared |
| AllRequest.ProcessIndex | src/components/all-request/all-request.tsx:244-247 | finds the first process with the code, or none when no process has it |
| AllRequest.ProcessChange | src/components/all-request/all-request.tsx:244-247 | a known code sends an update with the request id, the code and that process's title; an unknown code sends nothing |
| AllRequest.AddedProcessSelectable | src/components/all-request/all-request.tsx:230-247 | a process just added can always be picked; picking it sends the typed title when its code is new, and the earlier stage's title when an earlier stage has the same code |
| AllRequest.FilterParam | src/components/all-request/all-request.tsx:196-198 | the filter is omitted exactly for `all`, and is otherwise the choice itself |
| AllRequest.ConfirmRecCode | src/components/all-request/all-request.tsx:276-283 | confirming stores the code for that request, opens the dialog on it and keeps every other request's code |
| AllRequest.UpdateRecCode | src/components/all-request/all-request.tsx:285-318 | the update is sent iff a request is current and its code is non-empty; the dialog closes on every path |
| AllRequest.ConfirmThenUpdate | src/components/all-request/all-request.tsx:276-318 | confirming a non-empty code and then updating sends exactly that code for that request |
| AllRequest.RecCodeToast | src/components/all-request/all-request.tsx:304-315 | success shows a success toast; otherwise an error toast; the server's message is used when it has one, and the text is never empty |
| AllRequest.KeyDown | src/components/all-request/all-request.tsx:128-133 | Enter with a non-empty value confirms it and leaves edit mode; any other key changes nothing |
| AllRequest.Blur | src/components/all-request/all-request.tsx:135-140 | leaving the field confirms only a changed, non-empty value typed in edit mode, and always leaves edit mode |
| AllRequest.UnchangedInput | src/components/all-request/all-request.tsx:121-140 | blurring an untouched field confirms nothing; Enter on it re-confirms the stored code |
| AllRequest.InputDisabled | src/components/all-request/all-request.tsx:521-525 | the code input is read-only exactly when it opens holding the request's stored code |
| AllRequest.DisabledHidesCheck | src/components/all-request/all-request.tsx:154-158 | a read-only input never shows the check button, whatever it holds |
| AllRequest.CheckShownMeansBlurConfirms | src/components/all-request/all-request.tsx:135-158 | whenever the check button shows, leaving the field would confirm the typed value |
| AllRequest.StatusLabelVerbatim | src/components/all-request/all-request.tsx:507-517 | an unknown status is shown verbatim, and the known statuses have distinct labels |
| RequestQuery.Url | src/lib/react-query/queries/all-request.ts:17-22 | the URL starts with the base, the path and the page/limit head |
| RequestQuery.AppendIfExtends | src/lib/react-query/queries/all-request.ts:19-22 | each optional filter only extends the URL |
| RequestQuery.QueryIsSerializedPairs | src/lib/react-query/queries/all-request.ts:17-22 | the query text is the `&`-joined `key=value` list of page, limit and the truthy filters, in that order |
| RequestQuery.QueryReadsBack | src/lib/react-query/queries/all-request.ts:17-22 | when no value holds `%`, `&`, `#` or `+`, the server reads back exactly the parameters the hook was given |
| RequestQuery.AmpersandSplitsSearch | src/lib/react-query/queries/all-request.ts:19 | the search `R&D` is sent unescaped and the server reads four parameters instead of three |
| RequestQuery.EscapedQueryReadsBack | src/lib/react-query/queries/all-request.ts:17-22 | with each value escaped, the server reads back exactly the parameters, whatever they hold |
| RequestQuery.EscapedUrl | src/lib/react-query/queries/all-request.ts:17-22 | the corrected URL has the same path, and the receiver reads back exactly the hook's parameters from its query |
| RequestQuery.EscapedUrlAgrees | src/lib/react-query/queries/all-request.ts:17-22 | when no filter value holds a special character, the corrected URL is the URL the hook builds |
| RequestQuery.QueryKeyInjective | src/lib/react-query/queries/all-request.ts:15 | different parameters get different cache keys |
| RequestQuery.EmptySearchSameUrl | src/lib/react-query/queries/all-request.ts:15-19 | an empty search and no search fetch the same URL under two different cache keys |
| Adoption.QueryParams | src/app/dashboard/adoption/page.tsx:78-92 | page and limit come first, followed by one parameter per filter that is set |
| Adoption.QueryParamsMembers | src/app/dashboard/adoption/page.tsx:78-92 | the parameters are exactly page, limit, a chosen status or type, a non-empty code and each date end that is set |
| Adoption.QueryParamsKeys | src/app/dashboard/adoption/page.tsx:82-92 | each optional key is sent iff its condition holds |
| Adoption.QueryParamsReadBack | src/app/dashboard/adoption/page.tsx:78-95 | the server reads back exactly the parameters built |
| Adoption.Reset | src/app/dashboard/adoption/page.tsx:111-117 | reset clears the range and the code, sets both selects to `all` and goes to page 1 |
| Adoption.ResetSendsOnlyPaging | src/app/dashboard/adoption/page.tsx:62-117 | after reset the page is in its initial state and asks for page 1 with no filter |
| Adoption.TypeLabel | src/app/dashboard/adoption/page.tsx:288 | only `direct` reads Direct, and everything else reads Indirect |
| Adoption.StatusLabel | src/app/dashboard/adoption/page.tsx:303-309 | pending reads "Chờ duyệt", processing "Đang xử lý", approved "Đã duyệt", and every other status reads rejected |
| Adoption.PagerRules | src/app/dashboard/adoption/page.tsx:342-354 | a pager button is usable iff the server's flag allows it and nothing is loading; before any answer both are disabled; a click changes the filters exactly then, by one page turn |
| Adoption.Click | src/app/dashboard/adoption/page.tsx:339-357 | a click changes no filter but the page |
| Adoption.Turn | src/app/dashboard/adoption/page.tsx:342-353 | the pager moves one page and changes no filter |
| LeaveSpecial.WithoutCounts | src/app/dashboard/leave-special/page.tsx:309-315 | removing an id drops every copy of it and keeps every other id's count |
| LeaveSpecial.Toggle | src/app/dashboard/leave-special/page.tsx:309-315 | ticking an unselected id appends it; ticking a selected one removes it and keeps the rest in order |
| LeaveSpecial.ToggleTwice | src/app/dashboard/leave-special/page.tsx:309-315 | two ticks keep the same set of ids, and the same list when the id was not selected |
| LeaveSpecial.ToggleKeepsDistinct | src/app/dashboard/leave-special/page.tsx:309-315 | a selection without duplicates stays without duplicates |
| LeaveSpecial.SelectAll | src/app/dashboard/leave-special/page.tsx:317-323 | when the counts are equal the selection is cleared; otherwise it becomes every id on the page, in order |
| LeaveSpecial.SelectAllFlipsHeader | src/app/dashboard/leave-special/page.tsx:317-527 | the header is checked after select-all iff the page is non-empty and it was unchecked; a checked header clears the selection |
| LeaveSpecial.SelectAllComparesLengthsOnly | src/app/dashboard/leave-special/page.tsx:317-527 | a stale id of another page counts as "all selected", so the header shows checked and select-all clears it |
| LeaveSpecial.PrevPage | src/app/dashboard/leave-special/page.tsx:727-728 | the previous page never goes below 1 |
| LeaveSpecial.PagerStaysInRange | src/app/dashboard/leave-special/page.tsx:727-739 | an enabled next button stays within the page count; an enabled previous button goes one page back and stays at or above 1; forward then back returns to the page; back then forward returns from above page 1, and goes from page 1 to page 2 |
| LeaveSpecial.BulkDeleteRequest | src/app/dashboard/leave-special/page.tsx:267-278 | nothing is sent with an empty selection; otherwise the department and the selected ids are sent |
| LeaveSpecial.AfterBulkDelete | src/app/dashboard/leave-special/page.tsx:279-292 | success clears the selection, refetches and reports the count; failure keeps the selection and reports an error |
| LeaveSpecial.DefaultDepartment | src/app/dashboard/leave-special/page.tsx:213-217 | with nothing chosen the first department is chosen; a choice already made is kept |
| LeaveSpecial.DefaultDepartmentSettles | src/app/dashboard/leave-special/page.tsx:213-217 | running the defaulting effect again changes nothing |
| LeaveSpecial.SpecificFetch | src/app/dashboard/leave-special/page.tsx:147 | the specific list is fetched only for a non-empty department |
| LeaveSpecial.EffectFetch | src/app/dashboard/leave-special/page.tsx:202-210 | the EzV4 tab fetches EzV4; the specific tab fetches its department's list when one is chosen |
| LeaveSpecial.AfterSpecificFetch | src/app/dashboard/leave-special/page.tsx:158-171 | an answer with a list shows it; a failed or empty answer shows nothing; loading ends on every path |
| EmployeeDialog.Blank | src/app/dashboard/leave-special/components/add-employee-dialog.tsx:47-60 | a new employee starts with every field empty and no division or section code |
| EmployeeDialog.Initial | src/app/dashboard/leave-special/components/add-employee-dialog.tsx:47-60 | the dialog starts from the given employee, or a blank one, with both pickers closed and unsearched |
| EmployeeDialog.SelectDivision | src/app/dashboard/leave-special/components/add-employee-dialog.tsx:87-101 | picking a division sets its name and code, clears the section (and its code when one was set), closes the division picker and changes no other field |
| EmployeeDialog.SelectSection | src/app/dashboard/leave-special/components/add-employee-dialog.tsx:103-113 | picking a section sets its name and code, closes the section picker and keeps the division |
| EmployeeDialog.SectionFollowsDivision | src/app/dashboard/leave-special/components/add-employee-dialog.tsx:87-113 | a new division discards a section picked before it |
| EmployeeDialog.DivisionThenSection | src/app/dashboard/leave-special/components/add-employee-dialog.tsx:87-113 | a division and then a section keeps both |
| EmployeeDialog.SetEntryDate | src/app/dashboard/leave-special/components/add-employee-dialog.tsx:413-416 | the entry date becomes the picked date or empty, and nothing else changes |
| EmployeeDialog.SetLeaveDate | src/app/dashboard/leave-special/components/add-employee-dialog.tsx:442-445 | the leave date becomes the picked date or empty, and nothing else changes |
| EmployeeDialog.DatesIndependent | src/app/dashboard/leave-special/components/add-employee-dialog.tsx:413-445 | the two date pickers commute |
| EmployeeDialog.Submit | src/app/dashboard/leave-special/components/add-employee-dialog.tsx:137-154 | submit emits the form and closes; in add mode the form is cleared, in edit mode it is kept |
| EmployeeDialog.SubmitTwice | src/app/dashboard/leave-special/components/add-employee-dialog.tsx:137-154 | a second add submits a blank employee, and a second edit submits the same one |
| LineList.Filtered | src/components/lines-mfg/LineMfg.tsx:52-55 | the tab shows, in order, exactly the lines of its status, each as often as on the page (every line on `all`); without data it is empty |
| LineList.CountsPartition | src/components/lines-mfg/LineMfg.tsx:58-59 | the active and inactive counts add up to the page's lines |
| LineList.ShownMatchesCount | src/components/lines-mfg/LineMfg.tsx:52-59 | the active and inactive tabs show as many lines as their counts |
| LineList.RowNumbersDistinct | src/components/lines-mfg/LineMfg.tsx:136 | row numbers of page `p` lie in `((p-1)*limit, p*limit]`, and no two rows of any pages share a number |
| LineList.PageCount | src/components/lines-mfg/LineMfg.tsx:317-323 | the page count is the server's, with a missing or zero count read as 1 |
| LineList.PagerStaysInRange | src/components/lines-mfg/LineMfg.tsx:311-323 | an enabled next button stays within the page count; an enabled previous button stays at or above 1; a single page disables next |
| LineList.SelectTab | src/components/lines-mfg/LineMfg.tsx:37-268 | picking another tab goes back to page 1; picking the tab already shown changes nothing, since the state and so the page effect do not change |
| LineList.SelectTabIdempotent | src/components/lines-mfg/LineMfg.tsx:37-268 | picking the same tab twice is the same as picking it once |
| LineList.TabChangeDisablesPrev | src/components/lines-mfg/LineMfg.tsx:40-312 | right after a change to a different tab the previous button is disabled |
| LineList.ToggleMessagesAgree | src/components/lines-mfg/LineMfg.tsx:78 | the component's toast names the same new state as the hook's toast, and the two states give different texts |
| LineDialog.EffectName | src/components/lines-mfg/line-dialog.tsx:32-38 | opening on a line shows its name; closing empties the field; opening for add keeps what was typed |
| LineDialog.ReopenShowsFresh | src/components/lines-mfg/line-dialog.tsx:32-38 | after closing and reopening, edit shows the stored name and add shows an empty field |
| LineDialog.Submit | src/components/lines-mfg/line-dialog.tsx:40-52 | a blank name sends nothing; otherwise an update of the edited line or a create, with the typed name |
| LineDialog.OpenAfterSubmit | src/components/lines-mfg/line-dialog.tsx:40-52 | the dialog closes iff a mutation was sent and resolved |
| LineDialog.ButtonMatchesHandler | src/components/lines-mfg/line-dialog.tsx:43-108 | an enabled button always sends a mutation, and an idle disabled button would send none |
| LineDialog.HistoryShown | src/components/lines-mfg/line-dialog.tsx:86-94 | the history block shows exactly when editing a line with at least one rename row, and its last row then ends at the current name |
| LineDialog.HistoryRows | src/components/lines-mfg/line-dialog.tsx:86-94 | one row per rename; each row's new name is the next row's old name, and the last one is the current name |
| LineDialog.WalkSteps | src/components/lines-mfg/line-dialog.tsx:90-94 | in rows whose new names are the next rows' old names, reading from any row passes each later row's old and new name as consecutive names and ends at the last new name |
| LineDialog.ChainEndsAtCurrent | src/components/lines-mfg/line-dialog.tsx:90-94 | from any displayed row, the names form one chain of renames: every consecutive pair is a displayed row, starting at that row's stored old name and ending at the line's current name |
| LineDialog.DialogTitle | src/components/lines-mfg/line-dialog.tsx:62 | the title says edit exactly when a line is given |
| LineDialog.SubmitLabel | src/components/lines-mfg/line-dialog.tsx:111-115 | pending shows processing; otherwise the label says save-changes exactly in edit mode |
| FileManagement.UniqueKeys | src/components/file-management/file-management.tsx:134-139 | the tabs start with `all`, have no duplicates, include every file's group key and nothing else, in order of first appearance |
| FileManagement.UniqueKeysLoop | src/components/file-management/file-management.tsx:134-139 | the `reduce` with `includes`/`push` as written computes `UniqueKeys` |
| FileManagement.FileName | src/components/file-management/file-management.tsx:221 | the shown name is the URL's last path segment |
| FileManagement.DownloadName | src/components/file-management/file-management.tsx:234 | the download name is the last segment, or `download` when that is empty; it is never empty and has no slash |
| FileManagement.DownloadNameOf | src/components/file-management/file-management.tsx:234 | `dir/name` downloads as `name`, and a URL ending in a slash downloads as `download` |
| FileManagement.StartEdit | src/components/file-management/file-management.tsx:101-104 | edit selects the file and opens the dialog, keeping a picked upload |
| FileManagement.ChooseUpload | src/components/file-management/file-management.tsx:106-110 | a picked file replaces the upload; an empty pick changes nothing |
| FileManagement.UpdateRequest | src/components/file-management/file-management.tsx:112-121 | an update is sent iff a file is selected and an upload is picked, to the selected file's last segment with its id |
| FileManagement.AfterUpdate | src/components/file-management/file-management.tsx:122-131 | success closes the dialog and clears both the selection and the upload; a failure keeps everything |
| FileManagement.EditPickUpdate | src/components/file-management/file-management.tsx:101-121 | edit, pick and update sends the picked file for the edited one |
| LoginForm.Errors | src/components/auth/login-form.tsx:23-30 | the code error appears iff the code is shorter than 4, and the password error iff the password is shorter than 6 |
| LoginForm.OnSubmit | src/components/auth/login-form.tsx:47-72 | navigate to the dashboard iff the answer has no error; toast the error unless its code is 2; log iff the call threw; loading ends on every path |
| LoginForm.Submit | src/components/auth/login-form.tsx:23-72 | an invalid form never calls the server; a valid one runs the handler |
| LoginForm.NavigateXorToast | src/components/auth/login-form.tsx:53-65 | never both navigate and toast; an error never navigates; code 1 toasts |
| LoginForm.EmptyErrorSignsIn | src/components/auth/login-form.tsx:53 | an empty error string is falsy, so it signs in whatever the code |
| UserForm.Errors | src/components/users/user-form.tsx:26-42 | name under 2, an e-mail without an inner `@`, empty role, empty status and a password of 1 to 5 characters are each reported, and nothing else |
| UserForm.PasswordRule | src/components/users/user-form.tsx:39-41 | the password passes iff it is empty or at least 6 characters long |
| UserForm.Defaults | src/components/users/user-form.tsx:52-64 | an existing user prefills its fields with an empty password; a new one starts empty and `active` |
| UserForm.DefaultsErrors | src/components/users/user-form.tsx:52-146 | an edit form never fails on the hidden password, and a fresh add form fails exactly on name, e-mail and role |

## Left out

- Network I/O: every `fetch`, axios call and mutation is left out. The answer is a parameter (`Outcome`, a response datatype), and the model covers only what the component does with it.
- React scheduling: effects run when modelled as called, and `useState` initialisers do not follow later prop changes.
- Debounce timers and `setTimeout`: the line search debounce and the reset of the search page are left out. Search is server-side and out of scope.
- Date handling: `toISOString`, `toLocaleDateString`, `format` and `formatDistanceToNow` are caller-supplied functions or are left out. Instants are integers.
- AllRequest.FilterByDate: date-fns `isWithinInterval` throws when the start is after the end. The model treats that range as empty instead.
- Adoption.QueryParams: `dateRange?.from` is a `Date` object and is always truthy. It is modelled as the presence of the value.
- Text.ToUpper, Text.Trim and Text.IsSpace: ASCII only. JavaScript's Unicode case mapping and Unicode whitespace are left out.
- LoginForm.Errors and UserForm.Errors: lengths count code points, while zod and `slice` count UTF-16 units. 
- QueryString.Escape: escapes only `%`, `&`, `#` and `+`, the characters that change how a query string is read back. The full `URLSearchParams` encoding of spaces and non-ASCII characters is left out.
- The notification list's infinite-scroll trigger (the `inView` sentinel) is left out: it is a browser observer, and the model starts from the pages already fetched.
- Navbar.IconFor: the lookup is on an object literal, so inherited names such as `constructor` would resolve to a function. Only the table's own keys are modelled.
- CodeApprove.SortSteps: the source sorts the prop array in place, which mutates the parent's data. Only the sorted result is modelled.
- RolePermissions.SelectAll: stated for any screen list. The page passes its fixed catalogue, and the lemmas are instantiated for it through `CatalogueSelectAllReady`.
- The random avatar colour, the theme provider, skeleton rows, icons and styling classes are left out. They are presentation only.
- CodeApprove.SaveCallOf: the position field is an integer. A cleared number input gives `parseInt`'s `NaN` (CodeApprove.tsx:142), which the source would send and which makes the sort comparator `a - b` inconsistent; `NaN` is not modelled.
- UserForm.Errors: the e-mail error is raised exactly for a string without an `@` between its first and last character. zod's `email()` is a regular expression that rejects more strings; the model does not encode it.
- The EzV4 tab's own fetch is left out. The component that performs it is not part of this model; only the decision to fetch is modelled.
- The add-employee dialog's `initialData` is a `Partial<Employee>` and is modelled as a full record. Missing fields read as empty strings.

## Findings

| source | as written | input that shows it | evidently intended | confidence | as-written member | corrected member |
|---|---|---|---|---|---|---|
| src/lib/react-query/queries/all-request.ts:19-22 | filter values are pasted into the URL without escaping | search `R&D`, page 1, limit 10: the server reads `search=R` and a stray parameter `D` | each value percent-escaped (as `URLSearchParams` does on the adoption page), so the server reads back `search=R&D` | not executed | RequestQuery.AmpersandSplitsSearch | RequestQuery.EscapedUrl |

=== FILE: adoption.dfy ===
/** The adoption list page: its filter state, the query parameters it
    sends, the reset button, the labels and the pager. */
module Adoption {
  import opened Wrappers
  import Text
  import QS = QueryString

  /** The picked range; instants are integers, rendered by a formatter the
      caller supplies (the page uses `toISOString`). */
  datatype DateRange = DateRange(from: Option<int>, to: Option<int>)

  /** The page's filter state. */
  datatype Filters = Filters(range: Option<DateRange>, recCode: string, status: string, kind: string, page: int)

  /** Rows per page. */
  const Limit: int := 10

  /** The state the page starts in. */
  function Initial(): Filters
  {
    Filters(None, "", "all", "all", 1)
  }

  /** A select value is sent when it is non-empty and not `all`. */
  predicate Chosen(v: string)
  {
    v != "" && v != "all"
  }

  function AddIf(ps: seq<QS.Pair>, cond: bool, key: string, value: string): seq<QS.Pair>
  {
    if cond then ps + [(key, value)] else ps
  }

  /** The parameter list built in `queryFn`, in append order. */
  function QueryParams(f: Filters, iso: int -> string): (r: seq<QS.Pair>)
    ensures |r| >= 2 && r[0] == ("page", Text.IntToString(f.page)) && r[1] == ("limit", Text.IntToString(Limit))
    ensures |r| == 2 + (if Chosen(f.status) then 1 else 0) + (if Chosen(f.kind) then 1 else 0)
      + (if f.recCode != "" then 1 else 0)
      + (if f.range.Some? && f.range.value.from.Some? then 1 else 0)
      + (if f.range.Some? && f.range.value.to.Some? then 1 else 0)
  {
    var ps := [("page", Text.IntToString(f.page)), ("limit", Text.IntToString(Limit))];
    var ps := AddIf(ps, Chosen(f.status), "status", f.status);
    var ps := AddIf(ps, Chosen(f.kind), "type", f.kind);
    var ps := AddIf(ps, f.recCode != "", "recCode", f.recCode);
    var ps := AddIf(ps, f.range.Some? && f.range.value.from.Some?, "startDate",
                    if f.range.Some? && f.range.value.from.Some? then iso(f.range.value.from.value) else "");
    AddIf(ps, f.range.Some? && f.range.value.to.Some?, "endDate",
          if f.range.Some? && f.range.value.to.Some? then iso(f.range.value.to.value) else "")
  }

  lemma AddIfMembers(ps: seq<QS.Pair>, cond: bool, key: string, value: string)
    ensures forall x :: x in AddIf(ps, cond, key, value) <==> x in ps || (cond && x == (key, value))
  {
  }

  /** The pairs of the list, as a set: page and limit always, and each
      optional key exactly under its condition, with its value. */
  lemma QueryParamsMembers(f: Filters, iso: int -> string)
    ensures var r := QueryParams(f, iso);
      forall x :: x in r <==>
        || x == ("page", Text.IntToString(f.page))
        || x == ("limit", Text.IntToString(Limit))
        || (Chosen(f.status) && x == ("status", f.status))
        || (Chosen(f.kind) && x == ("type", f.kind))
        || (f.recCode != "" && x == ("recCode", f.recCode))
        || (f.range.Some? && f.range.value.from.Some? && x == ("startDate", iso(f.range.value.from.value)))
        || (f.range.Some? && f.range.value.to.Some? && x == ("endDate", iso(f.range.value.to.value)))
  {
    var ps0 := [("page", Text.IntToString(f.page)), ("limit", Text.IntToString(Limit))];
    var ps1 := AddIf(ps0, Chosen(f.status), "status", f.status);
    var ps2 := AddIf(ps1, Chosen(f.kind), "type", f.kind);
    var ps3 := AddIf(ps2, f.recCode != "", "recCode", f.recCode);
    var hasFrom := f.range.Some? && f.range.value.from.Some?;
    var hasTo := f.range.Some? && f.range.value.to.Some?;
    var ps4 := AddIf(ps3, hasFrom, "startDate", if hasFrom then iso(f.range.value.from.value) else "");
    AddIfMembers(ps0, Chosen(f.status), "status", f.status);
    AddIfMembers(ps1, Chosen(f.kind), "type", f.kind);
    AddIfMembers(ps2, f.recCode != "", "recCode", f.recCode);
    AddIfMembers(ps3, hasFrom, "startDate", if hasFrom then iso(f.range.value.from.value) else "");
    AddIfMembers(ps4, hasTo, "endDate", if hasTo then iso(f.range.value.to.value) else "");
  }

  /** A key is sent only under its condition: status and type only when
      chosen, the code only when non-empty, each date end only when set. */
  lemma QueryParamsKeys(f: Filters, iso: int -> string)
    ensures var r := QueryParams(f, iso);
      && ((exists x :: x in r && x.0 == "status") <==> Chosen(f.status))
      && ((exists x :: x in r && x.0 == "type") <==> Chosen(f.kind))
      && ((exists x :: x in r && x.0 == "recCode") <==> f.recCode != "")
      && ((exists x :: x in r && x.0 == "startDate") <==> f.range.Some? && f.range.value.from.Some?)
      && ((exists x :: x in r && x.0 == "endDate") <==> f.range.Some? && f.range.value.to.Some?)
  {
    var r := QueryParams(f, iso);
    QueryParamsMembers(f, iso);
    if Chosen(f.status) { assert ("status", f.status) in r; }
    if Chosen(f.kind) { assert ("type", f.kind) in r; }
    if f.recCode != "" { assert ("recCode", f.recCode) in r; }
    if f.range.Some? && f.range.value.from.Some? { assert ("startDate", iso(f.range.value.from.value)) in r; }
    if f.range.Some? && f.range.value.to.Some? { assert ("endDate", iso(f.range.value.to.value)) in r; }
  }

  lemma KeysPlain(f: Filters, iso: int -> string)
    ensures forall i :: 0 <= i < |QueryParams(f, iso)| ==> QS.PlainKey(QueryParams(f, iso)[i].0)
  {
    var keys := ["page", "limit", "status", "type", "recCode", "startDate", "endDate"];
    assert forall k :: 0 <= k < |keys| ==> QS.PlainKey(keys[k]);
    assert forall i :: 0 <= i < |QueryParams(f, iso)| ==> QueryParams(f, iso)[i].0 in keys;
  }

  /** The list goes out through `URLSearchParams`, whose escaping lets the
      receiver read back every pair, whatever the typed code holds. */
  lemma QueryParamsReadBack(f: Filters, iso: int -> string)
    ensures QS.Parse(QS.Serialize(QS.EscapeValues(QueryParams(f, iso)))) == QueryParams(f, iso)
  {
    KeysPlain(f, iso);
    QS.ParseSerializeEscaped(QueryParams(f, iso));
  }

  /** The reset button: no range, no code, both selects on `all`, first
      page. */
  function Reset(f: Filters): (r: Filters)
    ensures r.range.None? && r.recCode == "" && r.status == "all" && r.kind == "all" && r.page == 1
  {
    Filters(None, "", "all", "all", 1)
  }

  /** After a reset, and in the initial state, only page 1 and the limit
      are sent. */
  lemma ResetSendsOnlyPaging(f: Filters, iso: int -> string)
    ensures Reset(f) == Initial()
    ensures QueryParams(Reset(f), iso) == [("page", Text.IntToString(1)), ("limit", Text.IntToString(Limit))]
  {
  }

  /** The type column. */
  function TypeLabel(kind: string): (r: string)
    ensures r == "Direct" <==> kind == "direct"
    ensures r == "Direct" || r == "Indirect"
  {
    if kind == "direct" then "Direct" else "Indirect"
  }

  /** The status column: three known statuses, every other value reads as
      rejected. */
  function StatusLabel(status: string): (r: string)
    ensures status == "pending" ==> r == "Chờ duyệt"
    ensures status == "processing" ==> r == "Đang xử lý"
    ensures status == "approved" ==> r == "Đã duyệt"
    ensures status !in {"pending", "processing", "approved"} <==> r == "Từ chối"
  {
    if status == "pending" then "Chờ duyệt"
    else if status == "processing" then "Đang xử lý"
    else if status == "approved" then "Đã duyệt"
    else "Từ chối"
  }

  /** The paging flags of the last response. */
  datatype PageInfo = PageInfo(hasPrevPage: bool, hasNextPage: bool)

  /** The previous button is usable only with a previous page and no load
      in flight. */
  predicate PrevEnabled(info: Option<PageInfo>, isLoading: bool, isFetching: bool)
  {
    !(info.None? || !info.value.hasPrevPage || isLoading || isFetching)
  }

  predicate NextEnabled(info: Option<PageInfo>, isLoading: bool, isFetching: bool)
  {
    !(info.None? || !info.value.hasNextPage || isLoading || isFetching)
  }

  /** A click on a pager button: a disabled button fires nothing, an
      enabled one turns the page. */
  function Click(f: Filters, forward: bool, info: Option<PageInfo>, isLoading: bool, isFetching: bool): (r: Filters)
    ensures r.(page := f.page) == f
  {
    var enabled := if forward then NextEnabled(info, isLoading, isFetching) else PrevEnabled(info, isLoading, isFetching);
    if enabled then Turn(f, forward) else f
  }

  /** The enablement rules spelled out: a flag from the server and no load
      or refetch in flight; before the first response both are disabled.
      A click changes the filters exactly when the server flag for its
      direction is set and nothing is loading, and then it is one page
      turn; while loading, fetching or before any answer it does nothing. */
  lemma PagerRules(info: Option<PageInfo>, isLoading: bool, isFetching: bool, f: Filters, forward: bool)
    ensures PrevEnabled(info, isLoading, isFetching) <==>
      info.Some? && info.value.hasPrevPage && !isLoading && !isFetching
    ensures NextEnabled(info, isLoading, isFetching) <==>
      info.Some? && info.value.hasNextPage && !isLoading && !isFetching
    ensures info.None? ==> !PrevEnabled(info, isLoading, isFetching) && !NextEnabled(info, isLoading, isFetching)
    ensures isLoading || isFetching || info.None? ==> Click(f, forward, info, isLoading, isFetching) == f
    ensures Click(f, forward, info, isLoading, isFetching) != f <==>
      info.Some? && (if forward then info.value.hasNextPage else info.value.hasPrevPage) && !isLoading && !isFetching
    ensures Click(f, forward, info, isLoading, isFetching) != f ==>
      Click(f, forward, info, isLoading, isFetching) == Turn(f, forward)
  {
  }

  /** The pager buttons move one page, leaving the other filters alone. */
  function Turn(f: Filters, forward: bool): (r: Filters)
    ensures r.page == if forward then f.page + 1 else f.page - 1
    ensures r.(page := f.page) == f
  {
    f.(page := if forward then f.page + 1 else f.page - 1)
  }
}

=== FILE: all_request.dfy ===
/** The recruitment request list: the client-side date filter, the editable
    list of processing stages, the recruitment-code input and its confirm
    dialog, and the status labels. */
module AllRequest {
  import opened Wrappers
  import Seqs
  import Text

  // ---------------------------------------------------------------------
  // Date filter

  /** The picked range; either end may be missing. Instants are integers. */
  datatype DateRange = DateRange(from: Option<int>, to: Option<int>)

  /** One fetched request, reduced to the fields the page reads. */
  datatype RequestRow = RequestRow(id: string, createdAt: int, status: string, recCode: string)

  /** Whether a creation instant passes the range: both ends give the
      closed interval, a lone start gives "on or after", anything else
      keeps every row. */
  predicate MatchesDate(range: Option<DateRange>, t: int)
  {
    if range.Some? && range.value.from.Some? && range.value.to.Some? then
      range.value.from.value <= t <= range.value.to.value
    else if range.Some? && range.value.from.Some? then
      t >= range.value.from.value
    else
      true
  }

  function InRange(range: Option<DateRange>): RequestRow -> bool
  {
    (row: RequestRow) => MatchesDate(range, row.createdAt)
  }

  /** `filteredData`: the fetched rows that pass the range, in fetch
      order; no data gives the empty list. */
  function FilterByDate(data: Option<seq<RequestRow>>, range: Option<DateRange>): (r: seq<RequestRow>)
    ensures data.None? ==> r == []
    ensures data.Some? ==> Seqs.IsSubseq(r, data.value)
    ensures data.Some? ==> forall i :: 0 <= i < |r| ==> r[i] in data.value && MatchesDate(range, r[i].createdAt)
    ensures data.Some? ==> forall i :: 0 <= i < |data.value| && MatchesDate(range, data.value[i].createdAt) ==> data.value[i] in r
    ensures data.Some? ==> forall x :: multiset(r)[x] == if MatchesDate(range, x.createdAt) then multiset(data.value)[x] else 0
  {
    match data
    case None => []
    case Some(d) =>
      Seqs.FilterIsSubseq(d, InRange(range));
      Seqs.FilterCounts(d, InRange(range));
      Seqs.Filter(d, InRange(range))
  }

  /** The three cases of the filter, in terms of the range's ends. */
  lemma FilterByDateCases(d: seq<RequestRow>, range: Option<DateRange>, row: RequestRow)
    ensures range.None? || range.value.from.None? ==> FilterByDate(Some(d), range) == d
    ensures range.Some? && range.value.from.Some? && range.value.to.Some? ==>
      (row in FilterByDate(Some(d), range) <==>
        row in d && range.value.from.value <= row.createdAt <= range.value.to.value)
    ensures range.Some? && range.value.from.Some? && range.value.to.None? ==>
      (row in FilterByDate(Some(d), range) <==> row in d && row.createdAt >= range.value.from.value)
  {
    if range.None? || range.value.from.None? {
      Seqs.FilterAllPass(d, InRange(range));
    }
    if row in FilterByDate(Some(d), range) {
      var i :| 0 <= i < |FilterByDate(Some(d), range)| && FilterByDate(Some(d), range)[i] == row;
    }
    if row in d {
      var i :| 0 <= i < |d| && d[i] == row;
    }
  }

  // ---------------------------------------------------------------------
  // Processing stages

  /** A processing stage (its random badge colour is not modelled). */
  datatype Process = Process(code: string, title: string)

  const DefaultProcesses: seq<Process> := [
    Process("POSTJD", "Post Job"),
    Process("COLLECTCV", "Collect CV"),
    Process("INTERVIEW", "Interview"),
    Process("HEALTHCHECK", "Health checking"),
    Process("ADOPTION", "Adoption"),
    Process("FINISH", "Finish")
  ]

  /** The code derived from a new stage's title: upper-cased, every
      whitespace character removed. */
  function ProcessCode(title: string): (r: string)
    ensures forall i :: 0 <= i < |r| ==> !Text.IsSpace(r[i]) && !Text.IsLower(r[i])
    ensures Seqs.IsSubseq(r, Text.ToUpper(title))
    ensures forall i :: 0 <= i < |title| && !Text.IsSpace(title[i]) ==> Text.UpperChar(title[i]) in r
    ensures forall x :: multiset(r)[x] == if Text.IsSpace(x) then 0 else multiset(Text.ToUpper(title))[x]
  {
    var u := Text.ToUpper(title);
    var r := Text.StripSpaces(u);
    assert forall i :: 0 <= i < |title| ==> u[i] == Text.UpperChar(title[i]);
    assert forall i :: 0 <= i < |r| ==> r[i] in u;
    r
  }

  lemma {:induction false} FilterNotSpaceUpper(s: string)
    ensures Seqs.Filter(Text.ToUpper(s), Text.NotSpace) == Text.ToUpper(Seqs.Filter(s, Text.NotSpace))
  {
    if |s| > 0 {
      var c, t := s[0], s[1..];
      var u := Text.UpperChar(c);
      var keep: string := if Text.NotSpace(c) then [c] else [];
      assert s == [c] + t;
      calc {
        Seqs.Filter(Text.ToUpper(s), Text.NotSpace);
        { Text.ToUpperAppend([c], t);
          assert Text.ToUpper([c]) == [u]; }
        Seqs.Filter([u] + Text.ToUpper(t), Text.NotSpace);
        { Seqs.FilterCons(u, Text.ToUpper(t), Text.NotSpace); }
        (if Text.NotSpace(u) then [u] else []) + Seqs.Filter(Text.ToUpper(t), Text.NotSpace);
        { FilterNotSpaceUpper(t);
          assert Text.ToUpper(keep) == if Text.NotSpace(u) then [u] else []; }
        Text.ToUpper(keep) + Text.ToUpper(Seqs.Filter(t, Text.NotSpace));
        { Text.ToUpperAppend(keep, Seqs.Filter(t, Text.NotSpace)); }
        Text.ToUpper(keep + Seqs.Filter(t, Text.NotSpace));
        { Seqs.FilterCons(c, t, Text.NotSpace); }
        Text.ToUpper(Seqs.Filter(s, Text.NotSpace));
      }
    }
  }

  /** Removing blanks and upper-casing commute: the code is also the
      upper-cased non-blank characters of the title. */
  lemma ProcessCodeUppercasesNonBlanks(title: string)
    ensures ProcessCode(title) == Text.ToUpper(Text.StripSpaces(title))
  {
    FilterNotSpaceUpper(title);
  }

  /** A code fed back in as a title gives itself. */
  lemma ProcessCodeIdempotent(title: string)
    ensures ProcessCode(ProcessCode(title)) == ProcessCode(title)
  {
    var c := ProcessCode(title);
    Text.ToUpperFixesUpper(c);
    Seqs.FilterAllPass(c, Text.NotSpace);
  }

  /** The stage list, the new-stage input and whether the input is shown. */
  datatype ProcessEditor = ProcessEditor(processes: seq<Process>, input: string, adding: bool)

  /** `handleAddProcess`: a blank input changes nothing; otherwise a stage
      with the derived code and the untrimmed title is appended, the input
      is cleared and the add box closes. */
  function AddProcess(st: ProcessEditor): (r: ProcessEditor)
    ensures Text.IsBlank(st.input) ==> r == st
    ensures !Text.IsBlank(st.input) ==>
      && r.processes == st.processes + [Process(ProcessCode(st.input), st.input)]
      && r.input == "" && !r.adding
  {
    if Text.IsBlank(st.input) then st
    else ProcessEditor(st.processes + [Process(ProcessCode(st.input), st.input)], "", false)
  }

  /** The position of the first stage with the given code. */
  function ProcessIndex(processes: seq<Process>, code: string): (r: Option<nat>)
    ensures r.None? <==> forall i :: 0 <= i < |processes| ==> processes[i].code != code
    ensures r.Some? ==> r.value < |processes| && processes[r.value].code == code
    ensures r.Some? ==> forall j :: 0 <= j < r.value ==> processes[j].code != code
  {
    if |processes| == 0 then None
    else if processes[0].code == code then Some(0)
    else
      match ProcessIndex(processes[1..], code)
      case None => None
      case Some(i) => Some(i + 1)
  }

  /** The first stage with the given code (`Array.find`). */
  function FindProcess(processes: seq<Process>, code: string): (r: Option<Process>)
    ensures r.None? <==> forall i :: 0 <= i < |processes| ==> processes[i].code != code
    ensures r.Some? ==> r.value.code == code && r.value in processes
  {
    match ProcessIndex(processes, code)
    case None => None
    case Some(i) => Some(processes[i])
  }

  /** The update `handleProcessChange` sends for a request. */
  datatype ProcessUpdate = ProcessUpdate(requestId: string, title: string, code: string)

  /** `handleProcessChange`: an unknown code sends nothing; a known one
      sends the first matching stage's title and code. */
  function ProcessChange(processes: seq<Process>, requestId: string, code: string): (r: Option<ProcessUpdate>)
    ensures r.None? <==> FindProcess(processes, code).None?
    ensures r.Some? ==> r.value.requestId == requestId && r.value.code == code
    ensures r.Some? ==> r.value.title == FindProcess(processes, code).value.title
  {
    match FindProcess(processes, code)
    case None => None
    case Some(p) => Some(ProcessUpdate(requestId, p.title, p.code))
  }

  /** A freshly added stage can always be chosen by its code. It is
      chosen with its own title when its code is new; when an earlier stage
      already has that code, the earlier stage keeps being the one chosen. */
  lemma AddedProcessSelectable(st: ProcessEditor, requestId: string)
    requires !Text.IsBlank(st.input)
    ensures var code := ProcessCode(st.input);
      var r := ProcessChange(AddProcess(st).processes, requestId, code);
      && r.Some?
      && (FindProcess(st.processes, code).None? ==> r.value.title == st.input)
      && (FindProcess(st.processes, code).Some? ==> r == ProcessChange(st.processes, requestId, code))
  {
    var ps := AddProcess(st).processes;
    var code := ProcessCode(st.input);
    assert ps[|ps| - 1].code == code;
    var i := ProcessIndex(ps, code);
    var j := ProcessIndex(st.processes, code);
    if j.None? {
      assert i.value == |ps| - 1;
    } else {
      assert ps[j.value] == st.processes[j.value];
      assert i.value == j.value;
    }
  }

  /** The status, type and stage filters: the choice `all` is sent as no
      value at all; anything else is sent as chosen. */
  function FilterParam(choice: string): (r: Option<string>)
    ensures r.None? <==> choice == "all"
    ensures r.Some? ==> r.value == choice
  {
    if choice == "all" then None else Some(choice)
  }

  // ---------------------------------------------------------------------
  // Recruitment code

  /** The typed codes by request id, the request awaiting confirmation and
      whether the confirm dialog is open. */
  datatype RecCodeStore = RecCodeStore(codes: map<string, string>, currentId: string, dialogOpen: bool)

  /** `confirmUpdateRecCode`: records the value under the request, makes it
      the current request and opens the confirm dialog. */
  function ConfirmRecCode(st: RecCodeStore, requestId: string, value: string): (r: RecCodeStore)
    ensures requestId in r.codes && r.codes[requestId] == value
    ensures forall k :: k != requestId ==> (k in r.codes <==> k in st.codes)
    ensures forall k :: k != requestId && k in st.codes ==> r.codes[k] == st.codes[k]
    ensures r.currentId == requestId && r.dialogOpen
  {
    RecCodeStore(st.codes[requestId := value], requestId, true)
  }

  /** The request `handleUpdateRecCode` posts. */
  datatype RecCodeCall = RecCodeCall(recCode: string, requestId: string)

  /** The code stored for the current request, `""` when there is none. */
  function CurrentCode(st: RecCodeStore): string
  {
    if st.currentId in st.codes then st.codes[st.currentId] else ""
  }

  /** `handleUpdateRecCode`: no call when the current request or its code is
      empty or missing; the dialog is closed on every path. */
  function UpdateRecCode(st: RecCodeStore): (r: (Option<RecCodeCall>, RecCodeStore))
    ensures r.0.Some? <==> st.currentId != "" && st.currentId in st.codes && st.codes[st.currentId] != ""
    ensures r.0.Some? ==> r.0.value == RecCodeCall(st.codes[st.currentId], st.currentId)
    ensures r.1 == st.(dialogOpen := false)
  {
    var code := CurrentCode(st);
    var call := if code == "" || st.currentId == "" then None else Some(RecCodeCall(code, st.currentId));
    (call, st.(dialogOpen := false))
  }

  /** Confirming a non-empty code for a request and then accepting posts
      exactly that code for that request. */
  lemma ConfirmThenUpdate(st: RecCodeStore, requestId: string, value: string)
    requires requestId != "" && value != ""
    ensures UpdateRecCode(ConfirmRecCode(st, requestId, value)).0 == Some(RecCodeCall(value, requestId))
  {
  }

  /** How the posted request settled. */
  datatype RecCodeResponse = Accepted(message: string) | Refused(message: string) | Unreachable

  datatype Toast = SuccessToast(text: string) | ErrorToast(text: string)

  /** The toast after the post: the server's message, or a fixed fallback
      when it is empty. */
  function RecCodeToast(resp: RecCodeResponse): (r: Toast)
    ensures r.SuccessToast? <==> resp.Accepted?
    ensures !resp.Unreachable? && resp.message != "" ==> r.text == resp.message
    ensures r.text != ""
  {
    match resp
    case Accepted(m) => SuccessToast(if m != "" then m else "Cập nhật mã tuyển dụng thành công")
    case Refused(m) => ErrorToast(if m != "" then m else "Không thể cập nhật mã tuyển dụng")
    case Unreachable => ErrorToast("Đã xảy ra lỗi khi cập nhật mã tuyển dụng")
  }

  /** The inline code input: its text and whether it has focus. */
  datatype RecInput = RecInput(value: string, editing: bool)

  /** What an input event yields: the new state and the value handed to
      the confirm callback, if any. */
  datatype InputStep = InputStep(state: RecInput, confirm: Option<string>)

  /** The input starts with the request's code and without focus. */
  function InitInput(recCode: string): (r: RecInput)
    ensures r.value == recCode && !r.editing
  {
    RecInput(recCode, false)
  }

  function Focus(st: RecInput): (r: RecInput)
    ensures r.editing && r.value == st.value
  {
    st.(editing := true)
  }

  function Type(st: RecInput, value: string): (r: RecInput)
    ensures r.value == value && r.editing == st.editing
  {
    st.(value := value)
  }

  /** Enter with a non-empty value confirms it and ends editing; any other
      key changes nothing. */
  function KeyDown(st: RecInput, key: string): (r: InputStep)
    ensures r.confirm.Some? <==> key == "Enter" && st.value != ""
    ensures r.confirm.Some? ==> r.confirm.value == st.value && r.state == st.(editing := false)
    ensures r.confirm.None? ==> r.state == st
  {
    if key == "Enter" && st.value != "" then InputStep(st.(editing := false), Some(st.value))
    else InputStep(st, None)
  }

  /** Leaving the field confirms only an edited, non-empty, changed value,
      and always ends editing. */
  function Blur(st: RecInput, recCode: string): (r: InputStep)
    ensures r.confirm.Some? <==> st.editing && st.value != "" && st.value != recCode
    ensures r.confirm.Some? ==> r.confirm.value == st.value
    ensures r.state == st.(editing := false)
  {
    var confirm := if st.editing && st.value != "" && st.value != recCode then Some(st.value) else None;
    InputStep(st.(editing := false), confirm)
  }

  /** The input is read-only once the request has a code, that is,
      exactly when it opens holding a non-empty text. */
  function InputDisabled(recCode: string): (r: bool)
    ensures r <==> InitInput(recCode).value != ""
  {
    recCode != ""
  }

  /** The check button: shown for an enabled input holding a non-empty
      value that differs from the stored code. */
  predicate CheckShown(recCode: string, st: RecInput)
  {
    !InputDisabled(recCode) && st.value != "" && st.value != recCode
  }

  /** Focusing and leaving without typing never confirms; Enter, by
      contrast, confirms even an unchanged non-empty value. */
  lemma UnchangedInput(recCode: string)
    ensures Blur(Focus(InitInput(recCode)), recCode).confirm.None?
    ensures recCode != "" ==> KeyDown(Focus(InitInput(recCode)), "Enter").confirm == Some(recCode)
  {
  }

  /** A request that already has a code never offers the check button,
      whatever is in the input. */
  lemma DisabledHidesCheck(recCode: string, st: RecInput)
    requires InputDisabled(recCode)
    ensures !CheckShown(recCode, st)
  {
  }

  /** Whenever the check button is shown, leaving the focused field
      confirms the same value the button would. */
  lemma CheckShownMeansBlurConfirms(recCode: string, st: RecInput)
    requires CheckShown(recCode, st)
    ensures Blur(Focus(st), recCode).confirm == Some(st.value)
  {
  }

  // ---------------------------------------------------------------------
  // Status labels

  /** The status badge text: five known statuses get a label, any other
      status is shown as it is. */
  function StatusLabel(status: string): (r: string)
  {
    if status == "pending" then "Chờ duyệt"
    else if status == "processing" then "Đang xử lý"
    else if status == "approved" then "Đã duyệt"
    else if status == "completed" then "Hoàn thành"
    else if status == "rejected" then "Từ chối"
    else status
  }

  predicate KnownStatus(status: string)
  {
    status in {"pending", "processing", "approved", "completed", "rejected"}
  }

  /** A status is shown verbatim exactly when it is not one of the five
      known ones, and the five labels are pairwise different. */
  lemma StatusLabelVerbatim(status: string)
    ensures StatusLabel(status) == status <==> !KnownStatus(status)
    ensures forall a, b :: KnownStatus(a) && KnownStatus(b) && a != b ==> StatusLabel(a) != StatusLabel(b)
  {
  }
}

=== FILE: approval_types.dfy ===
/** The approval-step records the step editors work on, reduced to the
    fields the editors read. */
module ApprovalTypes {
  /** The approval group a step points at. */
  datatype Group = Group(id: string, labelText: string, code: string)

  /** A person added to a step on top of its group. */
  datatype Specific = Specific(employeeCode: string, employeeName: string, employeeEmail: string)

  /** A person taken out of a step's group. */
  datatype Exclude = Exclude(employeeCode: string)

  /** One approval step of a form template. */
  datatype Step = Step(
    id: string,
    group: Group,
    status: string,
    indexSTT: int,
    specifics: seq<Specific>,
    excludes: seq<Exclude>)
}

=== FILE: code_approve.dfy ===
/** The approval-step editor of a form template: the add/edit dialog as a
    form record with transition functions, and the step table sorted by
    `indexSTT`. */
module CodeApprove {
  import opened Wrappers
  import opened ApprovalTypes
  import Seqs

  /** The editor's state: the chosen group id, status, position, the step
      being edited (none in add mode) and whether the dialog is open. */
  datatype Form = Form(groupId: string, status: string, indexSTT: int, selected: Option<Step>, open: bool)

  /** The backend call a save makes. */
  datatype SaveCall =
    | UpdateCall(status: string, indexSTT: int)
    | AddCall(groupId: string, status: string, indexSTT: int)

  /** `resetForm`: no group, status `active`, position 0, add mode; the
      dialog's visibility is not touched. */
  function Reset(f: Form): (r: Form)
    ensures r.groupId == "" && r.status == "active" && r.indexSTT == 0 && r.selected.None?
    ensures r.open == f.open
  {
    Form("", "active", 0, None, f.open)
  }

  /** `handleOpenDialog`: a reset form in an open dialog. */
  function OpenAdd(f: Form): (r: Form)
    ensures r.open && r.groupId == "" && r.status == "active" && r.indexSTT == 0 && r.selected.None?
  {
    Reset(f).(open := true)
  }

  /** The group picker's change handler. */
  function PickGroup(f: Form, groupId: string): (r: Form)
    ensures r.groupId == groupId && r.status == f.status && r.indexSTT == f.indexSTT
    ensures r.selected == f.selected && r.open == f.open
  {
    f.(groupId := groupId)
  }

  /** `handleEdit`: the step's status and position are copied into the
      form, the step becomes the selected one and the dialog opens; the
      group id is left as it was. */
  function Edit(f: Form, step: Step): (r: Form)
    ensures r.selected == Some(step) && r.open
    ensures r.status == step.status && r.indexSTT == step.indexSTT
    ensures r.groupId == f.groupId
  {
    Form(f.groupId, step.status, step.indexSTT, Some(step), true)
  }

  /** The call `handleSave` makes: an update carrying only status and
      position when a step is selected, an add carrying the group id too
      otherwise. */
  function SaveCallOf(f: Form): (r: SaveCall)
    ensures r.UpdateCall? <==> f.selected.Some?
    ensures r.status == f.status && r.indexSTT == f.indexSTT
    ensures r.AddCall? ==> r.groupId == f.groupId
  {
    if f.selected.Some? then UpdateCall(f.status, f.indexSTT)
    else AddCall(f.groupId, f.status, f.indexSTT)
  }

  /** The form once the save callback settles: closed and reset when it
      resolved, untouched when it threw. */
  function AfterSave(f: Form, outcome: Outcome): (r: Form)
    ensures outcome.Threw? ==> r == f
    ensures outcome.Resolved? ==> !r.open && r.selected.None? && r.groupId == "" && r.status == "active" && r.indexSTT == 0
  {
    match outcome
    case Resolved => Reset(f.(open := false))
    case Threw => f
  }

  /** The cancel button: the dialog closes and the form resets. */
  function Cancel(f: Form): (r: Form)
    ensures !r.open && r.selected.None? && r.groupId == "" && r.status == "active" && r.indexSTT == 0
  {
    Reset(f.(open := false))
  }

  /** A successful save leaves the editor exactly as cancelling would. */
  lemma SaveResolvedIsCancel(f: Form)
    ensures AfterSave(f, Resolved) == Cancel(f)
  {
  }

  /** Editing a step and saving at once sends that step's own status and
      position as an update. */
  lemma EditThenSave(f: Form, step: Step)
    ensures SaveCallOf(Edit(f, step)) == UpdateCall(step.status, step.indexSTT)
  {
  }

  /** Opening the add dialog, picking a group and saving at once adds the
      step with status `active` at position 0. */
  lemma AddThenSave(f: Form, groupId: string)
    ensures SaveCallOf(PickGroup(OpenAdd(f), groupId)) == AddCall(groupId, "active", 0)
  {
  }

  /** Opening the add dialog after editing a step forgets that step: the
      next save adds instead of updating it. */
  lemma OpenAddAfterEdit(f: Form, step: Step)
    ensures SaveCallOf(OpenAdd(Edit(f, step))) == AddCall("", "active", 0)
    ensures GroupPickerShown(OpenAdd(Edit(f, step))) && !GroupPickerShown(Edit(f, step))
  {
  }

  /** The group picker is only offered when adding: it shows exactly when
      a save would add a step, and exactly under the add title. */
  function GroupPickerShown(f: Form): (r: bool)
    ensures r <==> SaveCallOf(f).AddCall?
    ensures r <==> DialogTitle(f) == "Thêm Code Approval"
  {
    f.selected.None?
  }

  /** The dialog title, after the mode. */
  function DialogTitle(f: Form): (r: string)
    ensures r == "Sửa Code Approval" <==> f.selected.Some?
  {
    if f.selected.Some? then "Sửa Code Approval" else "Thêm Code Approval"
  }

  /** The status badge of a row. */
  function StatusBadge(status: string): (r: string)
    ensures r == "Hoạt động" <==> status == "active"
  {
    if status == "active" then "Hoạt động" else "Không hoạt động"
  }

  /** The table body's step rows: the loaded steps in display order, and
      none while the list is absent. */
  function TableRows(steps: Option<seq<Step>>): (r: seq<Step>)
    ensures steps.None? ==> r == []
    ensures steps.Some? ==> multiset(r) == multiset(steps.value)
  {
    if steps.Some? then SortSteps(steps.value) else []
  }

  /** The table body shows the placeholder row iff the step list is loaded
      and empty; an absent list renders neither placeholder nor rows, and
      the placeholder never shares the body with a step row. */
  function Placeholder(steps: Option<seq<Step>>): (r: bool)
    ensures r <==> steps.Some? && TableRows(steps) == []
    ensures !r && steps.Some? ==> |TableRows(steps)| > 0
  {
    steps == Some([])
  }

  // ---------------------------------------------------------------------
  // The table order: a stable sort by `indexSTT`

  ghost predicate SortedByIndex(s: seq<Step>)
  {
    forall i, j :: 0 <= i < j < |s| ==> s[i].indexSTT <= s[j].indexSTT
  }

  /** Selects the steps at one position value. */
  function AtIndex(v: int): Step -> bool
  {
    (st: Step) => st.indexSTT == v
  }

  /** Inserts `x` after every step whose position is not greater. */
  function Insert(x: Step, s: seq<Step>): (r: seq<Step>)
    ensures multiset(r) == multiset(s) + multiset{x}
    ensures |r| == |s| + 1
  {
    if |s| == 0 then [x]
    else if x.indexSTT < s[0].indexSTT then [x] + s
    else
      assert s == [s[0]] + s[1..];
      [s[0]] + Insert(x, s[1..])
  }

  /** The rows in display order (`Array.prototype.sort` with comparator
      `a.indexSTT - b.indexSTT`, which is stable). */
  function SortSteps(s: seq<Step>): (r: seq<Step>)
    ensures multiset(r) == multiset(s)
    ensures |r| == |s|
  {
    if |s| == 0 then []
    else
      assert s == s[..|s| - 1] + [s[|s| - 1]];
      Insert(s[|s| - 1], SortSteps(s[..|s| - 1]))
  }

  lemma {:induction false} InsertSorted(x: Step, s: seq<Step>)
    requires SortedByIndex(s)
    ensures SortedByIndex(Insert(x, s))
  {
    if |s| > 0 && x.indexSTT >= s[0].indexSTT {
      InsertSorted(x, s[1..]);
      var t := Insert(x, s[1..]);
      forall k | 0 <= k < |t|
        ensures s[0].indexSTT <= t[k].indexSTT
      {
        assert t[k] in multiset(t);
        assert t[k] in multiset(s[1..]) || t[k] == x;
        if t[k] != x {
          var m :| 0 <= m < |s[1..]| && s[1..][m] == t[k];
          assert s[m + 1] == t[k];
        }
      }
    }
  }

  /** Every step of the display is in position order. */
  lemma {:induction false} SortStepsSorted(s: seq<Step>)
    ensures SortedByIndex(SortSteps(s))
  {
    if |s| > 0 {
      SortStepsSorted(s[..|s| - 1]);
      InsertSorted(s[|s| - 1], SortSteps(s[..|s| - 1]));
    }
  }

  lemma {:induction false} NoneAtSmallerIndex(x: Step, s: seq<Step>)
    requires SortedByIndex(s) && |s| > 0 && x.indexSTT < s[0].indexSTT
    ensures Seqs.Filter(s, AtIndex(x.indexSTT)) == []
  {
    forall i | 0 <= i < |s|
      ensures !AtIndex(x.indexSTT)(s[i])
    {
    }
    NoneSelected(s, AtIndex(x.indexSTT));
  }

  lemma {:induction false} NoneSelected(s: seq<Step>, f: Step -> bool)
    requires forall i :: 0 <= i < |s| ==> !f(s[i])
    ensures Seqs.Filter(s, f) == []
  {
    if |s| > 0 {
      NoneSelected(s[1..], f);
    }
  }

  /** What `Insert` adds to the steps at position `v`. */
  function Added(x: Step, v: int): seq<Step>
  {
    if x.indexSTT == v then [x] else []
  }

  lemma InsertBeforeHead(x: Step, s: seq<Step>, v: int)
    requires SortedByIndex(s) && |s| > 0 && x.indexSTT < s[0].indexSTT
    ensures Seqs.Filter(Insert(x, s), AtIndex(v)) == Seqs.Filter(s, AtIndex(v)) + Added(x, v)
  {
    var f := AtIndex(v);
    assert Insert(x, s) == [x] + s;
    Seqs.FilterCons(x, s, f);
    if x.indexSTT == v {
      NoneAtSmallerIndex(x, s);
      assert Seqs.Filter([x] + s, f) == [x] + [];
    } else {
      assert Seqs.Filter([x] + s, f) == [] + Seqs.Filter(s, f);
    }
  }

  lemma InsertAfterHead(x: Step, s: seq<Step>, v: int)
    requires |s| > 0 && x.indexSTT >= s[0].indexSTT
    requires Seqs.Filter(Insert(x, s[1..]), AtIndex(v)) == Seqs.Filter(s[1..], AtIndex(v)) + Added(x, v)
    ensures Seqs.Filter(Insert(x, s), AtIndex(v)) == Seqs.Filter(s, AtIndex(v)) + Added(x, v)
  {
    var f := AtIndex(v);
    var t := s[1..];
    var pre: seq<Step> := if f(s[0]) then [s[0]] else [];
    calc {
      Seqs.Filter(Insert(x, s), f);
      { InsertUnfold(x, s);
        Seqs.FilterCons(s[0], Insert(x, t), f); }
      pre + Seqs.Filter(Insert(x, t), f);
      pre + (Seqs.Filter(t, f) + Added(x, v));
      { Seqs.AppendAssoc(pre, Seqs.Filter(t, f), Added(x, v)); }
      (pre + Seqs.Filter(t, f)) + Added(x, v);
      { Seqs.FilterHead(s, f); }
      Seqs.Filter(s, f) + Added(x, v);
    }
  }

  lemma InsertUnfold(x: Step, s: seq<Step>)
    requires |s| > 0 && x.indexSTT >= s[0].indexSTT
    ensures Insert(x, s) == [s[0]] + Insert(x, s[1..])
  {
  }

  /** Inserting into a sorted list puts `x` after every step with the same
      position. */
  lemma {:induction false} InsertStable(x: Step, s: seq<Step>, v: int)
    requires SortedByIndex(s)
    ensures Seqs.Filter(Insert(x, s), AtIndex(v)) == Seqs.Filter(s, AtIndex(v)) + Added(x, v)
  {
    if |s| == 0 {
      Seqs.FilterCons(x, [], AtIndex(v));
      assert [x] + [] == [x];
    } else if x.indexSTT < s[0].indexSTT {
      InsertBeforeHead(x, s, v);
    } else {
      InsertStable(x, s[1..], v);
      InsertAfterHead(x, s, v);
    }
  }

  lemma FilterSingleton(x: Step, f: Step -> bool)
    ensures Seqs.Filter([x], f) == if f(x) then [x] else []
  {
    assert [x][1..] == [];
  }

  /** Stability: the steps sharing a position keep their input order. */
  lemma {:induction false} SortStepsStable(s: seq<Step>, v: int)
    ensures Seqs.Filter(SortSteps(s), AtIndex(v)) == Seqs.Filter(s, AtIndex(v))
  {
    if |s| > 0 {
      var front := s[..|s| - 1];
      var x := s[|s| - 1];
      var sorted := SortSteps(front);
      var f := AtIndex(v);
      var added := Added(x, v);
      calc {
        Seqs.Filter(SortSteps(s), f);
        Seqs.Filter(Insert(x, sorted), f);
        { SortStepsSorted(front);
          InsertStable(x, sorted, v); }
        Seqs.Filter(sorted, f) + added;
        { SortStepsStable(front, v); }
        Seqs.Filter(front, f) + added;
        { FilterSingleton(x, f); }
        Seqs.Filter(front, f) + Seqs.Filter([x], f);
        { Seqs.FilterAppend(front, [x], f);
          assert front + [x] == s; }
        Seqs.Filter(s, f);
      }
    }
  }

  /** A list already in position order is displayed as it is. */
  lemma {:induction false} SortStepsSortedInput(s: seq<Step>)
    requires SortedByIndex(s)
    ensures SortSteps(s) == s
  {
    if |s| > 0 {
      var front := s[..|s| - 1];
      SortStepsSortedInput(front);
      InsertAtEnd(s[|s| - 1], front);
      assert front + [s[|s| - 1]] == s;
    }
  }

  lemma {:induction false} InsertAtEnd(x: Step, s: seq<Step>)
    requires forall i :: 0 <= i < |s| ==> s[i].indexSTT <= x.indexSTT
    ensures Insert(x, s) == s + [x]
  {
    if |s| > 0 {
      InsertAtEnd(x, s[1..]);
      assert [s[0]] + (s[1..] + [x]) == s + [x];
    }
  }
}

=== FILE: employee_dialog.dfy ===
/** The add/edit dialog of the special-leave list: the employee record
    being typed, the division and section pickers (choosing a division
    invalidates the section), the two date fields and the submit. */
module EmployeeDialog {
  import opened Wrappers
  import opened ResignTypes

  /** The record plus the open flag and search text of each picker. */
  datatype DialogState = DialogState(
    employee: Employee,
    divisionOpen: bool,
    divisionSearch: string,
    sectionOpen: bool,
    sectionSearch: string)

  /** The blank record: the ten string fields empty, no codes. */
  function Blank(): (r: Employee)
    ensures r.id == "" && r.code == "" && r.name == "" && r.division == "" && r.section == ""
    ensures r.position == "" && r.grade == "" && r.entryDate == "" && r.actualLeaveDate == "" && r.note == ""
    ensures r.divisionCode.None? && r.sectionCode.None?
  {
    Employee("", "", "", "", None, "", None, "", "", "", "", "")
  }

  /** The state the dialog starts in: the record handed in, or the blank
      one; both pickers closed with empty searches. */
  function Initial(initialData: Option<Employee>): (r: DialogState)
    ensures initialData.Some? ==> r.employee == initialData.value
    ensures initialData.None? ==> r.employee == Blank()
    ensures !r.divisionOpen && !r.sectionOpen && r.divisionSearch == "" && r.sectionSearch == ""
  {
    DialogState(initialData.GetOr(Blank()), false, "", false, "")
  }

  /** Two records that agree on every field other than the division and
      section ones. */
  predicate SameDetails(a: Employee, b: Employee)
  {
    a.id == b.id && a.code == b.code && a.name == b.name && a.position == b.position
    && a.grade == b.grade && a.entryDate == b.entryDate && a.actualLeaveDate == b.actualLeaveDate
    && a.note == b.note
  }

  /** `handleDivisionSelect`: the division's name and code are stored, the
      picker closes and its search clears; a section already chosen is
      cleared together with its code (the code becomes the empty string,
      not absent). */
  function SelectDivision(st: DialogState, d: Department): (r: DialogState)
    ensures r.employee.division == d.name && r.employee.divisionCode == Some(d.code)
    ensures r.employee.section == ""
    ensures st.employee.section != "" ==> r.employee.sectionCode == Some("")
    ensures st.employee.section == "" ==> r.employee.sectionCode == st.employee.sectionCode
    ensures SameDetails(r.employee, st.employee)
    ensures !r.divisionOpen && r.divisionSearch == ""
    ensures r.sectionOpen == st.sectionOpen && r.sectionSearch == st.sectionSearch
  {
    var e := st.employee.(division := d.name, divisionCode := Some(d.code));
    var e' := if st.employee.section != "" then e.(section := "", sectionCode := Some("")) else e;
    st.(employee := e', divisionOpen := false, divisionSearch := "")
  }

  /** `handleSectionSelect`: the section's name and code are stored and
      that picker closes and clears; the division is untouched. */
  function SelectSection(st: DialogState, s: Department): (r: DialogState)
    ensures r.employee.section == s.name && r.employee.sectionCode == Some(s.code)
    ensures r.employee.division == st.employee.division && r.employee.divisionCode == st.employee.divisionCode
    ensures SameDetails(r.employee, st.employee)
    ensures !r.sectionOpen && r.sectionSearch == ""
    ensures r.divisionOpen == st.divisionOpen && r.divisionSearch == st.divisionSearch
  {
    st.(employee := st.employee.(section := s.name, sectionCode := Some(s.code)),
        sectionOpen := false, sectionSearch := "")
  }

  /** The section picker is disabled while no division is chosen. */
  predicate SectionDisabled(e: Employee)
  {
    e.division == ""
  }

  /** A section survives only until the next division choice: choosing a
      division after a section always empties the section again, and the
      section picker is then enabled exactly when the division has a name. */
  lemma SectionFollowsDivision(st: DialogState, s: Department, d: Department)
    ensures var r := SelectDivision(SelectSection(st, s), d);
      && r.employee.section == ""
      && (s.name != "" ==> r.employee.sectionCode == Some(""))
      && (SectionDisabled(r.employee) <==> d.name == "")
  {
  }

  /** Choosing a division and then a section keeps both choices. */
  lemma DivisionThenSection(st: DialogState, d: Department, s: Department)
    ensures var r := SelectSection(SelectDivision(st, d), s);
      && r.employee.division == d.name && r.employee.divisionCode == Some(d.code)
      && r.employee.section == s.name && r.employee.sectionCode == Some(s.code)
      && SameDetails(r.employee, st.employee)
  {
  }

  /** The calendar of the entry date: the picked day's ISO text, or the
      empty string when the day is unpicked. The ISO text is computed by
      the caller. */
  function SetEntryDate(st: DialogState, iso: Option<string>): (r: DialogState)
    ensures r.employee.entryDate == (if iso.Some? then iso.value else "")
    ensures r.employee == st.employee.(entryDate := r.employee.entryDate)
  {
    st.(employee := st.employee.(entryDate := iso.GetOr("")))
  }

  /** The calendar of the leave date, likewise. */
  function SetLeaveDate(st: DialogState, iso: Option<string>): (r: DialogState)
    ensures r.employee.actualLeaveDate == (if iso.Some? then iso.value else "")
    ensures r.employee == st.employee.(actualLeaveDate := r.employee.actualLeaveDate)
  {
    st.(employee := st.employee.(actualLeaveDate := iso.GetOr("")))
  }

  /** The two date fields are independent: setting one never disturbs the
      other, in either order. */
  lemma DatesIndependent(st: DialogState, a: Option<string>, b: Option<string>)
    ensures SetLeaveDate(SetEntryDate(st, a), b) == SetEntryDate(SetLeaveDate(st, b), a)
  {
  }

  /** What a submit does: the record handed to the parent, the dialog's
      next state and whether it stays open. */
  datatype Submitted = Submitted(emitted: Employee, next: DialogState, open: bool)

  /** `handleSubmit`: the record is handed over as typed, without checks;
      an add resets to the blank record while an edit keeps it; the
      dialog always closes. */
  function Submit(st: DialogState, isEditing: bool): (r: Submitted)
    ensures r.emitted == st.employee
    ensures !r.open
    ensures isEditing ==> r.next == st
    ensures !isEditing ==> r.next.employee == Blank() && r.next == st.(employee := Blank())
  {
    Submitted(st.employee, if isEditing then st else st.(employee := Blank()), false)
  }

  /** After an add, submitting again straight away hands over the blank
      record; after an edit, the same record is handed over again. */
  lemma SubmitTwice(st: DialogState, isEditing: bool)
    ensures !isEditing ==> Submit(Submit(st, isEditing).next, isEditing).emitted == Blank()
    ensures isEditing ==> Submit(Submit(st, isEditing).next, isEditing).emitted == st.employee
  {
  }
}

=== FILE: exclude_code_dialog.dfy ===
/** The exclude-override editor of one approval step: one employee code
    plus the index of the row being edited, over the step's exclude list. */
module ExcludeCodeDialog {
  import opened Wrappers
  import opened ApprovalTypes

  /** The employee code field and the row index being edited. */
  datatype Form = Form(code: string, index: Option<int>)

  datatype SaveCall =
    | AddExclude(fields: Exclude)
    | UpdateExclude(fields: Exclude, index: int)

  datatype Row = Row(item: Exclude, index: int)

  /** `resetForm`: empty code, no row held. */
  function Reset(): (r: Form)
    ensures r.code == "" && r.index.None?
  {
    Form("", None)
  }

  /** `handleEdit`: the row's code is loaded and its position is held. */
  function Edit(item: Exclude, index: int): (r: Form)
    ensures r.code == item.employeeCode && r.index == Some(index)
  {
    Form(item.employeeCode, Some(index))
  }

  /** The call `handleSave` makes: update of the held row, or add. */
  function SaveCallOf(f: Form): (r: SaveCall)
    ensures r.fields == Exclude(f.code)
    ensures r.UpdateExclude? <==> f.index.Some?
    ensures r.UpdateExclude? ==> r.index == f.index.value
  {
    match f.index
    case Some(i) => UpdateExclude(Exclude(f.code), i)
    case None => AddExclude(Exclude(f.code))
  }

  /** The form once the save callback settles. */
  function AfterSave(f: Form, outcome: Outcome): (r: Form)
    ensures outcome.Resolved? ==> r.code == "" && r.index.None?
    ensures outcome.Threw? ==> r == f
  {
    match outcome
    case Resolved => Reset()
    case Threw => f
  }

  /** The cancel button resets the form, whatever it held. */
  function Cancel(f: Form): (r: Form)
    ensures r.code == "" && r.index.None?
  {
    Reset()
  }

  /** The placeholder row is shown when no step is chosen or the step has
      no excluded employees. */
  predicate Placeholder(step: Option<Step>)
  {
    step.None? || |step.value.excludes| == 0
  }

  /** The table rows, each tagged with its position. */
  function Rows(step: Option<Step>): (r: seq<Row>)
    ensures Placeholder(step) ==> r == []
    ensures !Placeholder(step) ==> |r| == |step.value.excludes|
    ensures !Placeholder(step) ==>
      forall j :: 0 <= j < |r| ==> r[j].item == step.value.excludes[j] && r[j].index == j
  {
    if Placeholder(step) then []
    else seq(|step.value.excludes|, j requires 0 <= j < |step.value.excludes| => Row(step.value.excludes[j], j))
  }

  /** Editing row `j` and saving at once updates position `j` with the same
      code; its delete button deletes position `j`. */
  lemma EditRowThenSave(step: Option<Step>, j: int)
    requires !Placeholder(step) && 0 <= j < |step.value.excludes|
    ensures var row := Rows(step)[j];
      && SaveCallOf(Edit(row.item, row.index)) == UpdateExclude(step.value.excludes[j], j)
      && row.index == j
  {
  }

  /** A resolved save followed by another save adds rather than updates. */
  lemma SaveAfterSuccessAdds(f: Form)
    ensures SaveCallOf(AfterSave(f, Resolved)).AddExclude?
  {
  }

  /** Cancelling an edit drops the held row: a save right after it adds a
      blank entry instead of updating the row. */
  lemma CancelDropsEditedRow(item: Exclude, index: int)
    ensures SaveCallOf(Cancel(Edit(item, index))) == AddExclude(Exclude(""))
    ensures SaveCallOf(Edit(item, index)).index == index
  {
  }
}

=== FILE: file_management.dfy ===
/** The configuration-file screen: the group tabs derived from the file
    list, the file and download names taken from each file's URL, and the
    guarded replace-file update. */
module FileManagement {
  import opened Wrappers
  import Seqs
  import Text

  /** A stored file: its id, the group key its tab is named after, and its
      URL. */
  datatype FileDoc = FileDoc(id: string, key: string, url: string)

  function Same(k: string): string { k }

  function KeyOf(d: FileDoc): string { d.key }

  /** A string is among a list of strings exactly when it is one of its
      keys under the identity. */
  lemma InKeysOfSame(s: seq<string>, x: string)
    ensures x in s <==> x in Seqs.KeysOf(s, Same)
  {
    if x in s {
      var i :| 0 <= i < |s| && s[i] == x;
      assert Same(s[i]) == x;
    }
  }

  /** The keys the tabs are built from: `all` followed by each file's key,
      in file order. */
  function TabSource(docs: seq<FileDoc>): (r: seq<string>)
    ensures |r| == |docs| + 1 && r[0] == "all"
    ensures forall i :: 0 <= i < |docs| ==> r[i + 1] == docs[i].key
  {
    ["all"] + Seqs.Map(docs, KeyOf)
  }

  /** `uniqueKeys`: `all`, then every file key not seen before, in order of
      first occurrence; just `all` while the list has not loaded. */
  function UniqueKeys(docs: Option<seq<FileDoc>>): (r: seq<string>)
    ensures |r| >= 1 && r[0] == "all"
    ensures docs.None? ==> r == ["all"]
    ensures Seqs.KeysDistinct(r, Same)
    ensures docs.Some? ==> forall i :: 0 <= i < |docs.value| ==> docs.value[i].key in r
    ensures docs.Some? ==> forall k :: k in r ==> k in TabSource(docs.value)
    ensures docs.Some? ==> forall j, k :: 0 <= j < k < |r| ==>
      r[j] in TabSource(docs.value) && r[k] in TabSource(docs.value)
      && Seqs.FirstIndex(TabSource(docs.value), Same, r[j]) < Seqs.FirstIndex(TabSource(docs.value), Same, r[k])
  {
    match docs
    case None =>
      assert Seqs.KeysDistinct(["all"], Same);
      ["all"]
    case Some(ds) =>
      UniqueKeysProperties(TabSource(ds));
      Seqs.DedupBy(TabSource(ds), Same)
  }

  /** The properties of first-occurrence de-duplication that the tabs
      rely on, for any list of keys. */
  lemma UniqueKeysProperties(all: seq<string>)
    requires |all| > 0
    ensures var r := Seqs.DedupBy(all, Same);
      && |r| >= 1 && r[0] == all[0]
      && Seqs.KeysDistinct(r, Same)
      && (forall k :: k in r <==> k in all)
      && (forall j, k :: 0 <= j < k < |r| ==>
            r[j] in all && r[k] in all
            && Seqs.FirstIndex(all, Same, r[j]) < Seqs.FirstIndex(all, Same, r[k]))
  {
    var r := Seqs.DedupBy(all, Same);
    Seqs.DedupByFirstOccurrences(all, Same);
    UniqueKeysMembership(all, r);
    FirstKeptIsFirst(all, r);
  }

  /** The de-duplicated list holds exactly the strings of its source. */
  lemma UniqueKeysMembership(all: seq<string>, r: seq<string>)
    requires Seqs.KeysOf(r, Same) == Seqs.KeysOf(all, Same)
    ensures forall k :: k in r <==> k in all
    ensures forall k :: k in r ==> k in Seqs.KeysOf(all, Same)
  {
    forall k
      ensures k in r <==> k in all
    {
      InKeysOfSame(r, k);
      InKeysOfSame(all, k);
    }
    forall k | k in r
      ensures k in Seqs.KeysOf(all, Same)
    {
      InKeysOfSame(all, k);
    }
  }

  /** De-duplication keeps the source's first element in front. */
  lemma FirstKeptIsFirst(all: seq<string>, r: seq<string>)
    requires |all| > 0
    requires forall k :: k in r <==> k in all
    requires forall k :: k in r ==> k in Seqs.KeysOf(all, Same)
    requires forall i, j :: 0 <= i < j < |r| ==>
      Seqs.FirstIndex(all, Same, r[i]) < Seqs.FirstIndex(all, Same, r[j])
    ensures |r| > 0 && r[0] == all[0]
  {
    assert all[0] in r;
    var j :| 0 <= j < |r| && r[j] == all[0];
    assert Seqs.IsFirst(all, Same, 0);
    Seqs.FirstIndexOfFirst(all, Same, 0);
    if j > 0 {
      assert false;
    }
  }

  /** One step of the `reduce`: pushing a key the list does not include
      yet (and skipping one it does) de-duplicates the longer prefix. */
  lemma PushStep(prefix: seq<string>, k: string, keys: seq<string>)
    requires keys == Seqs.DedupBy(prefix, Same)
    ensures (if k in keys then keys else keys + [k]) == Seqs.DedupBy(prefix + [k], Same)
  {
    Seqs.DedupBySnoc(prefix, k, Same);
    InKeysOfSame(keys, k);
  }

  /** The `reduce` as written: walk the files, pushing a key when the list
      built so far does not include it yet. */
  method UniqueKeysLoop(docs: Option<seq<FileDoc>>) returns (keys: seq<string>)
    ensures keys == UniqueKeys(docs)
  {
    if docs.None? {
      return ["all"];
    }
    var ds := docs.value;
    ghost var all := TabSource(ds);
    keys := ["all"];
    PushStep([], "all", []);
    assert all[..1] == [] + ["all"];
    var i := 0;
    while i < |ds|
      invariant 0 <= i <= |ds|
      invariant keys == Seqs.DedupBy(all[..i + 1], Same)
    {
      var k := ds[i].key;
      Seqs.PrefixSnoc(all, i + 1);
      PushStep(all[..i + 1], k, keys);
      if k !in keys {
        keys := keys + [k];
      }
      i := i + 1;
    }
    assert all[..i + 1] == all;
  }

  /** The name shown for a file: the part of its URL after the last
      slash. */
  function FileName(url: string): (r: string)
    ensures '/' !in r
    ensures |r| <= |url| && r == url[|url| - |r|..]
    ensures |r| < |url| ==> url[|url| - |r| - 1] == '/'
  {
    Text.LastSegment(url)
  }

  /** The name a download falls back to. */
  const Fallback := "download"

  lemma FallbackHasNoSlash()
    ensures '/' !in Fallback
  {
    assert forall i :: 0 <= i < |Fallback| ==> Fallback[i] != '/';
  }

  /** The name a download is saved under: the file name, or `download`
      when the URL ends in a slash (or is empty). */
  function DownloadName(url: string): (r: string)
    ensures r != "" && '/' !in r
    ensures FileName(url) != "" ==> r == FileName(url)
    ensures FileName(url) == "" ==> r == Fallback
  {
    var name := FileName(url);
    if name == "" then FallbackHasNoSlash(); Fallback else name
  }

  /** A URL made of a directory and a non-empty slash-free name shows and
      downloads as that name; one ending in a slash downloads as
      `download`. */
  lemma DownloadNameOf(dir: string, name: string)
    requires '/' !in name
    ensures name != "" ==> DownloadName(dir + "/" + name) == name
    ensures DownloadName(dir + "/") == Fallback
  {
    Text.LastSegmentAfterSlash(dir, name);
    Text.LastSegmentAfterSlash(dir, "");
    assert dir + "/" + "" == dir + "/";
  }

  /** A file the user picked to upload. */
  datatype Upload = Upload(name: string)

  /** The edit dialog: the file being replaced, the chosen upload and
      whether the dialog is open. */
  datatype EditState = EditState(selected: Option<FileDoc>, upload: Option<Upload>, open: bool)

  /** `handleEdit`: the file is targeted and the dialog opens. */
  function StartEdit(st: EditState, f: FileDoc): (r: EditState)
    ensures r.selected == Some(f) && r.open && r.upload == st.upload
  {
    st.(selected := Some(f), open := true)
  }

  /** `handleFileChange`: an upload replaces the previous one only when a
      file was actually picked. */
  function ChooseUpload(st: EditState, picked: Option<Upload>): (r: EditState)
    ensures picked.Some? ==> r == st.(upload := picked)
    ensures picked.None? ==> r == st
  {
    if picked.Some? then st.(upload := picked) else st
  }

  /** The request of `handleUpdateFile`: the upload, the file id and the
      name the file is addressed by. */
  datatype UpdateCall = UpdateCall(target: string, fileId: string, upload: Upload)

  /** Nothing is sent unless both a file and an upload are chosen; the
      request addresses the file by the same name its row shows. */
  function UpdateRequest(st: EditState): (r: Option<UpdateCall>)
    ensures r.Some? <==> st.selected.Some? && st.upload.Some?
    ensures r.Some? ==> r.value.target == FileName(st.selected.value.url)
    ensures r.Some? ==> r.value.fileId == st.selected.value.id && r.value.upload == st.upload.value
  {
    if st.selected.Some? && st.upload.Some? then
      Some(UpdateCall(FileName(st.selected.value.url), st.selected.value.id, st.upload.value))
    else None
  }

  /** After the update settles: success closes the dialog and forgets the
      file and the upload; a failed or thrown request keeps everything. */
  function AfterUpdate(st: EditState, outcome: Outcome): (r: EditState)
    ensures outcome.Resolved? ==> !r.open && r.selected.None? && r.upload.None?
    ensures outcome.Threw? ==> r == st
  {
    if outcome.Resolved? then EditState(None, None, false) else st
  }

  /** Editing a row and picking a file always sends a request for that
      row's file; after a success the next update sends nothing until a
      file and an upload are chosen again. */
  lemma EditPickUpdate(st: EditState, f: FileDoc, u: Upload)
    ensures var s := ChooseUpload(StartEdit(st, f), Some(u));
      && UpdateRequest(s) == Some(UpdateCall(FileName(f.url), f.id, u))
      && UpdateRequest(AfterUpdate(s, Resolved)).None?
  {
  }
}

=== FILE: leave_special.dfy ===
/** The special-leave page: the multi-select of employees with its
    select-all header, the pager of the EzV4 tab, the bulk delete, the
    default department and the guarded fetch of the special list. */
module LeaveSpecial {
  import opened Wrappers
  import opened ResignTypes
  import Seqs

  function NotId(id: string): string -> bool
  {
    (x: string) => x != id
  }

  /** The selection with every copy of `id` removed, order kept. */
  function Without(sel: seq<string>, id: string): seq<string>
  {
    Seqs.Filter(sel, NotId(id))
  }

  /** Removing `id` keeps the count of every other id and leaves no copy of
      `id`. */
  lemma {:induction false} WithoutCounts(sel: seq<string>, id: string)
    ensures forall x :: x != id ==> multiset(Without(sel, id))[x] == multiset(sel)[x]
    ensures multiset(Without(sel, id))[id] == 0
  {
    if |sel| > 0 {
      WithoutCounts(sel[1..], id);
      assert sel == [sel[0]] + sel[1..];
      assert Without(sel, id) == (if sel[0] != id then [sel[0]] else []) + Without(sel[1..], id);
    }
  }

  /** `toggleEmployeeSelection`: a selected id is removed, any other is
      appended at the end. */
  function Toggle(sel: seq<string>, id: string): (r: seq<string>)
    ensures id in sel ==> id !in r && Seqs.IsSubseq(r, sel)
    ensures id in sel ==> forall x :: x != id ==> multiset(r)[x] == multiset(sel)[x]
    ensures id !in sel ==> r == sel + [id]
  {
    if id in sel then
      WithoutCounts(sel, id);
      Seqs.FilterIsSubseq(sel, NotId(id));
      Without(sel, id)
    else sel + [id]
  }

  /** Toggling an id twice selects the same ids as before; when the id was
      not selected the selection comes back exactly. */
  lemma ToggleTwice(sel: seq<string>, id: string)
    ensures forall x :: x in Toggle(Toggle(sel, id), id) <==> x in sel
    ensures id !in sel ==> Toggle(Toggle(sel, id), id) == sel
  {
    if id in sel {
      var once := Toggle(sel, id);
      assert id !in once;
      forall x | x != id
        ensures x in once <==> x in sel
      {
        assert multiset(once)[x] == multiset(sel)[x];
      }
    } else {
      Seqs.FilterAppend(sel, [id], NotId(id));
      Seqs.FilterAllPass(sel, NotId(id));
      assert Seqs.Filter([id], NotId(id)) == [];
    }
  }

  /** A selection without repeated ids. */
  predicate Distinct(sel: seq<string>)
  {
    forall x :: x in sel ==> multiset(sel)[x] <= 1
  }

  /** Toggling keeps a selection free of repeats, so a selection built by
      clicks from the empty one never holds an id twice. */
  lemma ToggleKeepsDistinct(sel: seq<string>, id: string)
    requires Distinct(sel)
    ensures Distinct(Toggle(sel, id))
  {
    var r := Toggle(sel, id);
    if id in sel {
      forall x | x in r
        ensures multiset(r)[x] <= 1
      {
        assert x != id;
        assert multiset(r)[x] == multiset(sel)[x];
        assert x in sel;
      }
    } else {
      assert multiset(r) == multiset(sel) + multiset{id};
      forall x | x in r
        ensures multiset(r)[x] <= 1
      {
        if x == id {
          assert multiset(sel)[id] == 0;
        } else {
          assert x in sel;
        }
      }
    }
  }

  /** `toggleSelectAll`: only the lengths are compared; when they agree the
      selection is cleared, otherwise it becomes every row's id in row
      order. */
  function SelectAll(sel: seq<string>, data: seq<Employee>): (r: seq<string>)
    ensures |sel| == |data| ==> r == []
    ensures |sel| != |data| ==> |r| == |data| && forall i :: 0 <= i < |data| ==> r[i] == data[i].id
  {
    if |sel| == |data| then [] else Seqs.Map(data, IdOf)
  }

  /** The header checkbox: ticked when there are rows and the selection is
      as long as the row list. */
  predicate HeaderChecked(sel: seq<string>, data: seq<Employee>)
  {
    |data| > 0 && |sel| == |data|
  }

  /** Clicking the header ticks it exactly when it was not ticked and there
      are rows: a ticked header clears, an unticked one selects all. */
  lemma SelectAllFlipsHeader(sel: seq<string>, data: seq<Employee>)
    ensures HeaderChecked(SelectAll(sel, data), data) <==> |data| > 0 && |sel| != |data|
    ensures HeaderChecked(sel, data) ==> SelectAll(sel, data) == []
  {
  }

  /** Because only lengths are compared, a selection holding one stale id
      (say from another department) of the same length as the rows is
      cleared rather than replaced by the rows' ids. */
  lemma SelectAllComparesLengthsOnly(e: Employee)
    requires e.id != "stale"
    ensures SelectAll(["stale"], [e]) == []
    ensures HeaderChecked(["stale"], [e])
  {
  }

  /** The previous-page button: one page back, never below page 1. */
  function PrevPage(page: int): (r: int)
    ensures r >= 1
    ensures r <= page || page < 1
  {
    if page - 1 < 1 then 1 else page - 1
  }

  function NextPage(page: int): int
  {
    page + 1
  }

  predicate PrevDisabled(page: int, loading: bool)
  {
    page == 1 || loading
  }

  predicate NextDisabled(page: int, pages: int, loading: bool)
  {
    page >= pages || loading
  }

  /** From any page at least 1, an enabled next button stays within the
      page count, an enabled previous button goes exactly one page back
      and stays at least 1, and going forward then back returns. Going
      back then forward returns only from above page 1: from page 1 the
      clamp keeps the page and forward lands on page 2. */
  lemma PagerStaysInRange(page: int, pages: int, loading: bool)
    requires page >= 1
    ensures !NextDisabled(page, pages, loading) ==> 1 <= NextPage(page) <= pages
    ensures !PrevDisabled(page, loading) ==> PrevPage(page) == page - 1 >= 1
    ensures PrevPage(NextPage(page)) == page
    ensures page > 1 ==> NextPage(PrevPage(page)) == page
    ensures page == 1 ==> NextPage(PrevPage(page)) == 2
  {
  }

  /** The body of the bulk-delete request. */
  datatype DeleteRequest = DeleteRequest(deptName: string, employeeIds: seq<string>)

  /** `deleteMultipleEmployees`: nothing is sent for an empty selection;
      otherwise the department and the selected ids, as selected. */
  function BulkDeleteRequest(dept: string, sel: seq<string>): (r: Option<DeleteRequest>)
    ensures r.None? <==> |sel| == 0
    ensures r.Some? ==> r.value.deptName == dept && r.value.employeeIds == sel
  {
    if |sel| == 0 then None else Some(DeleteRequest(dept, sel))
  }

  /** How a request ended: an ok response, an error response, or a thrown
      error (network or body parsing). */
  datatype Response = Ok | NotOk | Failed

  datatype DeleteToast = Deleted(count: nat) | DeleteError

  /** The page after the bulk delete settles: the selection, whether the
      list is fetched again, and the toast. */
  datatype AfterDelete = AfterDelete(selection: seq<string>, refetch: bool, toast: DeleteToast)

  /** Success reports how many were deleted, clears the selection and
      reloads; any failure reports an error and keeps the selection. */
  function AfterBulkDelete(sel: seq<string>, resp: Response): (r: AfterDelete)
    ensures resp.Ok? ==> r.selection == [] && r.refetch && r.toast == Deleted(|sel|)
    ensures !resp.Ok? ==> r.selection == sel && !r.refetch && r.toast == DeleteError
  {
    if resp.Ok? then AfterDelete([], true, Deleted(|sel|)) else AfterDelete(sel, false, DeleteError)
  }

  /** The default-department effect: the first loaded department's code
      is chosen only while no department is selected. */
  function DefaultDepartment(departments: seq<Department>, selected: string): (r: string)
    ensures selected != "" || |departments| == 0 ==> r == selected
    ensures selected == "" && |departments| > 0 ==> r == departments[0].code
  {
    if |departments| > 0 && selected == "" then departments[0].code else selected
  }

  /** Running the effect again changes nothing, and a choice the user made
      is never overridden. */
  lemma DefaultDepartmentSettles(departments: seq<Department>, selected: string)
    ensures DefaultDepartment(departments, DefaultDepartment(departments, selected)) == DefaultDepartment(departments, selected)
  {
  }

  /** The body `fetchSpecificData` posts: none without a department. */
  function SpecificFetch(dept: string): (r: Option<string>)
    ensures r.None? <==> dept == ""
    ensures r.Some? ==> r.value == dept
  {
    if dept == "" then None else Some(dept)
  }

  /** What the tab/department effect fetches. */
  datatype Fetch = NoFetch | FetchSpecific(deptName: string) | FetchEzV4

  function EffectFetch(tab: string, dept: string): (r: Fetch)
    ensures r.FetchEzV4? <==> tab != "specific"
    ensures r.FetchSpecific? <==> tab == "specific" && dept != ""
    ensures r.FetchSpecific? ==> r.deptName == dept
  {
    if tab == "specific" then
      match SpecificFetch(dept)
      case Some(d) => FetchSpecific(d)
      case None => NoFetch
    else FetchEzV4
  }

  /** The answer of the special-list request: the `data.data.info` list
      when the response is ok (absent when some level is missing). */
  datatype SpecificAnswer = SpecificAnswer(resp: Response, info: Option<seq<Employee>>)

  /** The list shown and the loading flag once the fetch settles. */
  datatype Loaded = Loaded(data: seq<Employee>, loading: bool)

  /** An ok answer shows its list (empty when absent); an error response
      or a thrown error shows an empty list; loading always ends. */
  function AfterSpecificFetch(a: SpecificAnswer): (r: Loaded)
    ensures !r.loading
    ensures a.resp.Ok? && a.info.Some? ==> r.data == a.info.value
    ensures !(a.resp.Ok? && a.info.Some?) ==> r.data == []
  {
    if a.resp.Ok? then Loaded(a.info.GetOr([]), false) else Loaded([], false)
  }
}

=== FILE: line_dialog.dfy ===
/** The create/edit dialog of a production line: the name field kept in
    step with the open flag, the guarded submit and its mutation, and the
    rename history shown as a chain of old names. */
module LineDialog {
  import opened Wrappers
  import opened LineTypes
  import Text

  /** Edit mode holds exactly when a line is handed in. */
  predicate IsEditing(line: Option<Line>)
  {
    line.Some?
  }

  /** The open/line effect: opening with a line loads its name, closing
      empties the field, opening without a line leaves it as it is. */
  function EffectName(open: bool, line: Option<Line>, name: string): (r: string)
    ensures open && line.Some? ==> r == line.value.nameLine
    ensures !open ==> r == ""
    ensures open && line.None? ==> r == name
  {
    if open && line.Some? then line.value.nameLine
    else if !open then ""
    else name
  }

  /** Whatever was typed, closing and reopening an add dialog shows an
      empty field, and reopening an edit dialog shows the line's name. */
  lemma ReopenShowsFresh(line: Option<Line>, typed: string)
    ensures var closed := EffectName(false, line, typed);
      && (line.None? ==> EffectName(true, line, closed) == "")
      && (line.Some? ==> EffectName(true, line, closed) == line.value.nameLine)
  {
  }

  /** The mutation a submit starts. */
  datatype Mutation = NoMutation | UpdateLine(id: string, nameLine: string) | CreateLine(nameLine: string)

  /** `handleSubmit`: a blank name starts nothing; in edit mode the line is
      renamed by id, otherwise a line is created; the name is sent as
      typed, untrimmed. */
  function Submit(line: Option<Line>, name: string): (r: Mutation)
    ensures r.NoMutation? <==> Text.IsBlank(name)
    ensures r.UpdateLine? <==> !Text.IsBlank(name) && IsEditing(line)
    ensures r.UpdateLine? ==> r.id == line.value.id && r.nameLine == name
    ensures r.CreateLine? ==> r.nameLine == name
  {
    if Text.IsBlank(name) then NoMutation
    else if line.Some? then UpdateLine(line.value.id, name)
    else CreateLine(name)
  }

  /** Whether the dialog is still open once the mutation settles: it
      closes only after a resolved mutation; a rejected one throws out of
      the handler before the close. A blank submit leaves it open. */
  function OpenAfterSubmit(m: Mutation, outcome: Outcome): (r: bool)
    ensures !r <==> !m.NoMutation? && outcome.Resolved?
  {
    if m.NoMutation? then true else outcome.Threw?
  }

  /** The submit button is disabled while a mutation is pending or the
      name is blank. */
  predicate SubmitDisabled(pending: bool, name: string)
  {
    pending || Text.IsBlank(name)
  }

  /** The button and the handler agree: an enabled button always starts a
      mutation, and a disabled one because of the name never would. */
  lemma ButtonMatchesHandler(pending: bool, line: Option<Line>, name: string)
    ensures !SubmitDisabled(pending, name) ==> !Submit(line, name).NoMutation?
    ensures !pending && SubmitDisabled(pending, name) ==> Submit(line, name).NoMutation?
  {
  }

  /** The history block is shown exactly when editing a line with at
      least one rename row, and then its last row ends at the current
      name. */
  function HistoryShown(line: Option<Line>): (r: bool)
    ensures r <==> IsEditing(line) && |HistoryRows(line.value)| > 0
    ensures r ==> HistoryRows(line.value)[|line.value.history| - 1].after == line.value.nameLine
  {
    line.Some? && |line.value.history| > 0
  }

  /** One displayed rename: old name → new name. */
  datatype Rename = Rename(before: string, after: string)

  /** The rename rows: row `i` starts from the `i`-th old name and ends at
      the next old name, the last one at the current name. The rows form
      one chain from the first old name to the current name. */
  function HistoryRows(line: Line): (r: seq<Rename>)
    ensures |r| == |line.history|
    ensures forall i :: 0 <= i < |r| ==> r[i].before == line.history[i].nameLineBefore
    ensures forall i :: 0 <= i < |r| - 1 ==> r[i].after == r[i + 1].before
    ensures |r| > 0 ==> r[|r| - 1].after == line.nameLine
  {
    var r := seq(|line.history|, i requires 0 <= i < |line.history| => RowAt(line, i));
    assert forall i :: 0 <= i < |r| ==> r[i] == RowAt(line, i);
    r
  }

  function RowAt(line: Line, i: nat): Rename
    requires i < |line.history|
  {
    var h := line.history;
    Rename(h[i].nameLineBefore, if i == |h| - 1 then line.nameLine else h[i + 1].nameLineBefore)
  }

  /** The names met when reading the rows from row `i` down: each row's
      old name, then the last row's new name. */
  function Walk(rows: seq<Rename>, i: nat): seq<string>
    requires i < |rows|
    decreases |rows| - i
  {
    if i == |rows| - 1 then [rows[i].before, rows[i].after]
    else [rows[i].before] + Walk(rows, i + 1)
  }

  /** Rows form a chain when each row's new name is the next row's old
      name. */
  ghost predicate Linked(rows: seq<Rename>)
  {
    forall j :: 0 <= j < |rows| - 1 ==> rows[j].after == rows[j + 1].before
  }

  /** In a chain of rows, reading from row `i` meets each later row's old
      and new name as two consecutive names, and ends at the last row's
      new name. */
  lemma {:induction false} WalkSteps(rows: seq<Rename>, i: nat)
    requires i < |rows| && Linked(rows)
    ensures |Walk(rows, i)| == |rows| - i + 1
    ensures Walk(rows, i)[|rows| - i] == rows[|rows| - 1].after
    ensures forall j :: i <= j < |rows| ==>
      Walk(rows, i)[j - i] == rows[j].before && Walk(rows, i)[j - i + 1] == rows[j].after
    decreases |rows| - i
  {
    if i < |rows| - 1 {
      WalkSteps(rows, i + 1);
      var w := Walk(rows, i);
      var t := Walk(rows, i + 1);
      assert w == [rows[i].before] + t;
      assert w[1] == t[0] == rows[i + 1].before == rows[i].after;
      forall j | i + 1 <= j < |rows|
        ensures w[j - i] == rows[j].before && w[j - i + 1] == rows[j].after
      {
        assert w[j - i] == t[j - (i + 1)];
        assert w[j - i + 1] == t[j - (i + 1) + 1];
      }
    }
  }

  /** Read from any row, the names form one chain of renames: every two
      consecutive names are the old and new name of a displayed row, the
      chain starts at that row's stored old name and ends at the line's
      current name. */
  lemma ChainEndsAtCurrent(line: Line, i: nat)
    requires i < |line.history|
    ensures var rows := HistoryRows(line);
      && |Walk(rows, i)| == |rows| - i + 1
      && Walk(rows, i)[0] == line.history[i].nameLineBefore
      && Walk(rows, i)[|rows| - i] == line.nameLine
      && (forall j :: i <= j < |rows| ==>
            Walk(rows, i)[j - i] == rows[j].before && Walk(rows, i)[j - i + 1] == rows[j].after)
  {
    WalkSteps(HistoryRows(line), i);
  }

  function DialogTitle(line: Option<Line>): (r: string)
    ensures r == "Chỉnh sửa line" <==> IsEditing(line)
  {
    if IsEditing(line) then "Chỉnh sửa line" else "Thêm line mới"
  }

  /** The submit button's text: the pending text wins over the mode. */
  function SubmitLabel(pending: bool, line: Option<Line>): (r: string)
    ensures pending ==> r == "Đang xử lý..."
    ensures !pending ==> (r == "Lưu thay đổi" <==> IsEditing(line))
  {
    if pending then "Đang xử lý..." else if IsEditing(line) then "Lưu thay đổi" else "Tạo line"
  }
}

=== FILE: line_list.dfy ===
/** The production-line list: the status tabs over the fetched page, the
    per-status counts, row numbering and the pager. */
module LineList {
  import opened Wrappers
  import opened LineTypes
  import Seqs

  datatype Tab = All | Active | Inactive

  /** Whether a line belongs under a tab. */
  function Shows(tab: Tab): Line -> bool
  {
    (l: Line) => tab.All? || (if tab.Active? then l.status else !l.status)
  }

  function IsActive(l: Line): bool { l.status }

  function IsInactive(l: Line): bool { !l.status }

  /** `filteredLines`: the docs of the fetched page that belong under the
      tab, in page order; nothing before the page has loaded. */
  function Filtered(docs: Option<seq<Line>>, tab: Tab): (r: seq<Line>)
    ensures docs.None? ==> r == []
    ensures docs.Some? ==> Seqs.IsSubseq(r, docs.value)
    ensures docs.Some? ==> forall l :: l in r <==> l in docs.value && Shows(tab)(l)
    ensures docs.Some? && tab.All? ==> r == docs.value
    ensures docs.Some? ==> forall l :: multiset(r)[l] == if Shows(tab)(l) then multiset(docs.value)[l] else 0
  {
    match docs
    case None => []
    case Some(d) =>
      Seqs.FilterIsSubseq(d, Shows(tab));
      Seqs.FilterCounts(d, Shows(tab));
      if tab.All? then Seqs.FilterAllPass(d, Shows(tab)); Seqs.Filter(d, Shows(tab))
      else Seqs.Filter(d, Shows(tab))
  }

  /** `totalDocsActive`, `totalDocsInactive`: 0 before the page has loaded. */
  function ActiveCount(docs: Option<seq<Line>>): nat
  {
    if docs.Some? then |Seqs.Filter(docs.value, IsActive)| else 0
  }

  function InactiveCount(docs: Option<seq<Line>>): nat
  {
    if docs.Some? then |Seqs.Filter(docs.value, IsInactive)| else 0
  }

  /** Every line of the page is counted exactly once: the two counts add
      up to the page size. */
  lemma CountsPartition(docs: seq<Line>)
    ensures ActiveCount(Some(docs)) + InactiveCount(Some(docs)) == |docs|
  {
    Seqs.FilterPartition(docs, IsActive, IsInactive);
  }

  /** The "showing n of total" line of the active and inactive tabs: the
      number shown equals the tab's count. */
  lemma ShownMatchesCount(docs: Option<seq<Line>>)
    ensures |Filtered(docs, Active)| == ActiveCount(docs)
    ensures |Filtered(docs, Inactive)| == InactiveCount(docs)
  {
    if docs.Some? {
      Seqs.FilterCongruent(docs.value, Shows(Active), IsActive);
      Seqs.FilterCongruent(docs.value, Shows(Inactive), IsInactive);
    }
  }

  /** The number in the first column of the row at `index` on `page`. */
  function RowNumber(page: int, limit: int, index: int): int
  {
    (page - 1) * limit + index + 1
  }

  /** Rows of a page of at most `limit` lines get the numbers
      `(page-1)*limit + 1 .. page*limit`, so no two rows of different
      pages, nor two rows of one page, share a number. */
  lemma RowNumbersDistinct(limit: int, p: int, i: int, q: int, j: int)
    requires limit >= 1 && 0 <= i < limit && 0 <= j < limit
    requires (p, i) != (q, j)
    ensures (p - 1) * limit < RowNumber(p, limit, i) <= p * limit
    ensures RowNumber(p, limit, i) != RowNumber(q, limit, j)
  {
    assert p * limit == (p - 1) * limit + limit by { Distribute(p - 1, limit); }
    if p < q {
      PageGap(limit, p, q);
    } else if q < p {
      PageGap(limit, q, p);
    }
  }

  lemma Distribute(a: int, l: int)
    ensures (a + 1) * l == a * l + l
  {
  }

  /** A later page starts at least a whole page further on. */
  lemma PageGap(limit: int, p: int, q: int)
    requires limit >= 1 && p < q
    ensures (q - 1) * limit >= (p - 1) * limit + limit
  {
    var d := q - p;
    assert (q - 1) * limit == (p - 1) * limit + d * limit by {
      assert q - 1 == (p - 1) + d;
    }
    assert d * limit >= limit by {
      assert d >= 1;
      assert d * limit == (d - 1) * limit + limit;
    }
  }

  /** `linesData?.totalPages || 1`: an unloaded or zero page count reads
      as one page. */
  function PageCount(totalPages: Option<int>): (r: int)
    ensures totalPages.Some? && totalPages.value != 0 ==> r == totalPages.value
    ensures totalPages.None? || totalPages.value == 0 ==> r == 1
  {
    if totalPages.Some? && totalPages.value != 0 then totalPages.value else 1
  }

  predicate PrevDisabled(page: int, loading: bool)
  {
    page <= 1 || loading
  }

  predicate NextDisabled(page: int, totalPages: Option<int>, loading: bool)
  {
    page >= PageCount(totalPages) || loading
  }

  /** The pager keeps the page within `1 .. PageCount`: an enabled
      previous button goes to a page at least 1, an enabled next button to
      a page at most the count; before loading, next is disabled from
      page 1. */
  lemma PagerStaysInRange(page: int, totalPages: Option<int>, loading: bool)
    ensures !PrevDisabled(page, loading) ==> page - 1 >= 1
    ensures !NextDisabled(page, totalPages, loading) ==> page + 1 <= PageCount(totalPages)
    ensures page >= 1 && (totalPages.None? || totalPages.value <= 1) ==> NextDisabled(page, totalPages, loading)
  {
  }

  /** The list's view state: the page and the status tab. */
  datatype View = View(page: int, tab: Tab)

  /** Clicking a tab: the effect on `statusTab` takes the list back to
      page 1 when the tab changes; clicking the tab already shown sets the
      same state, so the effect does not run and the page is kept. */
  function SelectTab(v: View, tab: Tab): (r: View)
    ensures r.tab == tab
    ensures tab != v.tab ==> r.page == 1
    ensures tab == v.tab ==> r == v
  {
    if tab == v.tab then v else View(1, tab)
  }

  /** After a change of tab the previous button is disabled. */
  lemma TabChangeDisablesPrev(v: View, tab: Tab, loading: bool)
    requires tab != v.tab
    ensures PrevDisabled(SelectTab(v, tab).page, loading)
  {
  }

  /** Clicking the same tab twice is clicking it once. */
  lemma SelectTabIdempotent(v: View, tab: Tab)
    ensures SelectTab(SelectTab(v, tab), tab) == SelectTab(v, tab)
  {
  }

  /** The toast of the toggle handler, chosen by the status before the
      toggle. */
  function ToggleMessage(currentStatus: bool): string
  {
    "Line đã được " + (if currentStatus then "vô hiệu hóa" else "kích hoạt")
  }

  /** The toast of the toggle mutation, chosen by the status the server
      returns. */
  function ServerToggleMessage(newStatus: bool): string
  {
    "Line đã được " + (if newStatus then "kích hoạt" else "vô hiệu hóa")
  }

  /** The two toasts agree when the server flips the status: the handler's
      message names the new state, not the old one. */
  lemma ToggleMessagesAgree(currentStatus: bool)
    ensures ToggleMessage(currentStatus) == ServerToggleMessage(!currentStatus)
    ensures ToggleMessage(currentStatus) != ToggleMessage(!currentStatus)
  {
    if currentStatus {
      assert ToggleMessage(true)[14] != ToggleMessage(false)[14];
    } else {
      assert ToggleMessage(false)[14] != ToggleMessage(true)[14];
    }
  }
}

=== FILE: line_types.dfy ===
/** A production line as the line screens read it. */
module LineTypes {
  /** One rename: the name the line had before it (the time is only
      displayed). */
  datatype HistoryEntry = HistoryEntry(nameLineBefore: string, updatedAt: string)

  datatype Line = Line(id: string, nameLine: string, status: bool, history: seq<HistoryEntry>)
}

=== FILE: login_form.dfy ===
/** The sign-in form: the length rules of its two fields and what a
    submission does with the answer of the sign-in action. */
module LoginForm {
  import opened Wrappers

  datatype FieldError = CodeTooShort | PasswordTooShort

  /** The schema's complaints, in field order: the employee code needs
      at least 4 characters and the password at least 6. */
  function Errors(employeeCode: string, password: string): (r: seq<FieldError>)
    ensures CodeTooShort in r <==> |employeeCode| < 4
    ensures PasswordTooShort in r <==> |password| < 6
    ensures |r| <= 2
  {
    (if |employeeCode| < 4 then [CodeTooShort] else [])
    + (if |password| < 6 then [PasswordTooShort] else [])
  }

  /** The answer of the sign-in action: an object with an optional error
      text and code, or nothing at all. */
  datatype Answer = Answer(error: Option<string>, code: Option<int>)

  /** How the awaited sign-in call ends. */
  datatype AuthResult = Returned(answer: Option<Answer>) | Thrown

  /** `res?.error` is truthy: present and not empty. */
  predicate HasError(a: AuthResult)
  {
    a.Returned? && a.answer.Some? && a.answer.value.error.Some? && a.answer.value.error.value != ""
  }

  /** What one submission did: where it navigated, the error toast it
      showed, whether it logged an error, and the loading flag at the
      end. */
  datatype Effects = Effects(navigate: Option<string>, toast: Option<string>, logged: bool, loading: bool)

  /** `onSubmit` on a valid form: no error text navigates to the
      dashboard; error code 2 returns silently; any other error code shows
      the error text; a throw is only logged. Loading ends on every path. */
  function OnSubmit(a: AuthResult): (r: Effects)
    ensures !r.loading
    ensures r.navigate.Some? <==> a.Returned? && !HasError(a)
    ensures r.navigate.Some? ==> r.navigate.value == "/dashboard"
    ensures r.toast.Some? <==> HasError(a) && a.answer.value.code != Some(2)
    ensures r.toast.Some? ==> r.toast.value == a.answer.value.error.value
    ensures r.logged <==> a.Thrown?
  {
    match a
    case Thrown => Effects(None, None, true, false)
    case Returned(ans) =>
      if !HasError(a) then Effects(Some("/dashboard"), None, false, false)
      else if ans.value.code == Some(1) then Effects(None, Some(ans.value.error.value), false, false)
      else if ans.value.code == Some(2) then Effects(None, None, false, false)
      else Effects(None, Some(ans.value.error.value), false, false)
  }

  /** A submission of the form: nothing happens (no call, no loading)
      while the schema complains; otherwise loading is set and the
      sign-in call runs. */
  function Submit(employeeCode: string, password: string, a: AuthResult): (r: Option<Effects>)
    ensures r.None? <==> |employeeCode| < 4 || |password| < 6
    ensures r.Some? ==> r.value == OnSubmit(a)
  {
    if |Errors(employeeCode, password)| > 0 then None else Some(OnSubmit(a))
  }

  /** A signed-in user is never left on the form with a message, and an
      error never navigates: navigation and the toast exclude each other,
      and code 1 behaves like an unknown code. */
  lemma NavigateXorToast(a: AuthResult)
    ensures !(OnSubmit(a).navigate.Some? && OnSubmit(a).toast.Some?)
    ensures HasError(a) ==> OnSubmit(a).navigate.None?
    ensures HasError(a) && a.answer.value.code == Some(1) ==>
      OnSubmit(a) == OnSubmit(Returned(Some(a.answer.value.(code := None))))
  {
  }

  /** An empty error text counts as no error and signs the user in. */
  lemma EmptyErrorSignsIn(code: Option<int>)
    ensures OnSubmit(Returned(Some(Answer(Some(""), code)))).navigate == Some("/dashboard")
  {
  }
}

=== FILE: navbar.dfy ===
/** The notification bell of the top bar: pages of notifications merged
    without duplicates, the unread view and count, the next-page parameter,
    the click handler, the theme toggle and the icon lookup. */
module Navbar {
  import opened Wrappers
  import Seqs

  datatype Notification = Notification(id: string, title: string, kind: string, isRead: bool)

  datatype Pagination = Pagination(hasNextPage: bool, nextPage: Option<int>)

  /** One fetched page of notifications. */
  datatype NotificationPage = NotificationPage(data: seq<Notification>, pagination: Pagination)

  function IdOf(n: Notification): string { n.id }

  /** `getNextPageParam`: the page number to fetch after `lastPage`; `None`
      stands for both `undefined` and a `null` next page, which end the
      infinite query alike. */
  function NextPageParam(lastPage: NotificationPage): (r: Option<int>)
    ensures !lastPage.pagination.hasNextPage ==> r.None?
    ensures lastPage.pagination.hasNextPage ==> r == lastPage.pagination.nextPage
  {
    if lastPage.pagination.hasNextPage then lastPage.pagination.nextPage else None
  }

  /** All notifications of all pages, pages in sequence. */
  function Flatten(pages: seq<NotificationPage>): seq<Notification>
  {
    if |pages| == 0 then [] else Flatten(pages[..|pages| - 1]) + pages[|pages| - 1].data
  }

  /** The flattened list holds the notifications of the pages and nothing
      else. */
  lemma {:induction false} FlattenContents(pages: seq<NotificationPage>)
    ensures forall i, j :: 0 <= i < |pages| && 0 <= j < |pages[i].data| ==> pages[i].data[j] in Flatten(pages)
    ensures forall n :: n in Flatten(pages) ==> exists i :: 0 <= i < |pages| && n in pages[i].data
  {
    if |pages| > 0 {
      var front := pages[..|pages| - 1];
      FlattenContents(front);
      assert forall i :: 0 <= i < |front| ==> front[i] == pages[i];
    }
  }

  lemma FlattenSnoc(pages: seq<NotificationPage>, i: int)
    requires 0 <= i < |pages|
    ensures Flatten(pages[..i + 1]) == Flatten(pages[..i]) + pages[i].data
  {
    assert pages[..i + 1][..i] == pages[..i];
  }

  /** The notification list shown in the bell: the first notification of
      each `_id`, in order of first appearance, pages in sequence; with no
      pages loaded the list is empty. */
  function Merge(pages: Option<seq<NotificationPage>>): (r: seq<Notification>)
    ensures pages.None? ==> r == []
    ensures pages.Some? ==>
      var all := Flatten(pages.value);
      && Seqs.KeysDistinct(r, IdOf)
      && Seqs.KeysOf(r, IdOf) == Seqs.KeysOf(all, IdOf)
      && (forall j :: 0 <= j < |r| ==> r[j] == all[Seqs.FirstIndex(all, IdOf, IdOf(r[j]))])
      && (forall j, k :: 0 <= j < k < |r| ==>
            Seqs.FirstIndex(all, IdOf, IdOf(r[j])) < Seqs.FirstIndex(all, IdOf, IdOf(r[k])))
  {
    match pages
    case None => []
    case Some(ps) =>
      Seqs.DedupByFirstOccurrences(Flatten(ps), IdOf);
      Seqs.DedupBy(Flatten(ps), IdOf)
  }

  /** The memo as written: a loop over pages and their notifications that
      keeps a notification when its `_id` has not been seen. */
  method MergeLoop(pages: Option<seq<NotificationPage>>) returns (r: seq<Notification>)
    ensures r == Merge(pages)
  {
    if pages.None? {
      return [];
    }
    var ps := pages.value;
    var seen: set<string> := {};
    r := [];
    var i := 0;
    while i < |ps|
      invariant 0 <= i <= |ps|
      invariant r == Seqs.DedupBy(Flatten(ps[..i]), IdOf)
      invariant seen == Seqs.KeysOf(Flatten(ps[..i]), IdOf)
    {
      seen, r := MergePage(Flatten(ps[..i]), ps[i].data, seen, r);
      FlattenSnoc(ps, i);
      i := i + 1;
    }
    assert ps[..i] == ps;
  }

  /** The inner loop of the memo: the notifications of one page, each kept
      when its `_id` is not among those seen so far. */
  method MergePage(base: seq<Notification>, data: seq<Notification>, seen0: set<string>, r0: seq<Notification>)
    returns (seen: set<string>, r: seq<Notification>)
    requires r0 == Seqs.DedupBy(base, IdOf) && seen0 == Seqs.KeysOf(base, IdOf)
    ensures r == Seqs.DedupBy(base + data, IdOf) && seen == Seqs.KeysOf(base + data, IdOf)
  {
    seen, r := seen0, r0;
    assert base + data[..0] == base;
    var j := 0;
    while j < |data|
      invariant 0 <= j <= |data|
      invariant r == Seqs.DedupBy(base + data[..j], IdOf)
      invariant seen == Seqs.KeysOf(base + data[..j], IdOf)
    {
      var n := data[j];
      Seqs.AppendPrefixSnoc(base, data, j);
      Seqs.DedupBySnoc(base + data[..j], n, IdOf);
      if n.id !in seen {
        seen := seen + {n.id};
        r := r + [n];
      }
      j := j + 1;
    }
    assert data[..j] == data;
  }

  predicate IsUnread(n: Notification) { !n.isRead }

  predicate IsReadNotification(n: Notification) { n.isRead }

  /** The unread tab: the unread notifications of the list, in list order. */
  function UnreadTab(ns: seq<Notification>): (r: seq<Notification>)
    ensures forall i :: 0 <= i < |r| ==> !r[i].isRead && r[i] in ns
    ensures forall i :: 0 <= i < |ns| && !ns[i].isRead ==> ns[i] in r
    ensures Seqs.IsSubseq(r, ns)
    ensures forall x :: multiset(r)[x] == if IsUnread(x) then multiset(ns)[x] else 0
  {
    Seqs.FilterIsSubseq(ns, IsUnread);
    Seqs.FilterCounts(ns, IsUnread);
    Seqs.Filter(ns, IsUnread)
  }

  /** The badge number: the length of the unread tab. */
  function UnreadCount(ns: seq<Notification>): (r: nat)
    ensures r <= |ns|
  {
    |UnreadTab(ns)|
  }

  /** Unread and read notifications split the list, so the badge is the
      list length minus the read ones. */
  lemma UnreadCountComplement(ns: seq<Notification>)
    ensures UnreadCount(ns) + |Seqs.Filter(ns, IsReadNotification)| == |ns|
  {
    Seqs.FilterPartition(ns, IsUnread, IsReadNotification);
  }

  /** The badge is zero iff every notification of the list is read. */
  lemma {:induction false} UnreadCountZero(ns: seq<Notification>)
    ensures UnreadCount(ns) == 0 <==> forall i :: 0 <= i < |ns| ==> ns[i].isRead
  {
    if exists i :: 0 <= i < |ns| && !ns[i].isRead {
      var i :| 0 <= i < |ns| && !ns[i].isRead;
      assert ns[i] in UnreadTab(ns);
    }
  }

  /** What a click does: `Some(id)` when a mark-as-read request is sent. */
  function ClickAction(n: Notification): (r: Option<string>)
    ensures r.Some? <==> !n.isRead
    ensures r.Some? ==> r.value == n.id
  {
    if !n.isRead then Some(n.id) else None
  }

  /** The theme button: dark becomes light, anything else becomes dark. */
  function ToggleTheme(theme: string): (r: string)
    ensures r == "light" <==> theme == "dark"
    ensures r == "dark" || r == "light"
  {
    if theme == "dark" then "light" else "dark"
  }

  /** Toggling twice returns to dark or light; an unset or system theme
      ends up light after two clicks. */
  lemma ToggleThemeTwice(theme: string)
    ensures theme == "dark" || theme == "light" ==> ToggleTheme(ToggleTheme(theme)) == theme
    ensures theme != "dark" && theme != "light" ==> ToggleTheme(ToggleTheme(theme)) == "light"
  {
  }

  const DefaultIcon: string := "📣"

  /** The icon table of notification types. */
  function IconTable(kind: string): Option<string>
  {
    if kind == "PROCESSING_UPDATED" then Some("🔄")
    else if kind == "STATUS_UPDATED" then Some("📊")
    else if kind == "REQUEST_CREATED" then Some("📝")
    else if kind == "REQUEST_APPROVED" then Some("✅")
    else if kind == "REQUEST_REJECTED" then Some("❌")
    else if kind == "default" then Some(DefaultIcon)
    else None
  }

  /** The icon of a notification: its table entry, or the default icon
      for a type the table does not know. */
  function IconFor(kind: string): (r: string)
    ensures IconTable(kind).Some? ==> r == IconTable(kind).value
    ensures IconTable(kind).None? ==> r == DefaultIcon
    ensures r != ""
  {
    IconTable(kind).GetOr(DefaultIcon)
  }

  /** The five request events have five different icons, none of them the
      fallback. */
  lemma KnownIconsDistinct()
    ensures var ks := ["PROCESSING_UPDATED", "STATUS_UPDATED", "REQUEST_CREATED", "REQUEST_APPROVED", "REQUEST_REJECTED"];
      && (forall i :: 0 <= i < |ks| ==> IconFor(ks[i]) != DefaultIcon)
      && (forall i, j :: 0 <= i < j < |ks| ==> IconFor(ks[i]) != IconFor(ks[j]))
  {
  }
}

=== FILE: query_string.dfy ===
/** How a receiver reads a URL query string: cut at `#`, split on `&`,
    split each part at its first `=`, and decode `+` and `%XX` escapes.
    Also the escaping that makes any value survive that reading. */
module QueryString {
  import Seqs

  type Pair = (string, string)

  /** The parts joined with `sep` between neighbours. */
  function Join(parts: seq<string>, sep: char): string
  {
    if |parts| == 0 then ""
    else if |parts| == 1 then parts[0]
    else parts[0] + [sep] + Join(parts[1..], sep)
  }

  /** `s` cut at every `sep`; always at least one part. */
  function SplitOn(s: string, sep: char): (r: seq<string>)
    ensures |r| >= 1
    ensures forall i :: 0 <= i < |r| ==> sep !in r[i]
  {
    if |s| == 0 then [""]
    else
      var rest := SplitOn(s[1..], sep);
      if s[0] == sep then [""] + rest
      else [[s[0]] + rest[0]] + rest[1..]
  }

  lemma {:induction false} SplitNoSep(p: string, sep: char)
    requires sep !in p
    ensures SplitOn(p, sep) == [p]
  {
    if |p| > 0 {
      SplitNoSep(p[1..], sep);
      assert [p[0]] + p[1..] == p;
    }
  }

  lemma {:induction false} SplitPrefix(p: string, sep: char, rest: string)
    requires sep !in p
    ensures SplitOn(p + [sep] + rest, sep) == [p] + SplitOn(rest, sep)
  {
    if |p| == 0 {
      assert p + [sep] + rest == [sep] + rest;
      assert ([sep] + rest)[1..] == rest;
    } else {
      SplitPrefix(p[1..], sep, rest);
      assert (p + [sep] + rest)[1..] == p[1..] + [sep] + rest;
      assert [p[0]] + p[1..] == p;
    }
  }

  /** Splitting undoes joining when no part holds the separator. */
  lemma {:induction false} SplitJoin(parts: seq<string>, sep: char)
    requires |parts| >= 1
    requires forall i :: 0 <= i < |parts| ==> sep !in parts[i]
    ensures SplitOn(Join(parts, sep), sep) == parts
  {
    if |parts| == 1 {
      SplitNoSep(parts[0], sep);
    } else {
      SplitJoin(parts[1..], sep);
      SplitPrefix(parts[0], sep, Join(parts[1..], sep));
      assert [parts[0]] + parts[1..] == parts;
    }
  }

  lemma {:induction false} JoinSnoc(parts: seq<string>, x: string, sep: char)
    requires |parts| >= 1
    ensures Join(parts + [x], sep) == Join(parts, sep) + [sep] + x
  {
    if |parts| == 1 {
      assert parts + [x] == [parts[0], x];
    } else {
      JoinSnoc(parts[1..], x, sep);
      assert (parts + [x])[1..] == parts[1..] + [x];
    }
  }

  lemma {:induction false} JoinAvoids(parts: seq<string>, sep: char, c: char)
    requires c != sep
    requires forall i :: 0 <= i < |parts| ==> c !in parts[i]
    ensures c !in Join(parts, sep)
  {
    if |parts| > 1 {
      JoinAvoids(parts[1..], sep, c);
    }
  }

  /** The text before the first `#`: the fragment never reaches the
      receiver. */
  function CutFragment(s: string): (r: string)
    ensures '#' !in r
    ensures |r| <= |s| && r == s[..|r|]
  {
    if |s| == 0 || s[0] == '#' then "" else [s[0]] + CutFragment(s[1..])
  }

  lemma {:induction false} CutFragmentNoHash(s: string)
    requires '#' !in s
    ensures CutFragment(s) == s
  {
    if |s| > 0 {
      CutFragmentNoHash(s[1..]);
    }
  }

  /** A `key=value` part split at its first `=`; no `=` gives an empty
      value. */
  function SplitPair(s: string): (r: Pair)
    ensures '=' !in r.0
  {
    if |s| == 0 then ("", "")
    else if s[0] == '=' then ("", s[1..])
    else
      var kv := SplitPair(s[1..]);
      ([s[0]] + kv.0, kv.1)
  }

  lemma {:induction false} SplitPairOf(k: string, v: string)
    requires '=' !in k
    ensures SplitPair(k + "=" + v) == (k, v)
  {
    if |k| == 0 {
      assert k + "=" + v == "=" + v;
      assert ("=" + v)[1..] == v;
    } else {
      SplitPairOf(k[1..], v);
      assert (k + "=" + v)[1..] == k[1..] + "=" + v;
      assert [k[0]] + k[1..] == k;
    }
  }

  predicate IsHex(c: char)
  {
    '0' <= c <= '9' || 'A' <= c <= 'F' || 'a' <= c <= 'f'
  }

  function HexValue(c: char): (d: nat)
    requires IsHex(c)
    ensures d < 16
  {
    if '0' <= c <= '9' then (c as int - '0' as int)
    else if 'A' <= c <= 'F' then (c as int - 'A' as int) + 10
    else (c as int - 'a' as int) + 10
  }

  /** Form decoding of a value: `+` is a space and `%XX` is the character
      with that code; anything else stands for itself. */
  function Decode(s: string): string
  {
    if |s| == 0 then ""
    else if |s| >= 3 && s[0] == '%' && IsHex(s[1]) && IsHex(s[2]) then
      [(16 * HexValue(s[1]) + HexValue(s[2])) as char] + Decode(s[3..])
    else if s[0] == '+' then " " + Decode(s[1..])
    else [s[0]] + Decode(s[1..])
  }

  lemma {:induction false} DecodePlain(s: string)
    requires '%' !in s && '+' !in s
    ensures Decode(s) == s
  {
    if |s| > 0 {
      DecodePlain(s[1..]);
    }
  }

  /** The characters that change meaning inside a query value. */
  predicate IsSpecial(c: char)
  {
    c == '%' || c == '&' || c == '#' || c == '+'
  }

  /** The escape of one character. */
  function EscapeChar(c: char): (r: string)
    ensures |r| >= 1
    ensures forall i :: 0 <= i < |r| ==> r[i] != '&' && r[i] != '#' && r[i] != '+'
  {
    if c == '%' then "%25"
    else if c == '&' then "%26"
    else if c == '#' then "%23"
    else if c == '+' then "%2B"
    else [c]
  }

  /** A value with its special characters percent-escaped. */
  function Escape(s: string): (r: string)
    ensures '&' !in r && '#' !in r && '+' !in r
  {
    if |s| == 0 then "" else EscapeChar(s[0]) + Escape(s[1..])
  }

  lemma DecodeEscapeChar(c: char, rest: string)
    ensures Decode(EscapeChar(c) + rest) == [c] + Decode(rest)
  {
    var s := EscapeChar(c) + rest;
    if IsSpecial(c) {
      assert |s| >= 3 && s[0] == '%' && IsHex(s[1]) && IsHex(s[2]);
      assert s[3..] == rest;
    } else {
      assert s[1..] == rest;
    }
  }

  /** Decoding undoes escaping, for every value. */
  lemma {:induction false} DecodeEscape(s: string)
    ensures Decode(Escape(s)) == s
  {
    if |s| > 0 {
      DecodeEscape(s[1..]);
      DecodeEscapeChar(s[0], Escape(s[1..]));
      assert [s[0]] + s[1..] == s;
    }
  }

  function PairText(pr: Pair): string
  {
    pr.0 + "=" + pr.1
  }

  /** A list of pairs written as a query string. */
  function Serialize(pairs: seq<Pair>): string
  {
    Join(Seqs.Map(pairs, PairText), '&')
  }

  function ReadPair(part: string): Pair
  {
    var kv := SplitPair(part);
    (Decode(kv.0), Decode(kv.1))
  }

  /** The pairs a receiver reads out of a query string. */
  function Parse(q: string): (r: seq<Pair>)
    ensures |r| >= 1
  {
    Seqs.Map(SplitOn(CutFragment(q), '&'), ReadPair)
  }

  /** Characters a key may not contain for the round trip to hold. */
  predicate PlainKey(k: string)
  {
    forall i :: 0 <= i < |k| ==> k[i] != '=' && !IsSpecial(k[i])
  }

  /** Serialising and parsing is the identity on non-empty pair lists
      with plain keys and values free of special characters. */
  lemma ParseSerialize(pairs: seq<Pair>)
    requires |pairs| >= 1
    requires forall i :: 0 <= i < |pairs| ==> PlainKey(pairs[i].0)
    requires forall i :: 0 <= i < |pairs| ==> forall j :: 0 <= j < |pairs[i].1| ==> !IsSpecial(pairs[i].1[j])
    ensures Parse(Serialize(pairs)) == pairs
  {
    var parts := Seqs.Map(pairs, PairText);
    forall i | 0 <= i < |parts|
      ensures '&' !in parts[i] && '#' !in parts[i]
    {
      assert parts[i] == pairs[i].0 + "=" + pairs[i].1;
    }
    JoinAvoids(parts, '&', '#');
    CutFragmentNoHash(Serialize(pairs));
    SplitJoin(parts, '&');
    forall i | 0 <= i < |pairs|
      ensures ReadPair(parts[i]) == pairs[i]
    {
      SplitPairOf(pairs[i].0, pairs[i].1);
      DecodePlain(pairs[i].0);
      DecodePlain(pairs[i].1);
    }
  }

  /** Every value escaped. */
  function EscapeValues(pairs: seq<Pair>): (r: seq<Pair>)
    ensures |r| == |pairs|
    ensures forall i :: 0 <= i < |r| ==> r[i] == (pairs[i].0, Escape(pairs[i].1))
  {
    seq(|pairs|, i requires 0 <= i < |pairs| => (pairs[i].0, Escape(pairs[i].1)))
  }

  /** Escaping leaves a value without special characters unchanged. */
  lemma {:induction false} EscapePlain(s: string)
    requires forall i :: 0 <= i < |s| ==> !IsSpecial(s[i])
    ensures Escape(s) == s
  {
    if |s| > 0 {
      EscapePlain(s[1..]);
      assert [s[0]] + s[1..] == s;
    }
  }

  /** Escaping every value changes nothing when no value holds a special
      character. */
  lemma EscapeValuesPlain(pairs: seq<Pair>)
    requires forall i :: 0 <= i < |pairs| ==> forall j :: 0 <= j < |pairs[i].1| ==> !IsSpecial(pairs[i].1[j])
    ensures EscapeValues(pairs) == pairs
  {
    forall i | 0 <= i < |pairs|
      ensures EscapeValues(pairs)[i] == pairs[i]
    {
      EscapePlain(pairs[i].1);
    }
  }

  /** With escaped values the round trip holds for every value. */
  lemma ParseSerializeEscaped(pairs: seq<Pair>)
    requires |pairs| >= 1
    requires forall i :: 0 <= i < |pairs| ==> PlainKey(pairs[i].0)
    ensures Parse(Serialize(EscapeValues(pairs))) == pairs
  {
    var esc := EscapeValues(pairs);
    var parts := Seqs.Map(esc, PairText);
    forall i | 0 <= i < |parts|
      ensures '&' !in parts[i] && '#' !in parts[i]
    {
      assert parts[i] == pairs[i].0 + "=" + Escape(pairs[i].1);
    }
    JoinAvoids(parts, '&', '#');
    CutFragmentNoHash(Serialize(esc));
    SplitJoin(parts, '&');
    forall i | 0 <= i < |pairs|
      ensures ReadPair(parts[i]) == pairs[i]
    {
      SplitPairOf(pairs[i].0, Escape(pairs[i].1));
      DecodePlain(pairs[i].0);
      DecodeEscape(pairs[i].1);
    }
  }
}

=== FILE: request_query.dfy ===
/** The request-list query of the recruitment module: the hand-built URL
    and the cache key. */
module RequestQuery {
  import opened Wrappers
  import Seqs
  import Text
  import QS = QueryString

  /** The hook's parameters; `None` is an `undefined` filter. */
  datatype Params = Params(
    page: int,
    limit: int,
    search: Option<string>,
    status: Option<string>,
    kind: Option<string>,
    processingCode: Option<string>)

  /** A JavaScript string value is truthy iff it is defined and non-empty. */
  predicate Truthy(v: Option<string>)
  {
    v.Some? && v.value != ""
  }

  const Path: string := "/requestRecruitment/department/get-all"

  /** `if (v) url += "&key=v"`. */
  function AppendIf(url: string, key: string, v: Option<string>): string
  {
    if Truthy(v) then url + "&" + key + "=" + v.value else url
  }

  /** The query part of the URL exactly as the hook concatenates it. */
  function Query(p: Params): string
  {
    var q := Head(p);
    var q := AppendIf(q, "search", p.search);
    var q := AppendIf(q, "status", p.status);
    var q := AppendIf(q, "type", p.kind);
    AppendIf(q, "processingCode", p.processingCode)
  }

  /** The part of the query that is always present. */
  function Head(p: Params): string
  {
    "page=" + Text.IntToString(p.page) + "&limit=" + Text.IntToString(p.limit)
  }

  /** The request URL; the API base is a parameter. Whatever filters are
      set, it begins with the path, the page and the limit. */
  function Url(base: string, p: Params): (r: string)
    ensures Text.StartsWith(r, base + Path + "?" + Head(p))
  {
    QueryStartsWithPage(p);
    Text.StartsWithFront(base + Path + "?", Query(p), Head(p));
    base + Path + "?" + Query(p)
  }

  lemma AppendIfExtends(url: string, key: string, v: Option<string>)
    ensures Text.StartsWith(AppendIf(url, key, v), url)
  {
    assert AppendIf(url, key, v)[..|url|] == url;
  }

  /** Every filter is appended after the page and the limit. */
  lemma QueryStartsWithPage(p: Params)
    ensures Text.StartsWith(Query(p), Head(p))
  {
    var q0 := Head(p);
    var q1 := AppendIf(q0, "search", p.search);
    var q2 := AppendIf(q1, "status", p.status);
    var q3 := AppendIf(q2, "type", p.kind);
    AppendIfExtends(q0, "search", p.search);
    AppendIfExtends(q1, "status", p.status);
    AppendIfExtends(q2, "type", p.kind);
    AppendIfExtends(q3, "processingCode", p.processingCode);
    assert Query(p)[..|q0|] == q0;
  }

  /** `(key, value)` appended when the value is truthy. */
  function AddPair(pairs: seq<QS.Pair>, key: string, v: Option<string>): seq<QS.Pair>
  {
    if Truthy(v) then pairs + [(key, v.value)] else pairs
  }

  /** The parameters the URL is meant to carry, in order: page and limit
      always, then search, status, type and processing code when truthy. */
  function Pairs(p: Params): (r: seq<QS.Pair>)
    ensures |r| >= 2 && r[0] == ("page", Text.IntToString(p.page)) && r[1] == ("limit", Text.IntToString(p.limit))
  {
    var ps := [("page", Text.IntToString(p.page)), ("limit", Text.IntToString(p.limit))];
    var ps := AddPair(ps, "search", p.search);
    var ps := AddPair(ps, "status", p.status);
    var ps := AddPair(ps, "type", p.kind);
    AddPair(ps, "processingCode", p.processingCode)
  }

  lemma {:induction false} SerializeAddPair(pairs: seq<QS.Pair>, key: string, v: Option<string>)
    requires |pairs| >= 1
    ensures QS.Serialize(AddPair(pairs, key, v)) == AppendIf(QS.Serialize(pairs), key, v)
  {
    if Truthy(v) {
      var parts := Seqs.Map(pairs, QS.PairText);
      assert Seqs.Map(pairs + [(key, v.value)], QS.PairText) == parts + [key + "=" + v.value];
      QS.JoinSnoc(parts, key + "=" + v.value, '&');
    }
  }

  /** The hand-built query is the serialisation of the intended pairs:
      the fixed key order and the truthiness rule, with values written as
      they are, without escaping. */
  lemma QueryIsSerializedPairs(p: Params)
    ensures Query(p) == QS.Serialize(Pairs(p))
  {
    var ps0 := [("page", Text.IntToString(p.page)), ("limit", Text.IntToString(p.limit))];
    assert QS.Serialize(ps0) == "page=" + Text.IntToString(p.page) + "&limit=" + Text.IntToString(p.limit) by {
      var parts := Seqs.Map(ps0, QS.PairText);
      assert "page" + "=" == "page=" && "limit" + "=" == "limit=";
      assert parts[0] == "page=" + Text.IntToString(p.page);
      assert parts[1] == "limit=" + Text.IntToString(p.limit);
      assert parts[1..] == ["limit=" + Text.IntToString(p.limit)];
      assert QS.Join(parts, '&') == parts[0] + "&" + QS.Join(parts[1..], '&');
      assert "&" + "limit=" == "&limit=";
    }
    var ps1 := AddPair(ps0, "search", p.search);
    var ps2 := AddPair(ps1, "status", p.status);
    var ps3 := AddPair(ps2, "type", p.kind);
    SerializeAddPair(ps0, "search", p.search);
    SerializeAddPair(ps1, "status", p.status);
    SerializeAddPair(ps2, "type", p.kind);
    SerializeAddPair(ps3, "processingCode", p.processingCode);
  }

  lemma IntToStringPlain(n: int)
    ensures forall i :: 0 <= i < |Text.IntToString(n)| ==> !QS.IsSpecial(Text.IntToString(n)[i])
  {
    var s := Text.IntToString(n);
    if n < 0 {
      assert forall i :: 1 <= i < |s| ==> s[i] == Text.NatToString(-n)[i - 1];
    }
  }

  lemma PairsKeysPlain(p: Params)
    ensures forall i :: 0 <= i < |Pairs(p)| ==> QS.PlainKey(Pairs(p)[i].0)
  {
    var keys := ["page", "limit", "search", "status", "type", "processingCode"];
    assert forall k :: 0 <= k < |keys| ==> QS.PlainKey(keys[k]);
    assert forall i :: 0 <= i < |Pairs(p)| ==> Pairs(p)[i].0 in keys;
  }

  /** No filter value holds a character that changes meaning in a query. */
  predicate PlainValues(p: Params)
  {
    forall v :: v in [p.search, p.status, p.kind, p.processingCode] && v.Some? ==>
      forall j :: 0 <= j < |v.value| ==> !QS.IsSpecial(v.value[j])
  }

  /** When no filter value holds `%`, `&`, `#` or `+`, the receiver reads
      back exactly the intended pairs. */
  lemma QueryReadsBack(p: Params)
    requires PlainValues(p)
    ensures QS.Parse(Query(p)) == Pairs(p)
  {
    QueryIsSerializedPairs(p);
    PairsKeysPlain(p);
    PairsValuesPlain(p);
    QS.ParseSerialize(Pairs(p));
  }

  /** With plain filter values every value sent is free of special
      characters, page and limit included. */
  lemma PairsValuesPlain(p: Params)
    requires PlainValues(p)
    ensures forall i :: 0 <= i < |Pairs(p)| ==> forall j :: 0 <= j < |Pairs(p)[i].1| ==> !QS.IsSpecial(Pairs(p)[i].1[j])
  {
    IntToStringPlain(p.page);
    IntToStringPlain(p.limit);
    var ps := Pairs(p);
    forall i | 0 <= i < |ps|
      ensures forall j :: 0 <= j < |ps[i].1| ==> !QS.IsSpecial(ps[i].1[j])
    {
      assert i >= 2 ==> exists v :: v in [p.search, p.status, p.kind, p.processingCode] && v.Some? && ps[i].1 == v.value;
    }
  }

  /** The example request: first page of ten, searching for "R&D". */
  function RAndDParams(): Params
  {
    Params(1, 10, Some("R&D"), None, None, None)
  }

  lemma RAndDPairs()
    ensures Pairs(RAndDParams()) == [("page", Text.IntToString(1)), ("limit", Text.IntToString(10)), ("search", "R&D")]
  {
  }

  lemma RAndDSerialized()
    ensures var a := "page=" + Text.IntToString(1);
      var b := "limit=" + Text.IntToString(10);
      Query(RAndDParams()) == QS.Join([a, b, "search=R", "D"], '&')
  {
    var p := RAndDParams();
    QueryIsSerializedPairs(p);
    RAndDPairs();
    var a := "page=" + Text.IntToString(1);
    var b := "limit=" + Text.IntToString(10);
    assert "page" + "=" == "page=" && "limit" + "=" == "limit=" && "search" + "=" + "R&D" == "search=R&D";
    var m := Seqs.Map(Pairs(p), QS.PairText);
    assert m[0] == a && m[1] == b && m[2] == "search=R&D";
    assert m == [a, b, "search=R&D"];
    assert QS.Join(m, '&') == a + "&" + (b + "&" + "search=R&D") by {
      assert m[1..] == [b, "search=R&D"];
      assert m[1..][1..] == ["search=R&D"];
    }
    var parts := [a, b, "search=R", "D"];
    assert QS.Join(["search=R", "D"], '&') == "search=R" + "&" + "D" by {
      assert ["search=R", "D"][1..] == ["D"];
    }
    assert QS.Join([b, "search=R", "D"], '&') == b + "&" + ("search=R" + "&" + "D") by {
      assert [b, "search=R", "D"][1..] == ["search=R", "D"];
    }
    assert QS.Join(parts, '&') == a + "&" + (b + "&" + ("search=R" + "&" + "D")) by {
      assert parts[1..] == [b, "search=R", "D"];
    }
    assert "search=R" + "&" + "D" == "search=R&D";
  }

  /** A search for "R&D" is read as a search for "R" followed by a stray
      parameter "D": four pairs arrive where three were meant. */
  lemma AmpersandSplitsSearch()
    ensures |Pairs(RAndDParams())| == 3 && |QS.Parse(Query(RAndDParams()))| == 4
  {
    RAndDPairs();
    RAndDSerialized();
    var a := "page=" + Text.IntToString(1);
    var b := "limit=" + Text.IntToString(10);
    IntToStringPlain(1);
    IntToStringPlain(10);
    var parts := [a, b, "search=R", "D"];
    assert forall i :: 0 <= i < |parts| ==> '&' !in parts[i] && '#' !in parts[i];
    QS.JoinAvoids(parts, '&', '#');
    QS.CutFragmentNoHash(QS.Join(parts, '&'));
    QS.SplitJoin(parts, '&');
  }

  /** The corrected query: the same pairs, every value escaped. */
  function EscapedQuery(p: Params): string
  {
    QS.Serialize(QS.EscapeValues(Pairs(p)))
  }

  /** With escaping, the receiver reads back the intended pairs for every
      choice of filter values. */
  lemma EscapedQueryReadsBack(p: Params)
    ensures QS.Parse(EscapedQuery(p)) == Pairs(p)
  {
    PairsKeysPlain(p);
    QS.ParseSerializeEscaped(Pairs(p));
  }

  /** The corrected request URL: the same path, the escaped query. The
      receiver reads back exactly the hook's parameters from what follows
      the `?`. */
  function EscapedUrl(base: string, p: Params): (r: string)
    ensures |base + Path + "?"| <= |r| && r[..|base + Path + "?"|] == base + Path + "?"
    ensures QS.Parse(r[|base + Path + "?"|..]) == Pairs(p)
  {
    var front := base + Path + "?";
    var r := front + EscapedQuery(p);
    assert r[|front|..] == EscapedQuery(p);
    EscapedQueryReadsBack(p);
    r
  }

  /** The correction changes no URL the hook already sends correctly:
      with plain filter values both URLs are the same. */
  lemma EscapedUrlAgrees(base: string, p: Params)
    requires PlainValues(p)
    ensures EscapedUrl(base, p) == Url(base, p)
  {
    PairsValuesPlain(p);
    QS.EscapeValuesPlain(Pairs(p));
    QueryIsSerializedPairs(p);
  }

  /** One element of the cache key. */
  datatype KeyPart = Str(s: string) | Num(n: int) | Undefined

  function OptPart(v: Option<string>): KeyPart
  {
    match v
    case Some(s) => Str(s)
    case None => Undefined
  }

  /** `['all-request', page, limit, search, status, type, processingCode]`. */
  function QueryKey(p: Params): (r: seq<KeyPart>)
    ensures |r| == 7 && r[0] == Str("all-request")
  {
    [Str("all-request"), Num(p.page), Num(p.limit), OptPart(p.search),
     OptPart(p.status), OptPart(p.kind), OptPart(p.processingCode)]
  }

  /** Different parameters never share a cache entry. */
  lemma QueryKeyInjective(p: Params, q: Params)
    requires QueryKey(p) == QueryKey(q)
    ensures p == q
  {
    assert QueryKey(p)[3] == QueryKey(q)[3];
    assert QueryKey(p)[4] == QueryKey(q)[4];
    assert QueryKey(p)[5] == QueryKey(q)[5];
    assert QueryKey(p)[6] == QueryKey(q)[6];
  }

  /** An empty search and no search are different cache entries that
      fetch the same URL. */
  lemma EmptySearchSameUrl(base: string, p: Params)
    ensures QueryKey(p.(search := Some(""))) != QueryKey(p.(search := None))
    ensures Url(base, p.(search := Some(""))) == Url(base, p.(search := None))
  {
    assert QueryKey(p.(search := Some("")))[3] != QueryKey(p.(search := None))[3];
  }
}

=== FILE: resign_types.dfy ===
/** Records of the special-leave screens: an employee on the special
    resignation list and a department of the company structure (only the
    fields the screens read). */
module ResignTypes {
  import opened Wrappers

  /** An employee of the special list; the two codes are optional, as in
      the record type, and every other field is a string. */
  datatype Employee = Employee(
    id: string,
    code: string,
    name: string,
    division: string,
    divisionCode: Option<string>,
    section: string,
    sectionCode: Option<string>,
    position: string,
    grade: string,
    entryDate: string,
    actualLeaveDate: string,
    note: string)

  /** A department as the pickers show it: its display name and code. */
  datatype Department = Department(name: string, code: string)

  function IdOf(e: Employee): string { e.id }
}

=== FILE: role_permissions.dfy ===
/** The role editor: a fixed catalogue of screens and actions, the checkbox
    map keyed `"<permission id>-<action id>"`, and the codec between that
    map and the `{ActionName, Route}` list a role is saved with. */
module RolePermissions {
  import opened Wrappers
  import Seqs
  import Text

  datatype ActionKey = View | Create | Update | Delete

  /** The route suffix of an action key. */
  function KeyName(k: ActionKey): string
  {
    match k
    case View => "view"
    case Create => "create"
    case Update => "update"
    case Delete => "delete"
  }

  datatype Action = Action(id: string, name: string, key: ActionKey)

  /** One screen of the catalogue and the actions it offers. */
  datatype Permission = Permission(id: string, name: string, route: string, actions: seq<Action>)

  /** One element of a role's saved permission list. */
  datatype Entry = Entry(actionName: string, route: string)

  /** The checkbox state: a missing key reads as unchecked. */
  type Selection = map<string, bool>

  /** The four actions every screen offers, with ids `<pid>-1` to `<pid>-4`. */
  function StandardActions(pid: string): seq<Action>
  {
    [ Action(pid + "-1", "Xem", View),
      Action(pid + "-2", "Tạo mới", Create),
      Action(pid + "-3", "Cập nhật", Update),
      Action(pid + "-4", "Xóa", Delete) ]
  }

  /** The fixed catalogue of six screens. */
  const Catalogue: seq<Permission> := [
    Permission("1", "Thống kê", "/dashboard", StandardActions("1")),
    Permission("2", "Thành viên", "/dashboard/users", StandardActions("2")),
    Permission("3", "Form", "/dashboard/forms", StandardActions("3")),
    Permission("4", "Category", "/dashboard/categories", StandardActions("4")),
    Permission("5", "Phân quyền", "/dashboard/roles", StandardActions("5")),
    Permission("6", "Report", "/dashboard/reports", StandardActions("6"))
  ]

  /** The checkbox key of an action: `${permission.id}-${action.id}`. */
  function SelKey(p: Permission, a: Action): string
  {
    p.id + "-" + a.id
  }

  /** A checkbox is ticked iff its key is present and true. */
  predicate Selected(sel: Selection, k: string)
  {
    k in sel && sel[k]
  }

  /** The saved form of an action: its name and `route/key`. */
  function EntryOf(p: Permission, a: Action): Entry
  {
    Entry(a.name, p.route + "/" + KeyName(a.key))
  }

  // ---------------------------------------------------------------------
  // The catalogue flattened into (permission, action) slots

  datatype Slot = Slot(perm: Permission, action: Action)

  function SlotKey(s: Slot): string { SelKey(s.perm, s.action) }

  function SlotEntry(s: Slot): Entry { EntryOf(s.perm, s.action) }

  function ActionSlots(p: Permission, actions: seq<Action>): seq<Slot>
  {
    if |actions| == 0 then [] else [Slot(p, actions[0])] + ActionSlots(p, actions[1..])
  }

  /** Every (permission, action) pair, permission order first, then action
      order within a permission. */
  function Slots(perms: seq<Permission>): seq<Slot>
  {
    if |perms| == 0 then [] else ActionSlots(perms[0], perms[0].actions) + Slots(perms[1..])
  }

  /** The slot selector for a given checkbox state. */
  function IsSelectedSlot(sel: Selection): Slot -> bool
  {
    (s: Slot) => Selected(sel, SlotKey(s))
  }

  // ---------------------------------------------------------------------
  // Encoding (the `permissions.reduce` of the submit handler)

  function EncodeActions(p: Permission, actions: seq<Action>, sel: Selection): seq<Entry>
  {
    if |actions| == 0 then []
    else (if Selected(sel, SelKey(p, actions[0])) then [EntryOf(p, actions[0])] else [])
         + EncodeActions(p, actions[1..], sel)
  }

  function EncodePermissions(perms: seq<Permission>, sel: Selection): seq<Entry>
  {
    if |perms| == 0 then []
    else EncodeActions(perms[0], perms[0].actions, sel) + EncodePermissions(perms[1..], sel)
  }

  /** The role's permission list built from the checkbox state. */
  function Encode(sel: Selection): seq<Entry>
  {
    EncodePermissions(Catalogue, sel)
  }

  lemma MapAppend<T, U>(a: seq<T>, b: seq<T>, f: T -> U)
    ensures Seqs.Map(a + b, f) == Seqs.Map(a, f) + Seqs.Map(b, f)
  {
  }

  lemma {:induction false} EncodeActionsIsFilter(p: Permission, actions: seq<Action>, sel: Selection)
    ensures EncodeActions(p, actions, sel)
         == Seqs.Map(Seqs.Filter(ActionSlots(p, actions), IsSelectedSlot(sel)), SlotEntry)
  {
    if |actions| > 0 {
      EncodeActionsIsFilter(p, actions[1..], sel);
      var head := [Slot(p, actions[0])];
      var tail := ActionSlots(p, actions[1..]);
      Seqs.FilterAppend(head, tail, IsSelectedSlot(sel));
      MapAppend(Seqs.Filter(head, IsSelectedSlot(sel)), Seqs.Filter(tail, IsSelectedSlot(sel)), SlotEntry);
    }
  }

  /** The encoder is the catalogue's slot list, filtered by the checkbox
      state and mapped to entries: one entry per ticked catalogue checkbox,
      in catalogue order (permissions first, then actions). */
  lemma {:induction false} EncodeIsFilteredSlots(perms: seq<Permission>, sel: Selection)
    ensures EncodePermissions(perms, sel)
         == Seqs.Map(Seqs.Filter(Slots(perms), IsSelectedSlot(sel)), SlotEntry)
  {
    if |perms| > 0 {
      EncodeIsFilteredSlots(perms[1..], sel);
      EncodeActionsIsFilter(perms[0], perms[0].actions, sel);
      var a := ActionSlots(perms[0], perms[0].actions);
      var b := Slots(perms[1..]);
      Seqs.FilterAppend(a, b, IsSelectedSlot(sel));
      MapAppend(Seqs.Filter(a, IsSelectedSlot(sel)), Seqs.Filter(b, IsSelectedSlot(sel)), SlotEntry);
    }
  }

  /** Membership in the encoded list: an entry is emitted iff it is the
      entry of a ticked slot. */
  lemma EncodeMembership(perms: seq<Permission>, sel: Selection, e: Entry)
    ensures e in EncodePermissions(perms, sel) <==>
      exists s :: s in Slots(perms) && Selected(sel, SlotKey(s)) && SlotEntry(s) == e
  {
    EncodeIsFilteredSlots(perms, sel);
    Seqs.MapFilterMembership(Slots(perms), IsSelectedSlot(sel), SlotEntry, e);
  }

  /** The keys of a list of screens. */
  function SlotKeys(perms: seq<Permission>): set<string>
  {
    set s | s in Slots(perms) :: SlotKey(s)
  }

  /** A checkbox state restricted to a set of keys. */
  function Restrict(sel: Selection, keys: set<string>): (r: Selection)
    ensures forall k :: k in r <==> k in sel && k in keys
    ensures forall k :: k in r ==> r[k] == sel[k]
  {
    map k | k in sel && k in keys :: sel[k]
  }

  /** Keys that name no slot have no influence on the encoded list. */
  lemma EncodeIgnoresUnknownKeys(perms: seq<Permission>, sel: Selection)
    ensures EncodePermissions(perms, sel) == EncodePermissions(perms, Restrict(sel, SlotKeys(perms)))
  {
    var sl := Slots(perms);
    var r := Restrict(sel, SlotKeys(perms));
    forall i | 0 <= i < |sl|
      ensures IsSelectedSlot(sel)(sl[i]) == IsSelectedSlot(r)(sl[i])
    {
      assert SlotKey(sl[i]) in SlotKeys(perms);
    }
    Seqs.FilterCongruent(sl, IsSelectedSlot(sel), IsSelectedSlot(r));
    EncodeIsFilteredSlots(perms, sel);
    EncodeIsFilteredSlots(perms, r);
  }

  // ---------------------------------------------------------------------
  // Decoding (the effect that loads an existing role)

  /** The route prefix pre-filter of the decoder. */
  function RouteStartsWith(prefix: string): Entry -> bool
  {
    (e: Entry) => Text.StartsWith(e.route, prefix)
  }

  /** Ticks every action of `p` whose entry occurs among `matching`. */
  function DecodeActions(p: Permission, actions: seq<Action>, matching: seq<Entry>, acc: Selection): Selection
  {
    if |actions| == 0 then acc
    else
      var acc' := if EntryOf(p, actions[0]) in matching then acc[SelKey(p, actions[0]) := true] else acc;
      DecodeActions(p, actions[1..], matching, acc')
  }

  function DecodePermissions(perms: seq<Permission>, entries: seq<Entry>, acc: Selection): Selection
  {
    if |perms| == 0 then acc
    else
      var p := perms[0];
      var matching := Seqs.Filter(entries, RouteStartsWith(p.route));
      var acc' := if |matching| > 0 then DecodeActions(p, p.actions, matching, acc) else acc;
      DecodePermissions(perms[1..], entries, acc')
  }

  /** The checkbox state recovered from a saved permission list. */
  function Decode(entries: seq<Entry>): Selection
  {
    DecodePermissions(Catalogue, entries, map[])
  }

  /** The keys of the slots whose entries occur in `entries`. */
  function MatchedKeys(sl: seq<Slot>, entries: seq<Entry>): set<string>
  {
    set s | s in sl && SlotEntry(s) in entries :: SlotKey(s)
  }

  ghost predicate AllTrue(m: Selection)
  {
    forall k :: k in m ==> m[k]
  }

  lemma MatchedKeysAppend(a: seq<Slot>, b: seq<Slot>, entries: seq<Entry>)
    ensures MatchedKeys(a + b, entries) == MatchedKeys(a, entries) + MatchedKeys(b, entries)
  {
  }

  lemma MatchedKeysOne(s: Slot, entries: seq<Entry>)
    ensures MatchedKeys([s], entries) == if SlotEntry(s) in entries then {SlotKey(s)} else {}
  {
    if SlotEntry(s) in entries {
      assert [s][0] in [s];
    }
  }

  lemma {:induction false} DecodeActionsKeys(p: Permission, actions: seq<Action>, matching: seq<Entry>, entries: seq<Entry>, acc: Selection)
    requires AllTrue(acc)
    requires forall i :: 0 <= i < |actions| ==> (EntryOf(p, actions[i]) in matching <==> EntryOf(p, actions[i]) in entries)
    ensures AllTrue(DecodeActions(p, actions, matching, acc))
    ensures DecodeActions(p, actions, matching, acc).Keys == acc.Keys + MatchedKeys(ActionSlots(p, actions), entries)
  {
    if |actions| > 0 {
      var acc' := if EntryOf(p, actions[0]) in matching then acc[SelKey(p, actions[0]) := true] else acc;
      var head := [Slot(p, actions[0])];
      MatchedKeysOne(head[0], entries);
      assert acc'.Keys == acc.Keys + MatchedKeys(head, entries);
      assert forall i :: 0 <= i < |actions[1..]| ==> actions[1..][i] == actions[i + 1];
      DecodeActionsKeys(p, actions[1..], matching, entries, acc');
      var tail := ActionSlots(p, actions[1..]);
      assert ActionSlots(p, actions) == head + tail;
      MatchedKeysAppend(head, tail, entries);
    }
  }

  lemma {:induction false} DecodeActionsNoMatch(p: Permission, actions: seq<Action>, acc: Selection)
    ensures DecodeActions(p, actions, [], acc) == acc
  {
    if |actions| > 0 {
      DecodeActionsNoMatch(p, actions[1..], acc);
    }
  }

  /** An action's own entry always passes its permission's prefix filter. */
  lemma EntryPassesPrefix(p: Permission, a: Action, entries: seq<Entry>)
    ensures EntryOf(p, a) in Seqs.Filter(entries, RouteStartsWith(p.route)) <==> EntryOf(p, a) in entries
  {
    var e := EntryOf(p, a);
    assert Text.StartsWith(e.route, p.route) by {
      assert e.route[..|p.route|] == p.route;
    }
    if e in entries {
      var i :| 0 <= i < |entries| && entries[i] == e;
      assert RouteStartsWith(p.route)(entries[i]);
    }
  }

  lemma {:induction false} DecodePermissionsKeys(perms: seq<Permission>, entries: seq<Entry>, acc: Selection)
    requires AllTrue(acc)
    ensures AllTrue(DecodePermissions(perms, entries, acc))
    ensures DecodePermissions(perms, entries, acc).Keys == acc.Keys + MatchedKeys(Slots(perms), entries)
  {
    if |perms| > 0 {
      var p := perms[0];
      var matching := Seqs.Filter(entries, RouteStartsWith(p.route));
      forall i | 0 <= i < |p.actions|
        ensures EntryOf(p, p.actions[i]) in matching <==> EntryOf(p, p.actions[i]) in entries
      {
        EntryPassesPrefix(p, p.actions[i], entries);
      }
      DecodeActionsKeys(p, p.actions, matching, entries, acc);
      var a := ActionSlots(p, p.actions);
      if |matching| == 0 {
        DecodeActionsNoMatch(p, p.actions, acc);
      }
      var acc' := if |matching| > 0 then DecodeActions(p, p.actions, matching, acc) else acc;
      DecodePermissionsKeys(perms[1..], entries, acc');
      MatchedKeysAppend(a, Slots(perms[1..]), entries);
    }
  }

  lemma {:induction false} ActionSlotsMembership(p: Permission, actions: seq<Action>, s: Slot)
    requires s in ActionSlots(p, actions)
    ensures exists j :: 0 <= j < |actions| && s == Slot(p, actions[j])
  {
    if s != Slot(p, actions[0]) {
      ActionSlotsMembership(p, actions[1..], s);
      var j :| 0 <= j < |actions[1..]| && s == Slot(p, actions[1..][j]);
      assert s == Slot(p, actions[j + 1]);
    }
  }

  lemma {:induction false} SlotsMembership(perms: seq<Permission>, s: Slot)
    requires s in Slots(perms)
    ensures exists i, j :: 0 <= i < |perms| && 0 <= j < |perms[i].actions| && s == Slot(perms[i], perms[i].actions[j])
  {
    if s in ActionSlots(perms[0], perms[0].actions) {
      ActionSlotsMembership(perms[0], perms[0].actions, s);
      var j :| 0 <= j < |perms[0].actions| && s == Slot(perms[0], perms[0].actions[j]);
      assert s == Slot(perms[0], perms[0].actions[j]);
    } else {
      SlotsMembership(perms[1..], s);
      var i, j :| 0 <= i < |perms[1..]| && 0 <= j < |perms[1..][i].actions| && s == Slot(perms[1..][i], perms[1..][i].actions[j]);
      assert s == Slot(perms[i + 1], perms[i + 1].actions[j]);
    }
  }

  /** Decoding ticks exactly the checkboxes whose entry (same action name,
      route exactly `route/key`) occurs in the list, and never stores an
      unticked key. */
  lemma DecodeSpec(perms: seq<Permission>, entries: seq<Entry>)
    ensures AllTrue(DecodePermissions(perms, entries, map[]))
    ensures DecodePermissions(perms, entries, map[]).Keys == MatchedKeys(Slots(perms), entries)
  {
    DecodePermissionsKeys(perms, entries, map[]);
  }

  // ---------------------------------------------------------------------
  // The round trip

  /** A catalogue is well formed when its routes are pairwise distinct and
      no screen lists the same action key twice. */
  ghost predicate WellFormed(perms: seq<Permission>)
  {
    && (forall i, j :: 0 <= i < j < |perms| ==> perms[i].route != perms[j].route)
    && (forall i, a, b :: 0 <= i < |perms| && 0 <= a < b < |perms[i].actions|
          ==> perms[i].actions[a].key != perms[i].actions[b].key)
  }

  /** The four standard actions carry four different keys. */
  lemma StandardKeysDistinct(pid: string)
    ensures forall a, b :: 0 <= a < b < |StandardActions(pid)| ==>
      StandardActions(pid)[a].key != StandardActions(pid)[b].key
  {
  }

  lemma CatalogueWellFormed()
    ensures WellFormed(Catalogue)
  {
    var c := Catalogue;
    assert |c[0].route| == 10;
    assert |c[1].route| == 16 && c[1].route[11] == 'u';
    assert |c[2].route| == 16 && c[2].route[11] == 'f';
    assert |c[3].route| == 21;
    assert |c[4].route| == 16 && c[4].route[11] == 'r';
    assert |c[5].route| == 18;
    forall i | 0 <= i < |c|
      ensures c[i].actions == StandardActions(c[i].id)
    {
    }
    forall i | 0 <= i < |c|
      ensures forall a, b :: 0 <= a < b < |c[i].actions| ==> c[i].actions[a].key != c[i].actions[b].key
    {
      StandardKeysDistinct(c[i].id);
    }
  }

  lemma KeyNameInjective(k1: ActionKey, k2: ActionKey)
    requires KeyName(k1) == KeyName(k2)
    ensures k1 == k2
  {
  }

  /** `r + "/" + n` determines `r` and `n` when `n` has no slash. */
  lemma {:induction false} SegmentCancel(r1: string, n1: string, r2: string, n2: string)
    requires '/' !in n1 && '/' !in n2
    requires r1 + "/" + n1 == r2 + "/" + n2
    ensures r1 == r2 && n1 == n2
  {
    var w := r1 + "/" + n1;
    Text.LastSegmentAfterSlash(r1, n1);
    Text.LastSegmentAfterSlash(r2, n2);
    assert |r1| == |r2|;
    assert r1 == w[..|r1|];
    assert r2 == (r2 + "/" + n2)[..|r2|];
  }

  /** Two saved routes are equal only for the same screen route and key. */
  lemma RouteInjective(r1: string, k1: ActionKey, r2: string, k2: ActionKey)
    requires r1 + "/" + KeyName(k1) == r2 + "/" + KeyName(k2)
    ensures r1 == r2 && k1 == k2
  {
    KeyNameHasNoSlash(k1);
    KeyNameHasNoSlash(k2);
    SegmentCancel(r1, KeyName(k1), r2, KeyName(k2));
    KeyNameInjective(k1, k2);
  }

  lemma KeyNameHasNoSlash(k: ActionKey)
    ensures '/' !in KeyName(k)
  {
  }

  lemma SameIndex(perms: seq<Permission>, i1: int, j1: int, i2: int, j2: int)
    requires WellFormed(perms)
    requires 0 <= i1 < |perms| && 0 <= j1 < |perms[i1].actions|
    requires 0 <= i2 < |perms| && 0 <= j2 < |perms[i2].actions|
    requires perms[i1].route == perms[i2].route
    requires perms[i1].actions[j1].key == perms[i2].actions[j2].key
    ensures i1 == i2 && j1 == j2
  {
  }

  /** In a well-formed catalogue different slots save different entries. */
  lemma SlotEntryInjective(perms: seq<Permission>, s1: Slot, s2: Slot)
    requires WellFormed(perms)
    requires s1 in Slots(perms) && s2 in Slots(perms)
    requires SlotEntry(s1) == SlotEntry(s2)
    ensures s1 == s2
  {
    SlotsMembership(perms, s1);
    SlotsMembership(perms, s2);
    var i1, j1 :| 0 <= i1 < |perms| && 0 <= j1 < |perms[i1].actions| && s1 == Slot(perms[i1], perms[i1].actions[j1]);
    var i2, j2 :| 0 <= i2 < |perms| && 0 <= j2 < |perms[i2].actions| && s2 == Slot(perms[i2], perms[i2].actions[j2]);
    RouteInjective(s1.perm.route, s1.action.key, s2.perm.route, s2.action.key);
    SameIndex(perms, i1, j1, i2, j2);
  }

  /** Round trip: loading the list the encoder produced ticks exactly the
      ticked checkboxes that name a slot, and nothing else. */
  lemma DecodeEncodeSlots(perms: seq<Permission>, sel: Selection)
    requires WellFormed(perms)
    ensures DecodePermissions(perms, EncodePermissions(perms, sel), map[])
         == map k | k in SlotKeys(perms) && Selected(sel, k) :: true
  {
    var entries := EncodePermissions(perms, sel);
    DecodeSpec(perms, entries);
    var d := DecodePermissions(perms, entries, map[]);
    var want := map k | k in SlotKeys(perms) && Selected(sel, k) :: true;
    forall k | k in d
      ensures k in want
    {
      var s :| s in Slots(perms) && SlotEntry(s) in entries && SlotKey(s) == k;
      EncodeMembership(perms, sel, SlotEntry(s));
      var s' :| s' in Slots(perms) && Selected(sel, SlotKey(s')) && SlotEntry(s') == SlotEntry(s);
      SlotEntryInjective(perms, s, s');
    }
    forall k | k in want
      ensures k in d
    {
      var s :| s in Slots(perms) && SlotKey(s) == k;
      EncodeMembership(perms, sel, SlotEntry(s));
      assert s in Slots(perms) && SlotEntry(s) in entries && SlotKey(s) == k;
    }
    assert d.Keys == want.Keys;
  }

  /** The keys the catalogue knows about. */
  function CatalogueKeys(): set<string>
  {
    SlotKeys(Catalogue)
  }

  /** The round trip for the fixed catalogue: saving a checkbox state and
      loading it back gives the ticked catalogue checkboxes, all true. */
  lemma DecodeEncode(sel: Selection)
    ensures Decode(Encode(sel)) == map k | k in CatalogueKeys() && Selected(sel, k) :: true
  {
    CatalogueWellFormed();
    DecodeEncodeSlots(Catalogue, sel);
  }

  /** Keys outside the catalogue have no influence on what is saved. */
  lemma EncodeIgnoresNonCatalogueKeys(sel: Selection)
    ensures Encode(sel) == Encode(Restrict(sel, CatalogueKeys()))
  {
    EncodeIgnoresUnknownKeys(Catalogue, sel);
  }

  // ---------------------------------------------------------------------
  // Checkbox handlers

  /** `handlePermissionChange`: flips one checkbox, a missing key counting
      as unticked; every other key keeps its presence and value. */
  function Toggle(sel: Selection, permissionId: string, actionId: string): (r: Selection)
    ensures var k := permissionId + "-" + actionId;
      && k in r && r[k] == !Selected(sel, k)
      && (forall k' :: k' != k ==> (k' in r <==> k' in sel))
      && (forall k' :: k' != k && k' in sel ==> r[k'] == sel[k'])
  {
    var k := permissionId + "-" + actionId;
    sel[k := !Selected(sel, k)]
  }

  /** Flipping the same checkbox twice restores every checkbox's state, and
      the map itself when the key was already present. */
  lemma ToggleTwice(sel: Selection, permissionId: string, actionId: string)
    ensures var r := Toggle(Toggle(sel, permissionId, actionId), permissionId, actionId);
      && (forall k :: Selected(r, k) == Selected(sel, k))
      && (permissionId + "-" + actionId in sel ==> r == sel)
  {
  }

  /** The first catalogue screen with the given id, if any (`Array.find`). */
  function FindPermission(perms: seq<Permission>, id: string): (r: Option<Permission>)
    ensures r.None? <==> forall i :: 0 <= i < |perms| ==> perms[i].id != id
    ensures r.Some? ==> r.value in perms && r.value.id == id
  {
    if |perms| == 0 then None
    else if perms[0].id == id then Some(perms[0])
    else FindPermission(perms[1..], id)
  }

  /** The keys `<pid>-<action id>` for the given actions. */
  function GroupKeys(pid: string, actions: seq<Action>): set<string>
  {
    set i | 0 <= i < |actions| :: pid + "-" + actions[i].id
  }

  function SetAll(sel: Selection, pid: string, actions: seq<Action>, checked: bool): (r: Selection)
    decreases |actions|
    ensures forall k :: k in GroupKeys(pid, actions) ==> k in r && r[k] == checked
    ensures forall k :: k !in GroupKeys(pid, actions) ==> (k in r <==> k in sel)
    ensures forall k :: k !in GroupKeys(pid, actions) && k in sel ==> r[k] == sel[k]
  {
    if |actions| == 0 then sel
    else
      var r := SetAll(sel[pid + "-" + actions[0].id := checked], pid, actions[1..], checked);
      assert GroupKeys(pid, actions) == {pid + "-" + actions[0].id} + GroupKeys(pid, actions[1..]) by {
        forall k | k in GroupKeys(pid, actions) && k != pid + "-" + actions[0].id
          ensures k in GroupKeys(pid, actions[1..])
        {
          var i :| 0 <= i < |actions| && k == pid + "-" + actions[i].id;
          assert actions[1..][i - 1] == actions[i];
        }
        forall k | k in GroupKeys(pid, actions[1..])
          ensures k in GroupKeys(pid, actions)
        {
          var i :| 0 <= i < |actions[1..]| && k == pid + "-" + actions[1..][i].id;
          assert actions[i + 1] == actions[1..][i];
        }
      }
      r
  }

  /** `handleSelectAllForPermission`: sets every action of the screen with
      id `pid` in the page's catalogue `perms` to `checked`; an unknown id
      changes nothing. */
  function SelectAll(perms: seq<Permission>, sel: Selection, pid: string, checked: bool): (r: Selection)
    ensures FindPermission(perms, pid).None? ==> r == sel
    ensures FindPermission(perms, pid).Some? ==>
      var p := FindPermission(perms, pid).value;
      && (forall i :: 0 <= i < |p.actions| ==> Selected(r, SelKey(p, p.actions[i])) == checked)
      && (forall k :: k !in GroupKeys(pid, p.actions) ==> (k in r <==> k in sel))
      && (forall k :: k !in GroupKeys(pid, p.actions) && k in sel ==> r[k] == sel[k])
  {
    match FindPermission(perms, pid)
    case None => sel
    case Some(p) =>
      var r := SetAll(sel, pid, p.actions, checked);
      assert forall i :: 0 <= i < |p.actions| ==> SelKey(p, p.actions[i]) in GroupKeys(pid, p.actions);
      r
  }

  /** The group checkbox: ticked iff every action of the screen is ticked. */
  predicate GroupChecked(sel: Selection, p: Permission)
  {
    forall i :: 0 <= i < |p.actions| ==> Selected(sel, SelKey(p, p.actions[i]))
  }

  lemma {:induction false} ActionSlotIn(p: Permission, actions: seq<Action>, j: int)
    requires 0 <= j < |actions|
    ensures Slot(p, actions[j]) in ActionSlots(p, actions)
  {
    if j > 0 {
      ActionSlotIn(p, actions[1..], j - 1);
    }
  }

  /** Every (screen, action) position is a slot. */
  lemma {:induction false} SlotIn(perms: seq<Permission>, q: int, j: int)
    requires 0 <= q < |perms| && 0 <= j < |perms[q].actions|
    ensures Slot(perms[q], perms[q].actions[j]) in Slots(perms)
  {
    if q == 0 {
      ActionSlotIn(perms[0], perms[0].actions, j);
    } else {
      SlotIn(perms[1..], q - 1, j);
    }
  }

  /** With unique keys, two positions with the same key are the same slot. */
  lemma SameKeySameSlot(perms: seq<Permission>, q1: int, j1: int, q2: int, j2: int)
    requires KeysUnique(perms)
    requires 0 <= q1 < |perms| && 0 <= j1 < |perms[q1].actions|
    requires 0 <= q2 < |perms| && 0 <= j2 < |perms[q2].actions|
    requires SelKey(perms[q1], perms[q1].actions[j1]) == SelKey(perms[q2], perms[q2].actions[j2])
    ensures perms[q1] == perms[q2]
  {
    SlotIn(perms, q1, j1);
    SlotIn(perms, q2, j2);
    assert SlotKey(Slot(perms[q1], perms[q1].actions[j1])) == SlotKey(Slot(perms[q2], perms[q2].actions[j2]));
  }

  /** Keys of different screens never collide, so ticking or clearing one
      screen leaves every checkbox of every other screen as it was. */
  lemma SelectAllLeavesOtherScreens(perms: seq<Permission>, sel: Selection, pid: string, checked: bool, q: int, j: int)
    requires KeysUnique(perms)
    requires 0 <= q < |perms| && perms[q].id != pid
    requires 0 <= j < |perms[q].actions|
    ensures var k := SelKey(perms[q], perms[q].actions[j]);
      Selected(SelectAll(perms, sel, pid, checked), k) == Selected(sel, k)
  {
    var k := SelKey(perms[q], perms[q].actions[j]);
    var f := FindPermission(perms, pid);
    if f.Some? && k in GroupKeys(pid, f.value.actions) {
      var q' :| 0 <= q' < |perms| && perms[q'] == f.value;
      var i :| 0 <= i < |perms[q'].actions| && k == pid + "-" + perms[q'].actions[i].id;
      SameKeySameSlot(perms, q, j, q', i);
      assert false;
    }
  }

  /** No two screens share an id. */
  ghost predicate IdsDistinct(perms: seq<Permission>)
  {
    forall i, j :: 0 <= i < j < |perms| ==> perms[i].id != perms[j].id
  }

  lemma {:induction false} FindDistinct(perms: seq<Permission>, q: int)
    requires IdsDistinct(perms) && 0 <= q < |perms|
    ensures FindPermission(perms, perms[q].id) == Some(perms[q])
  {
    if q > 0 {
      assert perms[0].id != perms[q].id;
      FindDistinct(perms[1..], q - 1);
    }
  }

  /** Ticking a whole screen ticks its group checkbox; clearing a screen
      that has actions clears it. */
  lemma SelectAllGroupChecked(perms: seq<Permission>, sel: Selection, q: int, checked: bool)
    requires IdsDistinct(perms) && 0 <= q < |perms| && |perms[q].actions| > 0
    ensures GroupChecked(SelectAll(perms, sel, perms[q].id, checked), perms[q]) == checked
  {
    var p := perms[q];
    FindDistinct(perms, q);
    if !checked {
      assert !Selected(SelectAll(perms, sel, p.id, checked), SelKey(p, p.actions[0]));
    }
  }

  /** The catalogue meets both requirements above: its ids differ, its
      keys are unique and each of its screens has four actions. */
  lemma CatalogueSelectAllReady()
    ensures IdsDistinct(Catalogue) && KeysUnique(Catalogue)
    ensures forall q :: 0 <= q < |Catalogue| ==> |Catalogue[q].actions| == 4
  {
    CatalogueKeysUnique();
  }

  // ---------------------------------------------------------------------
  // Saving

  datatype RoleRequest =
    | AddRole(permissionName: string, actions: seq<Entry>)
    | UpdateRole(roleId: string, permissionName: string, actions: seq<Entry>)

  datatype SubmitResult = NameRequired | Send(request: RoleRequest)

  /** The submit handler up to the backend call: a blank name is rejected
      before anything is sent; otherwise the untrimmed name and the encoded
      list go to update when a role id is present, to add otherwise. */
  function Submit(roleName: string, sel: Selection, roleId: Option<string>): (r: SubmitResult)
    ensures r.NameRequired? <==> Text.IsBlank(roleName)
    ensures r.Send? ==> r.request.permissionName == roleName && r.request.actions == Encode(sel)
    ensures r.Send? ==> (r.request.UpdateRole? <==> roleId.Some? && roleId.value != "")
    ensures r.Send? && r.request.UpdateRole? ==> r.request.roleId == roleId.value
  {
    if Text.IsBlank(roleName) then NameRequired
    else if roleId.Some? && roleId.value != "" then Send(UpdateRole(roleId.value, roleName, Encode(sel)))
    else Send(AddRole(roleName, Encode(sel)))
  }

  /** No two slots share a checkbox key. */
  ghost predicate KeysUnique(perms: seq<Permission>)
  {
    forall s, t :: s in Slots(perms) && t in Slots(perms) && SlotKey(s) == SlotKey(t) ==> s == t
  }

  /** Loading a saved list and saving it again keeps exactly the entries
      that belong to a slot. */
  lemma EncodeDecodeSlots(perms: seq<Permission>, entries: seq<Entry>)
    requires WellFormed(perms) && KeysUnique(perms)
    ensures forall e :: e in EncodePermissions(perms, DecodePermissions(perms, entries, map[])) <==>
      e in entries && exists s :: s in Slots(perms) && SlotEntry(s) == e
  {
    var sel := DecodePermissions(perms, entries, map[]);
    DecodeSpec(perms, entries);
    forall e
      ensures e in EncodePermissions(perms, sel) <==> e in entries && exists s :: s in Slots(perms) && SlotEntry(s) == e
    {
      EncodeMembership(perms, sel, e);
      if e in EncodePermissions(perms, sel) {
        var s :| s in Slots(perms) && Selected(sel, SlotKey(s)) && SlotEntry(s) == e;
        var t :| t in Slots(perms) && SlotEntry(t) in entries && SlotKey(t) == SlotKey(s);
        assert s == t;
      }
      if e in entries && exists s :: s in Slots(perms) && SlotEntry(s) == e {
        var s :| s in Slots(perms) && SlotEntry(s) == e;
        assert SlotKey(s) in MatchedKeys(Slots(perms), entries);
      }
    }
  }

  /** The catalogue's keys are `<id>-<id>-<n>`: one character for the
      screen, one for the action. */
  lemma CatalogueKeyShape(i: int, j: int)
    requires 0 <= i < |Catalogue| && 0 <= j < |Catalogue[i].actions|
    ensures var k := SelKey(Catalogue[i], Catalogue[i].actions[j]);
      |k| == 5 && k[0] == "123456"[i] && k[4] == "1234"[j]
  {
    var pid := Catalogue[i].id;
    assert pid == ["123456"[i]];
    assert Catalogue[i].actions == StandardActions(pid);
    assert Catalogue[i].actions[j].id == pid + "-" + ["1234"[j]];
  }

  /** Keys are unique when distinct (screen, action) positions give
      distinct keys. */
  lemma KeysUniqueByIndex(perms: seq<Permission>)
    requires forall i1, j1, i2, j2 ::
      0 <= i1 < |perms| && 0 <= j1 < |perms[i1].actions| &&
      0 <= i2 < |perms| && 0 <= j2 < |perms[i2].actions| &&
      SelKey(perms[i1], perms[i1].actions[j1]) == SelKey(perms[i2], perms[i2].actions[j2])
      ==> i1 == i2 && j1 == j2
    ensures KeysUnique(perms)
  {
    forall s, t | s in Slots(perms) && t in Slots(perms) && SlotKey(s) == SlotKey(t)
      ensures s == t
    {
      SlotsMembership(perms, s);
      SlotsMembership(perms, t);
    }
  }

  lemma CatalogueKeysUnique()
    ensures KeysUnique(Catalogue)
  {
    forall i1, j1, i2, j2 |
      0 <= i1 < |Catalogue| && 0 <= j1 < |Catalogue[i1].actions| &&
      0 <= i2 < |Catalogue| && 0 <= j2 < |Catalogue[i2].actions| &&
      SelKey(Catalogue[i1], Catalogue[i1].actions[j1]) == SelKey(Catalogue[i2], Catalogue[i2].actions[j2])
      ensures i1 == i2 && j1 == j2
    {
      CatalogueKeyShape(i1, j1);
      CatalogueKeyShape(i2, j2);
    }
    KeysUniqueByIndex(Catalogue);
  }

  /** Editing a role and saving it unchanged sends back exactly the
      catalogue part of the list it was loaded from. */
  lemma SaveAfterLoad(roleName: string, entries: seq<Entry>, roleId: string)
    requires !Text.IsBlank(roleName) && roleId != ""
    ensures var r := Submit(roleName, Decode(entries), Some(roleId));
      && r.Send? && r.request.UpdateRole?
      && (forall e :: e in r.request.actions <==>
            e in entries && exists s :: s in Slots(Catalogue) && SlotEntry(s) == e)
  {
    CatalogueWellFormed();
    CatalogueKeysUnique();
    EncodeDecodeSlots(Catalogue, entries);
  }
}

=== FILE: seqs.dfy ===
/** Sequence operations used by the list transformations of the front end:
    order-preserving filtering (`Array.prototype.filter`), mapping and
    first-occurrence de-duplication (the `Map`/`includes` idioms). */
module Seqs {

  /** The elements of `s` that satisfy `f`, in their original order. */
  function Filter<T>(s: seq<T>, f: T -> bool): (r: seq<T>)
    ensures |r| <= |s|
    ensures forall i :: 0 <= i < |r| ==> r[i] in s && f(r[i])
    ensures forall i :: 0 <= i < |s| && f(s[i]) ==> s[i] in r
  {
    if |s| == 0 then []
    else (if f(s[0]) then [s[0]] else []) + Filter(s[1..], f)
  }

  /** `a` can be obtained from `b` by deleting elements (order preserved). */
  predicate IsSubseq<T(==)>(a: seq<T>, b: seq<T>)
  {
    if |a| == 0 then true
    else if |b| == 0 then false
    else if a[0] == b[0] then IsSubseq(a[1..], b[1..])
    else IsSubseq(a, b[1..])
  }

  /** A filter keeps every copy of a passing element and no copy of a
      failing one. */
  lemma {:induction false} FilterCounts<T>(s: seq<T>, f: T -> bool)
    ensures forall x :: multiset(Filter(s, f))[x] == if f(x) then multiset(s)[x] else 0
  {
    if |s| > 0 {
      FilterCounts(s[1..], f);
      assert s == [s[0]] + s[1..];
      assert multiset(s) == multiset{s[0]} + multiset(s[1..]);
    }
  }

  /** The result of a filter keeps the relative order of the kept elements. */
  lemma {:induction false} FilterIsSubseq<T>(s: seq<T>, f: T -> bool)
    ensures IsSubseq(Filter(s, f), s)
  {
    if |s| > 0 {
      FilterIsSubseq(s[1..], f);
      if f(s[0]) {
        assert Filter(s, f)[1..] == Filter(s[1..], f);
      } else {
        assert Filter(s, f) == Filter(s[1..], f);
        SubseqDropFront(Filter(s[1..], f), s);
      }
    }
  }

  lemma {:induction false} SubseqDropFront<T>(a: seq<T>, b: seq<T>)
    requires |b| > 0
    requires IsSubseq(a, b[1..])
    ensures IsSubseq(a, b)
    decreases |b|, 0
  {
    if |a| > 0 && a[0] == b[0] {
      SubseqTail(a, b[1..]);
    }
  }

  lemma {:induction false} SubseqTail<T>(a: seq<T>, c: seq<T>)
    requires |a| > 0
    requires IsSubseq(a, c)
    ensures IsSubseq(a[1..], c)
    decreases |c|, 1
  {
    if a[0] == c[0] {
      SubseqDropFront(a[1..], c);
    } else {
      SubseqTail(a, c[1..]);
      SubseqDropFront(a[1..], c);
    }
  }

  /** Filtering distributes over concatenation. */
  lemma {:induction false} FilterAppend<T>(a: seq<T>, b: seq<T>, f: T -> bool)
    ensures Filter(a + b, f) == Filter(a, f) + Filter(b, f)
  {
    if |a| == 0 {
      assert a + b == b;
    } else {
      assert (a + b)[1..] == a[1..] + b;
      FilterAppend(a[1..], b, f);
    }
  }

  /** Filtering a sequence with a first element. */
  lemma FilterCons<T>(x: T, s: seq<T>, f: T -> bool)
    ensures Filter([x] + s, f) == (if f(x) then [x] else []) + Filter(s, f)
  {
    assert ([x] + s)[1..] == s;
  }

  /** Filtering a non-empty sequence, head first. */
  lemma FilterHead<T>(s: seq<T>, f: T -> bool)
    requires |s| > 0
    ensures Filter(s, f) == (if f(s[0]) then [s[0]] else []) + Filter(s[1..], f)
  {
  }

  /** A filter that every element passes is the identity. */
  lemma {:induction false} FilterAllPass<T>(s: seq<T>, f: T -> bool)
    requires forall i :: 0 <= i < |s| ==> f(s[i])
    ensures Filter(s, f) == s
  {
    if |s| > 0 {
      FilterAllPass(s[1..], f);
    }
  }

  /** A predicate and its negation split a sequence: the two filters'
      lengths add up to the whole. */
  lemma {:induction false} FilterPartition<T>(s: seq<T>, f: T -> bool, g: T -> bool)
    requires forall x :: g(x) <==> !f(x)
    ensures |Filter(s, f)| + |Filter(s, g)| == |s|
  {
    if |s| > 0 {
      FilterPartition(s[1..], f, g);
    }
  }

  /** Two predicates that agree on every element of `s` filter it alike. */
  lemma {:induction false} FilterCongruent<T>(s: seq<T>, f: T -> bool, g: T -> bool)
    requires forall i :: 0 <= i < |s| ==> f(s[i]) == g(s[i])
    ensures Filter(s, f) == Filter(s, g)
  {
    if |s| > 0 {
      FilterCongruent(s[1..], f, g);
    }
  }

  /** `f` applied to every element, positions preserved. */
  function Map<T, U>(s: seq<T>, f: T -> U): (r: seq<U>)
    ensures |r| == |s|
    ensures forall i :: 0 <= i < |s| ==> r[i] == f(s[i])
  {
    seq(|s|, i requires 0 <= i < |s| => f(s[i]))
  }

  /** A value is among the images of the kept elements iff some element
      of `s` passes `f` and maps to it. */
  lemma MapFilterMembership<T, U>(s: seq<T>, f: T -> bool, g: T -> U, e: U)
    ensures e in Map(Filter(s, f), g) <==> exists x :: x in s && f(x) && g(x) == e
  {
    var t := Filter(s, f);
    var m := Map(t, g);
    if e in m {
      var i :| 0 <= i < |t| && m[i] == e;
      assert t[i] in s && f(t[i]) && g(t[i]) == e;
    }
    if exists x :: x in s && f(x) && g(x) == e {
      var x :| x in s && f(x) && g(x) == e;
      var j :| 0 <= j < |s| && s[j] == x;
      assert x in t;
      var i :| 0 <= i < |t| && t[i] == x;
      assert m[i] == e;
    }
  }

  /** The set of keys carried by the elements of `s`. */
  function KeysOf<T, K(==)>(s: seq<T>, key: T -> K): set<K>
  {
    set i | 0 <= i < |s| :: key(s[i])
  }

  lemma KeysOfAppend<T, K>(s: seq<T>, x: T, key: T -> K)
    ensures KeysOf(s + [x], key) == KeysOf(s, key) + {key(x)}
  {
    var t := s + [x];
    assert key(t[|s|]) == key(x);
    forall k | k in KeysOf(s, key)
      ensures k in KeysOf(t, key)
    {
      var i :| 0 <= i < |s| && key(s[i]) == k;
      assert t[i] == s[i];
    }
  }

  /** Position `i` holds the first element of `s` whose key is its key. */
  ghost predicate IsFirst<T, K>(s: seq<T>, key: T -> K, i: int)
  {
    0 <= i < |s| && forall j :: 0 <= j < i ==> key(s[j]) != key(s[i])
  }

  /** The position of the first element of `s` whose key is `k`. */
  function FirstIndex<T, K(==)>(s: seq<T>, key: T -> K, k: K): (i: nat)
    requires k in KeysOf(s, key)
    ensures i < |s| && key(s[i]) == k
    ensures forall j :: 0 <= j < i ==> key(s[j]) != k
  {
    if key(s[0]) == k then 0
    else
      assert k in KeysOf(s[1..], key) by {
        var i :| 0 <= i < |s| && key(s[i]) == k;
        assert s[1..][i - 1] == s[i];
      }
      1 + FirstIndex(s[1..], key, k)
  }

  lemma FirstIndexOfFirst<T, K>(s: seq<T>, key: T -> K, i: int)
    requires IsFirst(s, key, i)
    ensures key(s[i]) in KeysOf(s, key)
    ensures FirstIndex(s, key, key(s[i])) == i
  {
    assert key(s[i]) in KeysOf(s, key);
  }

  /** First-occurrence de-duplication by `key`: an element is kept iff no
      earlier element has the same key. */
  function DedupBy<T, K(==)>(s: seq<T>, key: T -> K): (r: seq<T>)
    ensures |r| <= |s|
    ensures KeysOf(r, key) == KeysOf(s, key)
    decreases |s|
  {
    if |s| == 0 then []
    else
      var p := s[..|s| - 1];
      var x := s[|s| - 1];
      assert s == p + [x];
      KeysOfAppend(p, x, key);
      var d := DedupBy(p, key);
      if key(x) in KeysOf(p, key) then d
      else
        KeysOfAppend(d, x, key);
        d + [x]
  }

  /** Extending the input by one element extends the de-duplicated list
      by that element exactly when its key is new. */
  lemma DedupBySnoc<T, K>(s: seq<T>, x: T, key: T -> K)
    ensures DedupBy(s + [x], key) == if key(x) in KeysOf(s, key) then DedupBy(s, key) else DedupBy(s, key) + [x]
    ensures KeysOf(s + [x], key) == KeysOf(s, key) + {key(x)}
  {
    assert (s + [x])[..|s|] == s;
    KeysOfAppend(s, x, key);
  }

  /** No two elements of `s` share a key. */
  ghost predicate KeysDistinct<T, K>(s: seq<T>, key: T -> K)
  {
    forall i, j :: 0 <= i < j < |s| ==> key(s[i]) != key(s[j])
  }

  lemma FirstIndexPrefix<T, K>(s: seq<T>, x: T, key: T -> K, k: K)
    requires k in KeysOf(s, key)
    ensures k in KeysOf(s + [x], key)
    ensures FirstIndex(s + [x], key, k) == FirstIndex(s, key, k)
  {
    KeysOfAppend(s, x, key);
    var i := FirstIndex(s, key, k);
    assert (s + [x])[i] == s[i];
    assert IsFirst(s + [x], key, i);
    FirstIndexOfFirst(s + [x], key, i);
  }

  /** Every kept element is the first occurrence of its key. */
  lemma {:induction false} DedupByKeepsFirsts<T, K>(s: seq<T>, key: T -> K)
    ensures var r := DedupBy(s, key);
      forall j :: 0 <= j < |r| ==>
        key(r[j]) in KeysOf(s, key) && r[j] == s[FirstIndex(s, key, key(r[j]))]
    decreases |s|
  {
    if |s| > 0 {
      var p := s[..|s| - 1];
      var x := s[|s| - 1];
      assert s == p + [x];
      DedupByKeepsFirsts(p, key);
      var d := DedupBy(p, key);
      DedupBySnoc(p, x, key);
      forall j | 0 <= j < |d|
        ensures key(d[j]) in KeysOf(s, key)
        ensures s[FirstIndex(s, key, key(d[j]))] == d[j]
      {
        var f := FirstIndex(p, key, key(d[j]));
        assert d[j] == p[f];
        FirstIndexPrefix(p, x, key, key(d[j]));
        assert s[f] == p[f];
      }
      if key(x) !in KeysOf(p, key) {
        assert IsFirst(s, key, |s| - 1);
        FirstIndexOfFirst(s, key, |s| - 1);
      }
    }
  }

  /** The elements of `r` carry keys of `s`, in the order in which those
      keys first occur in `s`. */
  ghost predicate InFirstOrder<T, K>(r: seq<T>, s: seq<T>, key: T -> K)
  {
    forall i, j :: 0 <= i < j < |r| ==>
      key(r[i]) in KeysOf(s, key) && key(r[j]) in KeysOf(s, key)
      && FirstIndex(s, key, key(r[i])) < FirstIndex(s, key, key(r[j]))
  }

  /** Appending an element moves no first occurrence of an earlier key. */
  lemma FirstIndicesStay<T, K>(p: seq<T>, x: T, key: T -> K, d: seq<T>)
    requires forall j :: 0 <= j < |d| ==> key(d[j]) in KeysOf(p, key)
    ensures forall j :: 0 <= j < |d| ==>
      key(d[j]) in KeysOf(p + [x], key)
      && FirstIndex(p + [x], key, key(d[j])) == FirstIndex(p, key, key(d[j])) < |p|
  {
    forall j | 0 <= j < |d|
      ensures key(d[j]) in KeysOf(p + [x], key)
      ensures FirstIndex(p + [x], key, key(d[j])) == FirstIndex(p, key, key(d[j])) < |p|
    {
      FirstIndexPrefix(p, x, key, key(d[j]));
    }
  }

  /** An element with a new key, appended after the kept ones, comes last
      in first-occurrence order. */
  lemma InFirstOrderSnoc<T, K>(p: seq<T>, x: T, key: T -> K, d: seq<T>)
    requires InFirstOrder(d, p, key)
    requires forall j :: 0 <= j < |d| ==> key(d[j]) in KeysOf(p, key)
    requires key(x) !in KeysOf(p, key)
    ensures InFirstOrder(d + [x], p + [x], key)
  {
    var s, r := p + [x], d + [x];
    FirstIndicesStay(p, x, key, d);
    assert IsFirst(s, key, |p|);
    FirstIndexOfFirst(s, key, |p|);
    forall i, j | 0 <= i < j < |r|
      ensures key(r[i]) in KeysOf(s, key) && key(r[j]) in KeysOf(s, key)
      ensures FirstIndex(s, key, key(r[i])) < FirstIndex(s, key, key(r[j]))
    {
      assert r[i] == d[i];
      if j < |d| {
        assert r[j] == d[j];
      }
    }
  }

  /** Keeping the prefix's order when the appended element is dropped. */
  lemma InFirstOrderExtend<T, K>(p: seq<T>, x: T, key: T -> K, d: seq<T>)
    requires InFirstOrder(d, p, key)
    requires forall j :: 0 <= j < |d| ==> key(d[j]) in KeysOf(p, key)
    ensures InFirstOrder(d, p + [x], key)
  {
    FirstIndicesStay(p, x, key, d);
  }

  /** Every kept element carries a key of the input. */
  lemma DedupByKeysIn<T, K>(s: seq<T>, key: T -> K)
    ensures var d := DedupBy(s, key);
      forall j :: 0 <= j < |d| ==> key(d[j]) in KeysOf(s, key)
  {
    var d := DedupBy(s, key);
    forall j | 0 <= j < |d|
      ensures key(d[j]) in KeysOf(s, key)
    {
      assert key(d[j]) in KeysOf(d, key);
    }
  }

  /** The kept elements appear in the order of their first occurrences. */
  lemma {:induction false} DedupByKeepsOrder<T, K>(s: seq<T>, key: T -> K)
    ensures InFirstOrder(DedupBy(s, key), s, key)
    decreases |s|
  {
    if |s| > 0 {
      var p := s[..|s| - 1];
      var x := s[|s| - 1];
      assert s == p + [x];
      DedupByKeepsOrder(p, key);
      var d := DedupBy(p, key);
      DedupBySnoc(p, x, key);
      DedupByKeysIn(p, key);
      if key(x) !in KeysOf(p, key) {
        InFirstOrderSnoc(p, x, key, d);
      } else {
        InFirstOrderExtend(p, x, key, d);
      }
    }
  }

  /** What de-duplication keeps: every kept element is the first occurrence
      of its key, the kept elements appear in order of first occurrence,
      and no key is kept twice. */
  lemma DedupByFirstOccurrences<T, K>(s: seq<T>, key: T -> K)
    ensures var r := DedupBy(s, key);
      && (forall j :: 0 <= j < |r| ==>
            key(r[j]) in KeysOf(s, key) && r[j] == s[FirstIndex(s, key, key(r[j]))])
      && (forall i, j :: 0 <= i < j < |r| ==>
            key(r[i]) in KeysOf(s, key) && key(r[j]) in KeysOf(s, key)
            && FirstIndex(s, key, key(r[i])) < FirstIndex(s, key, key(r[j])))
      && KeysDistinct(r, key)
  {
    DedupByKeepsFirsts(s, key);
    DedupByKeepsOrder(s, key);
  }

  /** Concatenation is associative. */
  lemma AppendAssoc<T>(a: seq<T>, b: seq<T>, c: seq<T>)
    ensures a + (b + c) == (a + b) + c
  {
  }

  /** A longer prefix of the second part extends a concatenation by one. */
  lemma AppendPrefixSnoc<T>(a: seq<T>, b: seq<T>, n: nat)
    requires n < |b|
    ensures a + b[..n + 1] == (a + b[..n]) + [b[n]]
  {
    assert b[..n + 1] == b[..n] + [b[n]];
  }

  /** A prefix one longer is the prefix extended by the next element. */
  lemma PrefixSnoc<T>(s: seq<T>, n: nat)
    requires n < |s|
    ensures s[..n + 1] == s[..n] + [s[n]]
  {
  }
}

=== FILE: specific_code_dialog.dfy ===
/** The include-override editor of one approval step: a form for one
    person plus the index of the row being edited, over the step's list of
    specific approvers. */
module SpecificCodeDialog {
  import opened Wrappers
  import opened ApprovalTypes

  /** The form fields and the row index being edited (none when adding). */
  datatype Form = Form(code: string, name: string, email: string, index: Option<int>)

  /** The backend call a save makes: the three fields, and the row index
      for an update. */
  datatype SaveCall =
    | AddSpecific(fields: Specific)
    | UpdateSpecific(fields: Specific, index: int)

  /** One table row and the position it passes to edit and delete. */
  datatype Row = Row(item: Specific, index: int)

  /** `resetForm`: all fields empty, no row held. */
  function Reset(): (r: Form)
    ensures r.code == "" && r.name == "" && r.email == "" && r.index.None?
  {
    Form("", "", "", None)
  }

  /** `handleEdit`: the row's three fields are loaded and its position is
      held; the previous form is discarded. */
  function Edit(item: Specific, index: int): (r: Form)
    ensures r.code == item.employeeCode && r.name == item.employeeName && r.email == item.employeeEmail
    ensures r.index == Some(index)
  {
    Form(item.employeeCode, item.employeeName, item.employeeEmail, Some(index))
  }

  /** The call `handleSave` makes. The fields are sent as typed, without
      any validation; an update goes to the held row. */
  function SaveCallOf(f: Form): (r: SaveCall)
    ensures r.fields == Specific(f.code, f.name, f.email)
    ensures r.UpdateSpecific? <==> f.index.Some?
    ensures r.UpdateSpecific? ==> r.index == f.index.value
  {
    match f.index
    case Some(i) => UpdateSpecific(Specific(f.code, f.name, f.email), i)
    case None => AddSpecific(Specific(f.code, f.name, f.email))
  }

  /** The form once the save callback settles: blank when it resolved,
      untouched when it threw. */
  function AfterSave(f: Form, outcome: Outcome): (r: Form)
    ensures outcome.Resolved? ==> r.index.None? && r.code == "" && r.name == "" && r.email == ""
    ensures outcome.Threw? ==> r == f
  {
    match outcome
    case Resolved => Reset()
    case Threw => f
  }

  /** The cancel button resets the form, whatever it held. */
  function Cancel(f: Form): (r: Form)
    ensures r.code == "" && r.name == "" && r.email == "" && r.index.None?
  {
    Reset()
  }

  /** The label of the save button. */
  function SaveLabel(f: Form): (r: string)
    ensures r == "Cập nhật" <==> f.index.Some?
  {
    if f.index.Some? then "Cập nhật" else "Thêm"
  }

  /** The placeholder row is shown when no step is chosen or the step has
      no specific approvers. */
  predicate Placeholder(step: Option<Step>)
  {
    step.None? || |step.value.specifics| == 0
  }

  /** The table rows: every specific approver of the step, each tagged with
      its position; no rows under the placeholder. */
  function Rows(step: Option<Step>): (r: seq<Row>)
    ensures Placeholder(step) ==> r == []
    ensures !Placeholder(step) ==> |r| == |step.value.specifics|
    ensures !Placeholder(step) ==>
      forall j :: 0 <= j < |r| ==> r[j].item == step.value.specifics[j] && r[j].index == j
  {
    if Placeholder(step) then []
    else seq(|step.value.specifics|, j requires 0 <= j < |step.value.specifics| => Row(step.value.specifics[j], j))
  }

  /** The delete button of a row: the index handed to the delete callback. */
  function DeleteIndex(row: Row): (r: int)
  {
    row.index
  }

  /** Editing row `j` and saving at once updates position `j` with that
      row's own fields; deleting row `j` deletes position `j`. */
  lemma EditRowThenSave(step: Option<Step>, j: int)
    requires !Placeholder(step) && 0 <= j < |step.value.specifics|
    ensures var row := Rows(step)[j];
      && SaveCallOf(Edit(row.item, row.index)) == UpdateSpecific(step.value.specifics[j], j)
      && DeleteIndex(row) == j
  {
  }

  /** Saving the blank form is not refused: it adds an empty approver. */
  lemma BlankSaveIsSent()
    ensures SaveCallOf(Reset()) == AddSpecific(Specific("", "", ""))
  {
  }

  /** A thrown save leaves a pending update pointed at the same row. */
  lemma ThrownSaveKeepsTarget(f: Form)
    ensures SaveCallOf(AfterSave(f, Threw)) == SaveCallOf(f)
  {
  }

  /** Cancelling an edit drops the held row: a save right after it adds a
      blank entry instead of updating the row. */
  lemma CancelDropsEditedRow(item: Specific, index: int)
    ensures SaveCallOf(Cancel(Edit(item, index))) == AddSpecific(Specific("", "", ""))
    ensures SaveCallOf(Edit(item, index)).index == index
  {
  }
}

=== FILE: text.dfy ===
/** String helpers standing for the JavaScript string methods the components
    call: `trim`, `toUpperCase`, `replace(/\s+/g, '')`, template-literal
    number rendering and `split('/').pop()`. Whitespace and case mapping are
    restricted to ASCII. */
module Text {
  import Seqs

  /** The ASCII characters that JavaScript's `\s` and `trim` treat as white
      space: space, tab, line feed, vertical tab, form feed, carriage return. */
  predicate IsSpace(c: char)
  {
    c == ' ' || c == '\t' || c == '\n' || c == '\U{000B}' || c == '\U{000C}' || c == '\r'
  }

  predicate NotSpace(c: char)
  {
    !IsSpace(c)
  }

  ghost predicate AllSpace(s: string)
  {
    forall i :: 0 <= i < |s| ==> IsSpace(s[i])
  }

  /** The end of the white-space run of `s` that starts at `i`. */
  function SpaceRunEnd(s: string, i: nat): (j: nat)
    requires i <= |s|
    ensures i <= j <= |s|
    ensures forall k :: i <= k < j ==> IsSpace(s[k])
    ensures j < |s| ==> !IsSpace(s[j])
    decreases |s| - i
  {
    if i < |s| && IsSpace(s[i]) then SpaceRunEnd(s, i + 1) else i
  }

  /** The start of the white-space run of `s` that ends at `j`, looking no
      further back than `lo`. */
  function SpaceRunStart(s: string, lo: nat, j: nat): (i: nat)
    requires lo <= j <= |s|
    ensures lo <= i <= j
    ensures forall k :: i <= k < j ==> IsSpace(s[k])
    ensures i > lo ==> !IsSpace(s[i - 1])
    decreases j
  {
    if j > lo && IsSpace(s[j - 1]) then SpaceRunStart(s, lo, j - 1) else j
  }

  /** Where the text of `s` starts once leading white space is skipped. */
  function TrimFrom(s: string): nat
  {
    SpaceRunEnd(s, 0)
  }

  /** Where the text of `s` ends once trailing white space is dropped. */
  function TrimTo(s: string): (j: nat)
    ensures TrimFrom(s) <= j <= |s|
  {
    SpaceRunStart(s, TrimFrom(s), |s|)
  }

  /** `String.prototype.trim`: the slice of `s` between its leading and its
      trailing white space. It neither starts nor ends with white space,
      and only white space is cut away. */
  function Trim(s: string): (r: string)
    ensures r == s[TrimFrom(s)..TrimTo(s)]
    ensures |r| > 0 ==> !IsSpace(r[0]) && !IsSpace(r[|r| - 1])
    ensures forall k :: 0 <= k < TrimFrom(s) ==> IsSpace(s[k])
    ensures forall k :: TrimTo(s) <= k < |s| ==> IsSpace(s[k])
  {
    s[TrimFrom(s)..TrimTo(s)]
  }

  /** JavaScript's `!s.trim()`: nothing but white space is left. */
  predicate IsBlank(s: string)
  {
    Trim(s) == ""
  }

  /** A string is blank exactly when every character is white space. */
  lemma BlankIffAllSpace(s: string)
    ensures IsBlank(s) <==> AllSpace(s)
  {
    var i, j := TrimFrom(s), TrimTo(s);
    if IsBlank(s) {
      assert i == j;
    }
  }

  predicate IsLower(c: char)
  {
    'a' <= c <= 'z'
  }

  /** ASCII `toUpperCase` of one character. */
  function UpperChar(c: char): (u: char)
    ensures IsLower(c) ==> u as int == c as int - 32
    ensures !IsLower(c) ==> u == c
    ensures !IsLower(u)
    ensures IsSpace(u) <==> IsSpace(c)
  {
    if IsLower(c) then (c as int - 32) as char else c
  }

  /** ASCII `toUpperCase`: letters a-z become A-Z, everything else is kept. */
  function ToUpper(s: string): (r: string)
    ensures |r| == |s|
    ensures forall i :: 0 <= i < |s| ==> !IsLower(r[i])
    ensures forall i :: 0 <= i < |s| && !IsLower(s[i]) ==> r[i] == s[i]
    ensures forall i :: 0 <= i < |s| ==> (IsSpace(r[i]) <==> IsSpace(s[i]))
  {
    Seqs.Map(s, UpperChar)
  }

  /** `replace(/\s+/g, '')`: every white-space character removed, the others
      kept in order. */
  function StripSpaces(s: string): (r: string)
    ensures forall i :: 0 <= i < |r| ==> !IsSpace(r[i])
    ensures Seqs.IsSubseq(r, s)
    ensures forall i :: 0 <= i < |s| && !IsSpace(s[i]) ==> s[i] in r
    ensures forall x :: multiset(r)[x] == if IsSpace(x) then 0 else multiset(s)[x]
  {
    Seqs.FilterIsSubseq(s, NotSpace);
    Seqs.FilterCounts(s, NotSpace);
    Seqs.Filter(s, NotSpace)
  }

  lemma {:induction false} ToUpperFixesUpper(s: string)
    requires forall i :: 0 <= i < |s| ==> !IsLower(s[i])
    ensures ToUpper(s) == s
  {
  }

  /** Upper-casing works character by character, so it distributes over
      concatenation. */
  lemma ToUpperAppend(a: string, b: string)
    ensures ToUpper(a + b) == ToUpper(a) + ToUpper(b)
  {
    var l, r := ToUpper(a + b), ToUpper(a) + ToUpper(b);
    forall i | 0 <= i < |l|
      ensures l[i] == r[i]
    {
      if i < |a| {
        assert (a + b)[i] == a[i];
      } else {
        assert (a + b)[i] == b[i - |a|];
      }
    }
  }

  /** The decimal digit for `d`. */
  function DigitChar(d: nat): (c: char)
    requires d < 10
    ensures '0' <= c <= '9'
  {
    ('0' as int + d) as char
  }

  predicate IsDigit(c: char)
  {
    '0' <= c <= '9'
  }

  /** How a template literal renders a non-negative integer: decimal digits,
      most significant first, without leading zeros. */
  function NatToString(n: nat): (r: string)
    ensures |r| >= 1
    ensures forall i :: 0 <= i < |r| ==> IsDigit(r[i])
    ensures |r| > 1 ==> r[0] != '0'
  {
    if n < 10 then [DigitChar(n)] else NatToString(n / 10) + [DigitChar(n % 10)]
  }

  function DigitValue(c: char): (d: nat)
    requires IsDigit(c)
    ensures d < 10
  {
    c as int - '0' as int
  }

  /** Reads decimal digits back as a number. */
  function DigitsValue(s: string): nat
    requires forall i :: 0 <= i < |s| ==> IsDigit(s[i])
  {
    if |s| == 0 then 0
    else DigitsValue(s[..|s| - 1]) * 10 + DigitValue(s[|s| - 1])
  }

  /** Rendering a number in decimal loses nothing. */
  lemma {:induction false} NatToStringRoundTrip(n: nat)
    ensures DigitsValue(NatToString(n)) == n
  {
    if n >= 10 {
      var r := NatToString(n);
      NatToStringRoundTrip(n / 10);
      assert r[..|r| - 1] == NatToString(n / 10);
    }
  }

  /** Template-literal rendering of any integer (a minus sign for negatives). */
  function IntToString(n: int): (r: string)
    ensures n >= 0 ==> r == NatToString(n)
    ensures n < 0 ==> r == "-" + NatToString(-n)
  {
    if n < 0 then "-" + NatToString(-n) else NatToString(n)
  }

  /** `s.split('/').pop()`: the part of `s` after its last slash, or all of
      `s` when it has none. */
  function LastSegment(s: string): (r: string)
    ensures |r| <= |s| && r == s[|s| - |r|..]
    ensures '/' !in r
    ensures |r| < |s| ==> s[|s| - |r| - 1] == '/'
  {
    if |s| == 0 || s[|s| - 1] == '/' then ""
    else LastSegment(s[..|s| - 1]) + [s[|s| - 1]]
  }

  /** Whatever comes before a final slash-free segment is ignored. */
  lemma LastSegmentAfterSlash(prefix: string, name: string)
    requires '/' !in name
    ensures LastSegment(prefix + "/" + name) == name
  {
    var s := prefix + "/" + name;
    assert s[|s| - |name| - 1] == '/';
  }

  /** `s.startsWith(prefix)`. */
  predicate StartsWith(s: string, prefix: string)
  {
    |prefix| <= |s| && s[..|prefix|] == prefix
  }

  /** A common front keeps a prefix a prefix. */
  lemma StartsWithFront(front: string, s: string, prefix: string)
    requires StartsWith(s, prefix)
    ensures StartsWith(front + s, front + prefix)
  {
    assert (front + s)[..|front + prefix|] == front + prefix;
  }
}

=== FILE: user_form.dfy ===
/** The create/edit user form: its length and emptiness rules and the
    default values of each mode. */
module UserForm {
  import opened Wrappers

  datatype Values = Values(name: string, email: string, role: string, status: string, password: string)

  datatype FieldError = NameTooShort | EmailInvalid | RoleMissing | StatusMissing | PasswordTooShort

  /** The part of the e-mail rule that needs no pattern: an address has
      an `@` with something before and after it. */
  predicate EmailShaped(e: string)
  {
    exists i :: 0 < i < |e| - 1 && e[i] == '@'
  }

  /** The schema's complaints: a name of at least 2 characters, an e-mail
      address, a role and a status, and a password that is either empty
      or at least 6 characters long. */
  function Errors(v: Values): (r: seq<FieldError>)
    ensures NameTooShort in r <==> |v.name| < 2
    ensures EmailInvalid in r <==> !EmailShaped(v.email)
    ensures RoleMissing in r <==> v.role == ""
    ensures StatusMissing in r <==> v.status == ""
    ensures PasswordTooShort in r <==> 0 < |v.password| < 6
  {
    (if |v.name| < 2 then [NameTooShort] else [])
    + (if !EmailShaped(v.email) then [EmailInvalid] else [])
    + (if v.role == "" then [RoleMissing] else [])
    + (if v.status == "" then [StatusMissing] else [])
    + (if |v.password| != 0 && |v.password| < 6 then [PasswordTooShort] else [])
  }

  /** The password rule alone: empty, or at least 6 characters. */
  predicate PasswordOk(p: string)
  {
    p == "" || |p| >= 6
  }

  lemma PasswordRule(v: Values)
    ensures PasswordTooShort !in Errors(v) <==> PasswordOk(v.password)
  {
  }

  /** The user being edited, as far as the form reads it. */
  datatype User = User(name: string, email: string, role: string, status: string)

  /** The default values: an edited user's fields with a blank password,
      or a blank form whose status is `active`. */
  function Defaults(user: Option<User>): (r: Values)
    ensures r.password == ""
    ensures user.Some? ==> r.name == user.value.name && r.email == user.value.email
    ensures user.Some? ==> r.role == user.value.role && r.status == user.value.status
    ensures user.None? ==> r.name == "" && r.email == "" && r.role == "" && r.status == "active"
  {
    match user
    case Some(u) => Values(u.name, u.email, u.role, u.status, "")
    case None => Values("", "", "", "active", "")
  }

  /** The password field is rendered only when creating. */
  predicate PasswordShown(user: Option<User>)
  {
    user.None?
  }

  /** Editing cannot be blocked by the password, which is hidden and
      blank; an untouched create form asks for exactly a name, an e-mail
      address and a role. */
  lemma DefaultsErrors(user: Option<User>)
    ensures !PasswordShown(user) ==> PasswordTooShort !in Errors(Defaults(user))
    ensures user.None? ==> forall e :: e in Errors(Defaults(user)) <==> e == NameTooShort || e == EmailInvalid || e == RoleMissing
  {
  }
}

=== FILE: utils.dfy ===
/** `truncate` from the shared utilities. */
module Utils {

  /** `str.length <= length ? str : str.slice(0, length)`. A negative
      `length` makes `slice` count from the end, dropping `-length`
      characters (and everything when that exceeds the length). */
  function Truncate(str: string, length: int): (r: string)
    ensures |r| <= |str| && r == str[..|r|]
    ensures |str| <= length ==> r == str
    ensures 0 <= length < |str| ==> |r| == length
    ensures length < 0 ==> |r| == if |str| + length < 0 then 0 else |str| + length
  {
    if |str| <= length then str
    else if length >= 0 then str[..length]
    else if |str| + length < 0 then ""
    else str[..|str| + length]
  }

  /** For a non-negative bound the result has length `min(|str|, length)`
      and truncating again changes nothing. */
  lemma TruncateIdempotent(str: string, length: int)
    requires length >= 0
    ensures |Truncate(str, length)| == if |str| <= length then |str| else length
    ensures Truncate(Truncate(str, length), length) == Truncate(str, length)
  {
  }

  /** With a negative bound a second truncation drops more characters:
      `truncate` is not idempotent there. */
  lemma TruncateNegativeNotIdempotent()
    ensures Truncate(Truncate("abc", -1), -1) == "a"
    ensures Truncate("abc", -1) == "ab"
  {
  }
}

=== FILE: wrappers.dfy ===
/** Failure-compatible helper datatypes shared by every component model.

    `Option` stands for a JavaScript value that may be `undefined`/`null`;
    `Outcome` stands for the settlement of an awaited promise (a callback
    that either resolves or throws). */
module Wrappers {

  datatype Option<+T> = None | Some(value: T) {

    /** The wrapped value, or `default` when there is none (`x ?? default`). */
    function GetOr(default: T): (r: T)
      ensures Some? ==> r == value
      ensures None? ==> r == default
    {
      match this
      case Some(v) => v
      case None => default
    }
  }

  /** How an awaited callback settled: it resolved, or it threw. */
  datatype Outcome = Resolved | Threw
}
